=== FILE: README.md ===
# Smart-home edge server: the device link and the rule engine

This project models the part of the smart-home edge server that talks to the
Arduino over its serial line. The model covers three pieces:

- **The Go device link** (`server/serial/arduino_serial.go`). This is one link
  record: connected and ready flags, the FIFO command queue, the current
  reading, the actuator shadow, the telemetry buffer, the pending delayed
  re-sends, and everything written to the port. Each transition is a pure
  function:
  - `SendCommand` and the ACK branch of `handleIncomingData`;
  - the telemetry decoder `parseSensorData`, with its all-zero filter and
    its 100/50 buffer cap;
  - the echo parser `parseActuatorResponse`, with its ordered substring
    chain and the `door.*?(\d+)` / `window.*?(\d+)` captures;
  - `SetActuatorState` and `executeTriggeredActions`;
  - `saveBufferedData`, which swaps the buffer out, unlocks for the
    insert, and puts the batch back on failure;
  - the flag logic of `Connect` and `Disconnect`.
- **The rule engine** (`server/services/rule_service.go`). This covers
  evaluation of the stored rules against one reading, the newest-first
  listing, the identifier checks and time stamps of create, update and
  delete, and the first-run seeding of the four default rules. The rule
  collection is an abstract sequence in insertion order.
- **The legacy TypeScript link** (`server/arduinoSerial.ts`). This is a
  second, comparable transition system with rules of its own:
  - telemetry needs all four primary keys and has no all-zero filter;
  - echoes are case-sensitive and pass a gate of trigger words;
  - rule actions are guarded by the actuator shadow;
  - a failed save loses its batch.

The world outside is a parameter of every step. That covers whether a port
write, port open, rule fetch, count or bulk insert succeeds, the clock
reading, and the store's fresh identifiers. Lines, save ticks, returning
inserts, firing re-send timers and HTTP requests are explicit events
(`GoServer.Step`, `TsLink.TsStep`).

Modules, one per source concern:

- `Wrappers`: `Option` and `Result`.
- `Text`: the Go `strings`/`strconv` and JavaScript string/`parseInt`
  behaviour the links call.
- `Models`: the records of `server/models/models.go` and object identifiers.
- `RuleEngine`: the rule engine.
- `GoLink` and `GoActuators`: the Go link.
- `GoServer`: line dispatch, the event step with its two-phase save, and its invariants.
- `TsEcho` and `TsLink`: the TypeScript link.
- `LinkComparison`: where the two links agree and where they part ways.

## Model

| member | source | states |
|---|---|---|
| GoLink.Connect | server/serial/arduino_serial.go:73-104 | A connected link refuses with an error and is unchanged. A failed open is an error and changes nothing. A successful open marks the link connected with a port, and touches nothing else. |
| GoLink.Disconnect | server/serial/arduino_serial.go:107-129 | Always returns nil. A disconnected link is unchanged. A connected link ends up disconnected with no port. Its buffer is empty after a successful final save and kept after a failed one. Every other field is unchanged. |
| GoLink.SendCommand | server/serial/arduino_serial.go:139-162 | Without a connection or port it errors and changes nothing. While busy it appends exactly `cmd` at the queue tail and writes nothing. When ready, a failed write errors and changes nothing. A successful write puts `cmd+"\n"` on the wire and makes the link busy. No other field changes. |
| GoLink.EncodeCommandRoundTrip | server/serial/arduino_serial.go:154 | The newline-terminated command text splits back into the command when the command has no newline. |
| GoLink.HandleAck | server/serial/arduino_serial.go:259-276 | An ACK makes the link ready. If the queue is non-empty, exactly its head moves to a pending re-send and the rest keeps its order. Nothing else changes. |
| GoLink.FireTimer | server/serial/arduino_serial.go:270-272 | A firing re-send removes exactly that timer and hands its command to `SendCommand`. An index with no timer is a no-op. |
| GoLink.AckThenResendTransmitsHead | server/serial/arduino_serial.go:259-276 | With `cmd` queued behind a command in flight, an ACK and then its re-send write exactly `cmd`. The rest of the queue stays in order and the link is busy again. |
| GoLink.FreshCommandOvertakesResend | server/serial/arduino_serial.go:261-272 | The link is ready between the ACK and the delayed re-send. A new command therefore goes on the wire first, and the re-sent command is queued behind it. |
| GoLink.KeyNamed | server/serial/arduino_serial.go:309-324 | A lower-cased key selects the channel it names. Any other key selects none. |
| GoLink.SetField | server/serial/arduino_serial.go:309-324 | One case of the key switch sets exactly the named channel. The other channels and the capture time stay. |
| GoLink.PartEntry | server/serial/arduino_serial.go:297-307 | A usable part yields a value within Go's 64-bit `int`. |
| GoLink.DecodeTakesLastValue | server/serial/arduino_serial.go:295-325 | Each channel of a decoded line is the value of the last usable part naming it, or 0 if there is none. A part is usable when it has exactly two `:` pieces, an `Atoi`-valid trimmed value and a known key after trimming and lower-casing. So unknown or malformed parts are skipped, and a later duplicate overrides an earlier one. |
| GoLink.ApplyPartsField | server/serial/arduino_serial.go:296-325 | Applying parts left to right gives each channel the last usable part's value, and keeps the old value when no part names the channel. |
| GoLink.DecodeEncode | server/serial/arduino_serial.go:290-325 | A line in the device's `GAS:…,LIGHT:…,…,BTN2:…` format decodes back to the reading it was made from. |
| GoLink.DecodeIdempotent | server/serial/arduino_serial.go:290-325 | Re-encoding a decoded reading and decoding again gives the same reading. |
| GoLink.LabelledPartEntry | server/serial/arduino_serial.go:297-323 | A part made of a trimmed, colon-free label, a colon and a number decodes to the label's channel and the number, whatever the label's case. |
| GoLink.SplitEncoded | server/serial/arduino_serial.go:295 | Splitting a device line at commas gives back its parts. |
| GoLink.Cap | server/serial/arduino_serial.go:354-359 | The capped buffer is a suffix of the uncapped one. It is unchanged at 100 entries or fewer, and is exactly the newest 50 beyond that. |
| GoLink.FlushStart | server/serial/arduino_serial.go:428-438 | An empty buffer is a no-op. Otherwise the whole buffer is the batch to save and the link's buffer becomes empty. |
| GoLink.FlushFinish | server/serial/arduino_serial.go:441-448 | A successful save changes nothing more. A failed save puts the batch back in front of whatever arrived meanwhile. |
| GoLink.FailedFlushRestores | server/serial/arduino_serial.go:428-448 | A failed flush with nothing arriving in between restores the link exactly. |
| GoLink.FailedFlushKeepsArrivals | server/serial/arduino_serial.go:435-448 | Samples that arrived during a failed save are kept behind the failed batch, oldest first, and nothing is lost. |
| GoLink.SaveBufferedData | server/serial/arduino_serial.go:427-449 | A save with no step in between, as `Disconnect` runs it, empties the buffer on success and keeps it on failure. Nothing else changes. |
| GoLink.BeginSave | server/serial/arduino_serial.go:428-438 | A save tick with no insert in flight takes a non-empty buffer out as the batch in flight and empties the buffer. An empty buffer, or an insert already running, leaves the link alone. |
| GoLink.EndSave | server/serial/arduino_serial.go:441-448 | When the insert returns, nothing is in flight any more. On success the buffer keeps only what arrived meanwhile. On failure it is the batch followed by what arrived meanwhile, with no cap. |
| GoLink.EndSaveCapped | server/serial/arduino_serial.go:441-448 | The corrected put-back keeps a failed save's buffer within 100 by applying the 100/50 cut to the batch and the arrivals together. It agrees with the source whenever the two fit within 100. |
| GoLink.FailedSaveWindowRestores | server/serial/arduino_serial.go:427-449 | A save that fails with nothing read in between leaves the link exactly as it was. |
| GoLink.AlertCommand | server/serial/arduino_serial.go:416-422 | An alert asks for a command exactly when its text contains `buzzer_on`, `white_light_on` or `window_close`. The first of these it contains, in that order, decides: `BUZZER_ON`, `WHITE_LIGHT_ON` or `WINDOW_CLOSE`. |
| GoLink.AlertCommandNeedsUnderscore | server/serial/arduino_serial.go:416-422 | An alert without an underscore asks for no command. |
| GoLink.ExecuteTriggeredActions | server/serial/arduino_serial.go:412-424 | Alerts that ask for no command leave the link unchanged. Only the ready flag, the queue and the wire are ever touched. |
| GoLink.SendAllOrder | server/serial/arduino_serial.go:414-423 | With working writes on a connected link, the first command goes out if the device is ready and all later commands queue in alert order. If the device is busy, all of them queue. |
| GoLink.SendAllFailingWrites | server/serial/arduino_serial.go:147-157 | On a ready link whose writes all fail, every command is dropped and nothing is queued. |
| GoLink.AlertsUnderscoreFree | server/services/rule_service.go:152-153 | When no rule name holds an underscore, no alert does either, since channels, operators and numbers never hold one. |
| GoLink.NoCommandWithoutUnderscoredName | server/serial/arduino_serial.go:345-352 | A store whose rule names have no underscore never makes a reading send a command, because the alert text never holds the action. |
| GoLink.DefaultRulesNeverCommand | server/services/rule_service.go:189-226 | The four rules seeded on first start never make any reading send a command. |
| GoLink.ParseSensorData | server/serial/arduino_serial.go:289-362 | An all-zero reading changes nothing. Any other reading becomes the current reading, and its sample is appended with its alerts. The buffer is then capped: it grows by the sample while it held fewer than 100 entries, and past 100 it is cut to the newest 50 of old buffer plus new sample. Actuators, connection, port handle, timers and the batch in flight are unchanged. Without a command-asking alert, the command channel is untouched too. |
| GoLink.ParseSensorDataAsWritten | server/serial/arduino_serial.go:332-361 | The code as written blocks forever exactly when a non-zero reading raises an alert that asks for a command. By then the current reading has already been replaced, and the sample never reaches the buffer. |
| GoLink.SelfDeadlockExample | server/serial/arduino_serial.go:140 | A rule named `buzzer_on` on gas above 700 hangs the telemetry handler on the line `GAS:750,LIGHT:1,SOIL:1,WATER:1,INFRAR:0,BTN1:0,BTN2:0`. |
| GoLink.DisconnectAsWritten | server/serial/arduino_serial.go:107-119 | The code as written blocks forever exactly when the link is connected. |
| GoLink.DisconnectAfterConnectBlocks | server/serial/arduino_serial.go:108-119 | A successful connect followed by a disconnect hangs. |
| GoActuators.EchoSwitch | server/serial/arduino_serial.go:372-396 | A change picked by the echo chain is backed by its phrase in the line: `light on`/`light off` together with `white`/`yellow`, or `fan`, `relay` or `buzzer` on/off. |
| GoActuators.EchoSwitchIsFirstPhrase | server/serial/arduino_serial.go:372-396 | The `if … else if` chain equals a table reading: the first phrase of the ordered table found in the line decides, with white checked before yellow. |
| GoActuators.SwitchTouchesOneField | server/serial/arduino_serial.go:372-396 | One echo changes at most one on/off actuator, and never an angle or the fan speed. |
| GoActuators.NoSwitchWithout | server/serial/arduino_serial.go:372-396 | A lower-cased line without the letters `l`, `f` or `z` changes no on/off actuator. |
| GoActuators.FirstDigitFrom | server/serial/arduino_serial.go:399 | The lazy `.*?` stops at the first digit after the position, and cannot cross a newline. |
| GoActuators.CaptureAfter | server/serial/arduino_serial.go:399-408 | The submatch of `word.*?(\d+)` is a non-empty digit run that follows the leftmost occurrence of the word from which a digit is reachable. There is no submatch when no occurrence reaches a digit. |
| GoActuators.ServoAngle | server/serial/arduino_serial.go:399-408 | A new servo angle exists only when the regular expression captures digits that `strconv.Atoi` accepts. It is then a non-negative `int`. |
| GoActuators.ParseActuatorResponse | server/serial/arduino_serial.go:365-409 | The echo is lower-cased. The on/off chain applies at most its first change. The door and window angles independently take their captured numbers. The fan speed is never changed. |
| GoActuators.DoorEchoExample | server/serial/arduino_serial.go:365-409 | The echo `Door: 90` sets the door angle to 90 and changes nothing else. |
| GoActuators.TruncateToInt | server/serial/arduino_serial.go:206 | `int(float64)` truncates toward zero. |
| GoActuators.SetActuator | server/serial/arduino_serial.go:183-216 | A value of the wrong dynamic type is ignored. A value of the right type becomes what the actuator reports, with numbers truncated. |
| GoActuators.SetActuatorFrame | server/serial/arduino_serial.go:183-216 | Setting one actuator leaves every other actuator as it was. |
| GoActuators.SetActuatorState | server/serial/arduino_serial.go:179-217 | An unknown actuator name changes nothing. A known name sets only that actuator. |
| GoActuators.SetToCurrentIsNoOp | server/serial/arduino_serial.go:179-217 | Storing the value an actuator already reports is a no-op. |
| GoActuators.SetTwiceKeepsSecond | server/serial/arduino_serial.go:179-217 | Two sets of the same actuator keep only the second value, when that value has the right type. |
| GoServer.Classify | server/serial/arduino_serial.go:259-285 | A line is an ACK exactly when it is `ACK`. It is telemetry exactly when it is not `ACK` and contains the case-sensitive `GAS:`. Everything else is an echo. |
| GoServer.HandleIncomingData | server/serial/arduino_serial.go:257-286 | An ACK goes to the ACK branch, telemetry to `parseSensorData`, and every other line to the echo parser. |
| GoServer.Receive | server/serial/arduino_serial.go:228-232 | An all-white-space line is skipped. Any other line is trimmed and dispatched. |
| GoServer.StepKeepsInv | server/serial/arduino_serial.go:73-449 | Every event, with either put-back, keeps two facts: the port is held exactly while connected, and a batch in flight is never empty. |
| GoServer.RunKeepsInv | server/serial/arduino_serial.go:73-449 | Any run of events from a state with the invariant keeps it. |
| GoServer.ReachableKeepsInv | server/serial/arduino_serial.go:36-47 | Every state reachable from the freshly built link satisfies the invariant. |
| GoServer.CappedStepKeepsBounded | server/serial/arduino_serial.go:355-449 | With the put-back capped, every event keeps the buffer and the batch in flight at no more than 100 samples each. |
| GoServer.CappedRunKeepsBounded | server/serial/arduino_serial.go:355-449 | With the put-back capped, any run from a bounded state stays bounded. |
| GoServer.ReachableBounded | server/serial/arduino_serial.go:355-359 | With the put-back capped, no reachable state holds more than 100 unsaved samples. |
| GoServer.RunAppend | server/serial/arduino_serial.go:73-449 | Running two event sequences one after the other is running their concatenation. |
| GoServer.FailedSaveWithNoArrivalRestores | server/serial/arduino_serial.go:241-253 | A save tick followed by a failed insert, with no line read in between, leaves the link unchanged under either put-back. |
| GoServer.FailedWindowGrowsBuffer | server/serial/arduino_serial.go:427-449 | As written, a failed save during which one stored telemetry line is read returns with the buffer one sample longer. The link is still connected and nothing is in flight. |
| GoServer.FailingWindowsGrowBuffer | server/serial/arduino_serial.go:427-449 | As written, `k` such windows in a row grow the buffer by exactly `k`, so a buffer that started at 100 passes the cap after one. |
| GoServer.EchoTouchesOnlyActuators | server/serial/arduino_serial.go:283-284 | An echo line changes nothing but the actuator shadow. |
| RuleEngine.Channel | server/services/rule_service.go:122-134 | A rule selects a value exactly when its sensor is gas, light, soil or water. |
| RuleEngine.Compare | server/services/rule_service.go:136-148 | Only the five known operators can trigger. |
| RuleEngine.OperatorAlgebra | server/services/rule_service.go:137-148 | The operators have their integer meanings: `<` is the converse of `>`, `>=` and `<=` negate `<` and `>`, `==` is `>=` and `<=` together, and the order is total. |
| RuleEngine.AlertFor | server/services/rule_service.go:117-158 | A rule contributes one alert exactly when it is enabled, watches a known channel and its comparison holds. Otherwise it contributes none. |
| RuleEngine.TriggeredActions | server/services/rule_service.go:114-160 | The discarded action list has exactly one entry per alert. |
| RuleEngine.AlertsAppend | server/services/rule_service.go:117-158 | Evaluation follows rule order: the alerts of a concatenation are the concatenation of the alerts. |
| RuleEngine.DisabledRuleIgnored | server/services/rule_service.go:118-120 | A disabled rule contributes no alert wherever it sits. |
| RuleEngine.AlertCount | server/services/rule_service.go:117-158 | The number of alerts is the number of rules that fire, with no deduplication. |
| RuleEngine.EvaluateRules | server/services/rule_service.go:107-161 | A failed fetch gives no alerts. Otherwise the alerts are those of the fetched rules, visited in the order fetched. |
| RuleEngine.GasDangerExample | server/services/rule_service.go:152-153 | The seeded gas rule on a reading of 750 gives exactly `Gas Danger Alert: gas > 700 (current: 750)`. |
| RuleEngine.InsertByAge | server/services/rule_service.go:36 | Inserting into a newest-first list keeps it newest-first and adds exactly that rule. |
| RuleEngine.GetAllRules | server/services/rule_service.go:31-42 | The listing succeeds exactly when the fetch does. It is then a newest-first permutation of the store. |
| RuleEngine.StoreAlerts | server/services/rule_service.go:108-112 | A failed fetch gives no alerts. Otherwise the alerts are those of the whole store listed newest first, so there are never more alerts than stored rules. |
| RuleEngine.StrictStoreListedReversed | server/services/rule_service.go:36 | A store created in strictly increasing time is listed in exactly reverse insertion order. |
| RuleEngine.CreateRule | server/services/rule_service.go:45-58 | The caller's rule gets both stamps before the insert, whatever its outcome. On success the store grows by exactly that rule at the end, with the fresh identifier if it had none. On failure it is an error and the store is unchanged. |
| RuleEngine.CreatedRuleListedFirst | server/services/rule_service.go:36-52 | A rule created later than every stored rule heads the next listing. |
| RuleEngine.ApplyPatchField | server/services/rule_service.go:70-79 | After a `$set` of well-typed values, each named field holds the patch's value and every other field keeps its old value. A value of the wrong type keeps the old field, which is not what the source does; see "Left out". |
| RuleEngine.UpdateRule | server/services/rule_service.go:61-86 | A non-hex identifier fails before anything else, leaving the patch and the store alone. Otherwise the caller's patch gains `updatedAt`. A successful update takes the first stored rule with that identifier and applies the caller's patch plus `updatedAt` to it. It returns that rule, stamped `now`, and puts it in the same place in the store, with every other rule unchanged. Any failure leaves the store unchanged, and not-found means no rule has that identifier. |
| RuleEngine.DeleteRule | server/services/rule_service.go:89-104 | A non-hex identifier fails before the store is touched. Any failure leaves the store unchanged, and not-found means no rule has that identifier. A success removes exactly the first rule with that identifier and keeps every other rule, in order. |
| RuleEngine.IndexOfAppended | server/services/rule_service.go:72 | A rule appended with an identifier no stored rule has is the one its identifier finds. |
| RuleEngine.DeleteUndoesCreate | server/services/rule_service.go:45-104 | Deleting, by its 24-digit hex form, the fresh identifier a successful create gave a new rule restores the store as it was before the create. |
| RuleEngine.EmptyPatchOnlyStamps | server/services/rule_service.go:61-86 | In a store with unique identifiers, an update with an empty patch succeeds on an existing rule. It changes only that rule's `updatedAt`, to `now`. |
| RuleEngine.InitializeDefaultRules | server/services/rule_service.go:177-236 | A failed count is an error and changes nothing. A non-empty store is left alone. A failure partway leaves fewer than four new rules. |
| RuleEngine.SeedFrom | server/services/rule_service.go:228-232 | Seeding appends default rules in order, one per insert, and stops at the first failed insert. It reports success exactly when no insert failed, and then adds all of them. |
| RuleEngine.SeedsFourDefaults | server/services/rule_service.go:185-232 | An empty store with no failed insert ends up with exactly four enabled rules, in this order: gas > 700 → `buzzer_on`; water > 800 → `window_close`; soil > 50 → `buzzer_on`; light < 300 → `white_light_on`. |
| RuleEngine.SeededNames | server/services/rule_service.go:189-226 | Whatever inserts fail, each seeded rule carries the name of its default. |
| RuleEngine.SeededRulesListedNewestFirst | server/services/rule_service.go:228-232 | With a forward-moving clock the seeded rules are listed light, soil, water, gas. |
| RuleEngine.DefaultNamesUnderscoreFree | server/services/rule_service.go:191-218 | No default rule's name holds an underscore. |
| RuleEngine.AlertUnderscoreFree | server/services/rule_service.go:152-153 | An alert holds an underscore only when the rule's name, sensor or operator does. |
| Models.HexRoundTrip | server/services/rule_service.go:65 | Writing a 12-byte identifier as hex and parsing it back gives the identifier. |
| Models.ObjectIdFromHex | server/services/rule_service.go:65-68 | An identifier is accepted exactly when it is 24 hex digits, and it then has 12 bytes. |
| Models.FromHexCanonical | server/services/rule_service.go:93-96 | An accepted identifier is the canonical hex of its bytes, up to case. |
| Models.ToSensorData | server/serial/arduino_serial.go:336-348 | The stored sample copies the four primary channels, infrared and the time, and carries the alerts. |
| Text.Split | server/serial/arduino_serial.go:295-297 | The pieces hold no separator and join back to the input. |
| Text.SplitJoin | server/serial/arduino_serial.go:295 | Splitting undoes joining separator-free pieces. |
| Text.Trim | server/serial/arduino_serial.go:302-303 | The trimmed text neither starts nor ends with white space. It is empty only when the input is all white space. |
| Text.TrimPadded | server/serial/arduino_serial.go:228 | Trimming removes exactly the surrounding white space. |
| Text.ToLowerIdempotent | server/serial/arduino_serial.go:302 | Lower-casing twice is lower-casing once. |
| Text.ContainsIff | server/serial/arduino_serial.go:280 | A substring test holds exactly when the needle occurs at some position. |
| Text.Atoi | server/serial/arduino_serial.go:304 | An accepted text is an optional sign then digits, and its value fits a 64-bit `int`. |
| Text.AtoiIntToString | server/serial/arduino_serial.go:304 | `Atoi` reads back what `%d` writes, for every 64-bit value. |
| Text.IntToStringDigits | server/services/rule_service.go:152-153 | `%d` writes the digits of the value, with a minus sign in front of a negative one. |
| Text.ParseIntJsIntToString | server/arduinoSerial.ts:179 | `parseInt` reads back what `String(n)` writes, followed by anything that does not start with a digit. |
| TsLink.TsConnect | server/arduinoSerial.ts:59-83 | An open port is kept and a failed open changes nothing. A successful open holds the port. |
| TsLink.TsDisconnect | server/arduinoSerial.ts:85-102 | The saver is cleared and the port dropped. Nothing else changes. |
| TsLink.TsSendCommand | server/arduinoSerial.ts:375-394 | With no open port nothing happens and nothing is queued. While busy the command joins the queue tail. When ready the link turns busy before the write, and the command reaches the wire only if the write succeeds. |
| TsLink.TsHandleAck | server/arduinoSerial.ts:113-121 | An ACK makes the link ready, and exactly the queue head moves to a pending timer. |
| TsLink.TsFireTimer | server/arduinoSerial.ts:119 | A firing timer removes exactly itself and hands its command to `sendCommand`. |
| TsLink.TsAckThenResendTransmitsHead | server/arduinoSerial.ts:113-121 | An ACK followed by its timer writes exactly the former queue head. |
| TsLink.FailedWriteStallsLink | server/arduinoSerial.ts:389-393 | After a failed write the link stays busy. Every later command is queued and nothing is written. |
| TsLink.QueuedWhileBusy | server/arduinoSerial.ts:382-386 | While busy, commands queue in the order sent and nothing is written. |
| TsLink.TsParseTakesLastValue | server/arduinoSerial.ts:171-202 | A line decodes exactly when gas, light, soil and water are all named by usable parts. Each channel is then the value of the last part naming it, and infrar/btn1/btn2 default to 0. |
| TsLink.TsLabelledEntry | server/arduinoSerial.ts:177-180 | A colon-free label naming a channel, a colon and a number read as that channel and number. |
| TsLink.TsDecodeEncode | server/arduinoSerial.ts:171-202 | A line in the device's format decodes to every channel it carries, with no width limit. |
| TsLink.EnabledSelects | server/arduinoSerial.ts:247 | The fetch keeps exactly the enabled stored rules. |
| TsLink.EnabledAppend | server/arduinoSerial.ts:247 | The fetch keeps store order. |
| TsLink.TsCompare | server/arduinoSerial.ts:253-269 | `<`, `>`, `<=` and `>=` compare a number, or a `Date`'s milliseconds, with the threshold, and are false on `NaN` and `undefined`. `==` is the strict `===`, so it holds only for the number equal to the threshold. An unknown operator never holds. |
| TsLink.TimestampRuleReadsClock | server/arduinoSerial.ts:250-269 | A rule on `timestamp` compares the reading's clock value in milliseconds with its threshold under the four order operators, and never fires under `==`. |
| TsLink.ActionNamed | server/arduinoSerial.ts:283-358 | A recognised action is named by its own text. |
| TsLink.ActOn | server/arduinoSerial.ts:283-358 | An unknown action, or one the shadow says is already done, sends nothing. Otherwise the action's name goes to `sendCommand`, and `buzzer_on` also schedules `buzzer_off`. |
| TsLink.TsExecuteAction | server/arduinoSerial.ts:281-373 | The command half, then a record of the action stored whenever a current reading exists and the save succeeds, even for an unknown action. |
| TsLink.ActionSentIffPending | server/arduinoSerial.ts:283-358 | With an open port, `sendCommand` is reached exactly when the action is known and pending: `white_light_on` only with the light off, `door_open` only with the door not at 180, `buzzer_on` always. |
| TsLink.ExecuteAll | server/arduinoSerial.ts:249-275 | Acting on the rules leaves actuators, buffer and current reading alone and only appends to the stored documents. A busy link writes nothing. |
| TsLink.TsEvaluateRules | server/arduinoSerial.ts:245-279 | A failed fetch changes nothing. Evaluation never touches the actuators, the buffer or the current reading. |
| TsLink.TsDisabledRuleIgnored | server/arduinoSerial.ts:247 | A disabled rule makes no difference to evaluation. |
| TsLink.FirstTriggeredRuleWrites | server/arduinoSerial.ts:249-274 | A triggered, pending rule at the head of the store, on a ready link, writes exactly its action's command. |
| TsLink.TsHandleIncomingData | server/arduinoSerial.ts:140-169 | A `GAS:` line that fails to decode changes nothing. One that decodes becomes the current reading and is buffered with a 100/50 cut, whatever its values. Other lines reach the echo handler only through the gate. |
| TsLink.TsReceive | server/arduinoSerial.ts:108-126 | The trimmed line `ACK` takes the ACK branch. Anything else, even an empty line, goes to `handleIncomingData`. |
| TsLink.UngatedEchoIgnored | server/arduinoSerial.ts:159-165 | An echo without a gate word changes nothing. |
| TsLink.TsSaveBufferedData | server/arduinoSerial.ts:411-424 | An empty buffer is a no-op. Otherwise the buffer is emptied, and only a successful insert stores its samples. |
| TsLink.FailedSaveLosesBatch | server/arduinoSerial.ts:414-423 | After a failed save, a buffered sample is neither buffered nor stored. |
| TsLink.TsRunKeepsBounds | server/arduinoSerial.ts:143-156 | Every run keeps the buffer at no more than 100. |
| TsLink.TsRunKeepsSaverOff | server/arduinoSerial.ts:44-89 | No run reinstalls a cleared save interval. |
| TsLink.NoSavingAfterDisconnect | server/arduinoSerial.ts:44-89 | After a disconnect and any run of later events, the saver is gone and a save tick changes nothing. |
| TsEcho.FirstClauseDecides | server/arduinoSerial.ts:204-243 | The table decides no change exactly when no phrase occurs. Otherwise the change comes from an occurring clause with no earlier occurring clause. |
| TsEcho.TsEchoChangeIsFirstClause | server/arduinoSerial.ts:205-242 | The `if … else if` chain equals the first matching clause of its ordered, case-sensitive table. |
| TsEcho.ColonNumberAfterLabel | server/arduinoSerial.ts:234-240 | `Door angle: n` and the like read back `n` from after the first colon. |
| TsEcho.UpdateActuatorStateFromResponse | server/arduinoSerial.ts:204-243 | A line with no clause changes nothing. Otherwise exactly the first clause's change applies. |
| TsEcho.TsEchoTouchesOneField | server/arduinoSerial.ts:204-243 | One echo changes at most one actuator field. |
| TsEcho.SpeedEchoNeedsForeignGateWord | server/arduinoSerial.ts:159-241 | A gated line reaches the fan-speed clause only through `light ON`, `light OFF`, `opened` or `closed`. |
| TsEcho.GateNeedsLetters | server/arduinoSerial.ts:159-163 | A line without any of `l`, `p`, `c`, `F`, `R`, `B` never passes the gate. |
| LinkComparison.DeviceLinesDecodeAlike | server/arduinoSerial.ts:171-202 | Both links decode a device line back to its reading. |
| LinkComparison.ZeroReadingKeptOnlyByTs | server/serial/arduino_serial.go:328-330 | An all-zero line is dropped by the Go link and buffered by the TypeScript link. |
| LinkComparison.FailedSaveKeptOnlyByGo | server/arduinoSerial.ts:414-423 | A failed save keeps the Go batch and loses the TypeScript batch. |
| LinkComparison.FailedWriteStallsOnlyTs | server/arduinoSerial.ts:389-393 | After a failed write the Go link stays ready, while the TypeScript link queues every later command. |
| LinkComparison.BareDoorEchoOnlyGo | server/arduinoSerial.ts:159-163 | `Door: 90` moves the Go door to 90 and never passes the TypeScript gate. |
| LinkComparison.GasAlarmOnlyOnTs | server/arduinoSerial.ts:273 | With the seeded rules and gas above 700, the Go link writes nothing, while the TypeScript link writes `buzzer_on`. |

## Left out

- Goroutines, `sync.RWMutex`, `time.Sleep`, `time.AfterFunc`, `setTimeout` and `setInterval` delays. Each line, re-send and request is one atomic step. The Go saver's save is two steps, taking the buffer out (`GoLink.BeginSave`) and the insert returning (`GoLink.EndSave`), and any events may come in between. No other interleaving inside a step is modelled, apart from the deadlocks under "Findings".
- At most one Go insert is in flight. After a disconnect and a reconnect while the old saver's insert is still running, the source would have two savers; in the model a save tick during a running insert does nothing. `Disconnect` saves the current buffer on its own, beside any insert in flight.
- Opening and probing serial ports (`ListPorts`, the body of `Connect`, `listPorts`, the TypeScript `connect` body) and the line scanner: operating-system I/O. An open is a success flag.
- `Disconnect` closes `stopChan`, and a later `Connect` starts goroutines that select on the closed channel. Channels are not modelled.
- MongoDB: each fetch, count, insert, update and delete is a success flag over an abstract rule sequence, and bulk inserts of samples go to a `stored` log. Statistics, trends and the sensor service are left out.
- HTTP handlers, `server.ts` and `server/main.go`: these are thin callers. Their requests enter as events.
- `time.Now()` and `new Date()`: a timestamp is an integer count of milliseconds since the epoch, passed in.
- Text.ToLower: does not model Unicode case mapping beyond ASCII letters; telemetry keys and echo phrases are ASCII.
- GoActuators.SetActuator: does not model `int(float64)` on values outside the 64-bit range or NaN, which Go leaves implementation-defined.
- TsLink.TsParseSensorData: JavaScript numbers are modelled as unbounded integers or `NaN`, not 64-bit floats, so precision loss above 2^53 is not modelled.
- TsLink.TsCompare: thresholds are integers. The Mongoose schema (server/models/Rule.ts:27) accepts any number, but the rule record is shared with the Go service, whose `Threshold` is an `int`. A fractional threshold on the TypeScript side, such as `gas > 700.5`, is not modelled.
- TsLink.TsEvaluateRules: the `await`s of `evaluateRules` and `executeAction` run to completion. Lines that arrive while a save or an action is pending are not interleaved.
- The TypeScript `setActuatorState` (arduinoSerial.ts:405-409) stores any value under a known key with no type check. It is outside the named operations.
- RuleEngine.ApplyPatch, RuleEngine.ApplyPatchField: only well-typed patches are modelled faithfully. A key that names no field of the rule is ignored, as decoding into `models.Rule` ignores it. A value whose type does not fit its field is a different case. Examples are `"threshold": "abc"`, a fractional threshold, `"enabled": "yes"`, or any date, since JSON carries dates as strings. The model keeps the old field for such a value. In the source, the handler binds an untyped map (server/handlers/handlers.go:300-306) and the `$set` writes the value as given. Decoding the new document into `models.Rule` (server/models/models.go:46-57) then fails. The store keeps only typed rules, so it cannot hold such a document.
- RuleEngine.UpdateRule: does not model a patch value of the wrong type for its field. For that case the model returns `Success` with the old field kept. The source returns an error after the store has already changed (rule_service.go:74-83). Every later `GetAllRules` then fails to decode, so `EvaluateRules` gives no alerts until the document is repaired. A `$set` of `_id` to another value is not modelled either; the store refuses it.
- RuleEngine.SortNewestFirst: the store's order among rules with equal `createdAt` is unspecified. The model keeps insertion order for ties.
- The `Description` of each default rule, the `log` lines, and the Sprintf in the log call at rule_service.go:155-156.

## Findings

| source | as written | input that shows it | evidently intended | confidence | as-written member | corrected member |
|---|---|---|---|---|---|---|
| server/serial/arduino_serial.go:107-119 | `Disconnect` holds the mutex and calls `saveBufferedData`, which locks the same non-re-entrant mutex at line 428 | any disconnect of a connected link, e.g. right after a successful `Connect` | the final save runs, the port is released and the link is marked disconnected | not executed | GoLink.DisconnectAsWritten, GoLink.DisconnectAfterConnectBlocks | GoLink.Disconnect |
| server/serial/arduino_serial.go:332-351 | `parseSensorData` holds the mutex while `executeTriggeredActions` calls `SendCommand`, which locks it again at line 140 | a rule named `buzzer_on` with `gas > 700`, and the line `GAS:750,LIGHT:1,SOIL:1,WATER:1,INFRAR:0,BTN1:0,BTN2:0` | the command is sent and the sample is buffered | not executed | GoLink.ParseSensorDataAsWritten, GoLink.SelfDeadlockExample | GoLink.ParseSensorData |
| server/serial/arduino_serial.go:427-449 | `saveBufferedData` unlocks during the insert. On failure it puts the batch back ahead of the samples read meanwhile with no cap, while `parseSensorData` applies the 100/50 cut only when it appends | a buffer of 100 samples, a save tick, one stored telemetry line read while the insert runs, then a failed insert: 101 samples. Each further such window adds one more | the buffer stays within its cap of 100 ("Keep buffer size manageable", line 356) however long the store keeps failing | not executed | GoServer.FailingWindowsGrowBuffer | GoLink.EndSaveCapped, GoServer.ReachableBounded |

=== FILE: compare.dfy ===
/**
 * The Go link and the legacy TypeScript link side by side: where the two
 * transition systems agree on the device's own lines, and where their
 * rules make them part ways.
 */
module LinkComparison {
  import opened Wrappers
  import opened Text
  import opened Models
  import opened RuleEngine
  import opened GoLink
  import opened GoActuators
  import opened TsEcho
  import opened TsLink

  /** Both links decode a line in the device's format to the reading it was made from. */
  lemma DeviceLinesDecodeAlike(d: SensorReading)
    requires AllInInt64(d)
    ensures DecodeTelemetry(EncodeTelemetry(d), d.timestamp) == d
    ensures TsParseSensorData(EncodeTelemetry(d), d.timestamp) == Some(FromDevice(d))
  {
    DecodeEncode(d);
    TsDecodeEncode(d);
  }

  /** Every device line carries the `GAS:` tag both links classify telemetry by. */
  lemma DeviceLineTagged(d: SensorReading)
    ensures Contains(EncodeTelemetry(d), "GAS:")
  {
    var parts := PartsFor(DeviceOrder, d);
    var s := IntToString(d.gas);
    var first := DeviceLabel(Gas) + ":" + s;
    assert parts[0] == first;
    assert EncodeTelemetry(d) == first + [','] + Join(parts[1..], ',');
    assert first[..4] == "GAS:";
    assert OccursAt(EncodeTelemetry(d), "GAS:", 0);
  }

  /** The reading the device sends when every channel reads 0. */
  function ZeroReading(now: Timestamp): SensorReading {
    SensorReading(0, 0, 0, 0, 0, 0, 0, now)
  }

  /**
   * An all-zero device line is dropped by the Go link as noise, while the
   * TypeScript link, which has no such filter, buffers it.
   */
  lemma ZeroReadingKeptOnlyByTs(gl: Link, tl: TsLink, env: Env)
    ensures ParseSensorData(gl, EncodeTelemetry(ZeroReading(env.now)), env) == gl
    ensures var r := TsHandleIncomingData(tl, EncodeTelemetry(ZeroReading(env.now)), env);
            r.buffer == Cap(tl.buffer + [FromDevice(ZeroReading(env.now))])
            && r.current == Some(FromDevice(ZeroReading(env.now)))
  {
    var z := ZeroReading(env.now);
    DeviceLinesDecodeAlike(z);
    DeviceLineTagged(z);
  }

  /**
   * A failed save: the Go link puts its batch back, the TypeScript link
   * has already spliced its buffer out and stores nothing.
   */
  lemma FailedSaveKeptOnlyByGo(gl: Link, tl: TsLink)
    requires |tl.buffer| > 0
    ensures SaveBufferedData(gl, false) == gl
    ensures TsSaveBufferedData(tl, false).buffer == [] && TsSaveBufferedData(tl, false).stored == tl.stored
  {
  }

  /**
   * A failed write: the Go link stays ready and reports the error, the
   * TypeScript link turns busy anyway and queues every later command.
   */
  lemma FailedWriteStallsOnlyTs(gl: Link, tl: TsLink, cmd: string, next: string)
    requires gl.connected && gl.portOpen && gl.ready
    requires tl.portOpen && tl.ready
    ensures var g := SendCommand(gl, cmd, false);
            g.0 == Some(WriteFailed) && g.1 == gl
    ensures var t := TsSendCommand(TsSendCommand(tl, cmd, false), next, true);
            t.wire == tl.wire && t.queue == tl.queue + [next]
  {
    FailedWriteStallsLink(tl, cmd, [next], true);
  }

  /**
   * The servo echo `Door: 90` moves the Go link's door to 90; the
   * TypeScript link never lets it past its gate.
   */
  lemma BareDoorEchoOnlyGo(a: ActuatorStates, tl: TsLink, env: Env)
    ensures ParseActuatorResponse(a, "Door: 90") == a.(doorAngle := 90)
    ensures TsHandleIncomingData(tl, "Door: 90", env) == tl
  {
    DoorEchoExample(a);
    BareDoorEchoUngated();
    UngatedEchoIgnored(tl, "Door: 90", env);
  }

  /**
   * With the rules seeded on first start and gas above 700, the Go link
   * sends nothing (its alerts never name a command), while the TypeScript
   * link, which acts on the rule's action itself, sounds the buzzer.
   */
  lemma GasAlarmOnlyOnTs(gl: Link, tl: TsLink, d: SensorReading, clock: nat -> Timestamp,
                         freshIds: nat -> ObjectId, env: Env)
    requires env.rules == InitializeDefaultRules([], true, clock, freshIds, {}).1
    requires env.rulesOk && env.writeOk && d.gas > 700
    requires tl.portOpen && tl.ready
    ensures ParseSensorData(gl, EncodeTelemetry(d), env).wire == gl.wire
    ensures TsEvaluateRules(tl, FromDevice(d), env).wire == tl.wire + [EncodeCommand("buzzer_on")]
  {
    SeededGoSilent(gl, d, clock, freshIds, env);
    SeededTsSounds(tl, d, clock, freshIds, env);
  }

  /** The Go half: no seeded rule's alert names a command, so nothing is written. */
  lemma SeededGoSilent(gl: Link, d: SensorReading, clock: nat -> Timestamp, freshIds: nat -> ObjectId, env: Env)
    requires env.rules == InitializeDefaultRules([], true, clock, freshIds, {}).1
    ensures ParseSensorData(gl, EncodeTelemetry(d), env).wire == gl.wire
  {
    DefaultRulesNeverCommand(DecodeTelemetry(EncodeTelemetry(d), env.now), clock, freshIds, {});
  }

  /** The TypeScript half: the first seeded rule watches gas above 700 and its action is `buzzer_on`. */
  lemma SeededTsSounds(tl: TsLink, d: SensorReading, clock: nat -> Timestamp, freshIds: nat -> ObjectId, env: Env)
    requires env.rules == InitializeDefaultRules([], true, clock, freshIds, {}).1
    requires env.rulesOk && env.writeOk && d.gas > 700
    requires tl.portOpen && tl.ready
    ensures TsEvaluateRules(tl, FromDevice(d), env).wire == tl.wire + [EncodeCommand("buzzer_on")]
  {
    SeedsFourDefaults(clock, freshIds, {});
    var store := env.rules;
    var x := store[0];
    assert store == [x] + store[1..];
    assert TsChannel(x.sensor, FromDevice(d)) == Number(Num(d.gas));
    BuzzerOnNamed();
    FirstTriggeredRuleWrites(tl, x, store[1..], FromDevice(d), env);
    assert env.(rules := [x] + store[1..]) == env;
  }
}

=== FILE: goactuators.dfy ===
/**
 * The actuator side of server/serial/arduino_serial.go: how echo lines from
 * the device (`parseActuatorResponse`) and manual requests from the HTTP
 * layer (`SetActuatorState`) change the last known actuator states.
 */
module GoActuators {
  import opened Wrappers
  import opened Text
  import opened Models

  // ---------------------------------------------------------------------
  // On/off echoes
  // ---------------------------------------------------------------------

  /** The on/off change one echo line makes, if any. */
  datatype Switch =
    | WhiteTo(on: bool)
    | YellowTo(on: bool)
    | FanTo(on: bool)
    | RelayTo(on: bool)
    | BuzzerTo(on: bool)

  function ApplySwitch(a: ActuatorStates, s: Switch): ActuatorStates {
    match s
    case WhiteTo(on) => a.(whiteLight := on)
    case YellowTo(on) => a.(yellowLight := on)
    case FanTo(on) => a.(fan := on)
    case RelayTo(on) => a.(relay := on)
    case BuzzerTo(on) => a.(buzzer := on)
  }

  /**
   * The `if … else if` chain of `parseActuatorResponse`
   * (arduino_serial.go:372-396) on a lower-cased line. A light phrase
   * without `white` or `yellow` ends the chain with no change.
   */
  function EchoSwitch(line: string): (s: Option<Switch>)
    ensures s.Some? ==>
              (|| Contains(line, "light on") || Contains(line, "light off")
               || Contains(line, "fan on") || Contains(line, "fan off")
               || Contains(line, "relay on") || Contains(line, "relay off")
               || Contains(line, "buzzer on") || Contains(line, "buzzer off"))
  {
    if Contains(line, "light on") then
      (if Contains(line, "white") then Some(WhiteTo(true))
       else if Contains(line, "yellow") then Some(YellowTo(true))
       else None)
    else if Contains(line, "light off") then
      (if Contains(line, "white") then Some(WhiteTo(false))
       else if Contains(line, "yellow") then Some(YellowTo(false))
       else None)
    else if Contains(line, "fan on") then Some(FanTo(true))
    else if Contains(line, "fan off") then Some(FanTo(false))
    else if Contains(line, "relay on") then Some(RelayTo(true))
    else if Contains(line, "relay off") then Some(RelayTo(false))
    else if Contains(line, "buzzer on") then Some(BuzzerTo(true))
    else if Contains(line, "buzzer off") then Some(BuzzerTo(false))
    else None
  }

  /** The phrases the chain looks for, in the order it tries them, with the change each stands for. */
  datatype Phrase = Phrase(text: string, lights: bool, change: Switch)

  const EchoPhrases: seq<Phrase> := [
    Phrase("light on", true, WhiteTo(true)),
    Phrase("light off", true, WhiteTo(false)),
    Phrase("fan on", false, FanTo(true)),
    Phrase("fan off", false, FanTo(false)),
    Phrase("relay on", false, RelayTo(true)),
    Phrase("relay off", false, RelayTo(false)),
    Phrase("buzzer on", false, BuzzerTo(true)),
    Phrase("buzzer off", false, BuzzerTo(false))
  ]

  /** A light phrase picks the white light, else the yellow one, else nothing. */
  function LightTarget(line: string, on: bool): Option<Switch> {
    if Contains(line, "white") then Some(WhiteTo(on))
    else if Contains(line, "yellow") then Some(YellowTo(on))
    else None
  }

  /**
   * Reference reading of the chain as a table: the first phrase of the
   * table found in the line decides, and only that phrase.
   */
  function FirstPhrase(line: string, table: seq<Phrase>): (s: Option<Switch>)
    ensures |table| == 0 ==> s.None?
  {
    if |table| == 0 then None
    else if Contains(line, table[0].text) then
      (if table[0].lights then LightTarget(line, table[0].change.on) else Some(table[0].change))
    else FirstPhrase(line, table[1..])
  }

  lemma FirstPhraseStep(line: string, t: seq<Phrase>, i: nat)
    requires i < |t|
    ensures FirstPhrase(line, t[i..])
         == if Contains(line, t[i].text) then
              (if t[i].lights then LightTarget(line, t[i].change.on) else Some(t[i].change))
            else FirstPhrase(line, t[i + 1..])
  {
    assert t[i..][1..] == t[i + 1..];
  }

  /** The relay and buzzer stretch of the table. */
  lemma MotorPhrases(line: string)
    ensures FirstPhrase(line, EchoPhrases[4..])
         == if Contains(line, "relay on") then Some(RelayTo(true))
            else if Contains(line, "relay off") then Some(RelayTo(false))
            else if Contains(line, "buzzer on") then Some(BuzzerTo(true))
            else if Contains(line, "buzzer off") then Some(BuzzerTo(false))
            else None
  {
    var t := EchoPhrases;
    assert FirstPhrase(line, t[8..]) == None;
    FirstPhraseStep(line, t, 7);
    FirstPhraseStep(line, t, 6);
    FirstPhraseStep(line, t, 5);
    FirstPhraseStep(line, t, 4);
  }

  /** The fan, relay and buzzer stretch of the table. */
  lemma FanAndMotorPhrases(line: string)
    ensures FirstPhrase(line, EchoPhrases[2..])
         == if Contains(line, "fan on") then Some(FanTo(true))
            else if Contains(line, "fan off") then Some(FanTo(false))
            else FirstPhrase(line, EchoPhrases[4..])
  {
    var t := EchoPhrases;
    FirstPhraseStep(line, t, 3);
    FirstPhraseStep(line, t, 2);
  }

  /** The chain and the table agree on every line. */
  lemma EchoSwitchIsFirstPhrase(line: string)
    ensures EchoSwitch(line) == FirstPhrase(line, EchoPhrases)
  {
    var t := EchoPhrases;
    MotorPhrases(line);
    FanAndMotorPhrases(line);
    FirstPhraseStep(line, t, 1);
    FirstPhraseStep(line, t, 0);
    assert t[0..] == t;
  }

  /** One echo changes at most one on/off actuator and never an angle or a speed. */
  lemma SwitchTouchesOneField(a: ActuatorStates, s: Switch)
    ensures var r := ApplySwitch(a, s);
            && r.doorAngle == a.doorAngle && r.windowAngle == a.windowAngle && r.fanSpeed == a.fanSpeed
            && (if r.whiteLight != a.whiteLight then 1 else 0) + (if r.yellowLight != a.yellowLight then 1 else 0)
               + (if r.fan != a.fan then 1 else 0) + (if r.relay != a.relay then 1 else 0)
               + (if r.buzzer != a.buzzer then 1 else 0) <= 1
  {
  }

  // ---------------------------------------------------------------------
  // Servo echoes: the first number after a word
  // ---------------------------------------------------------------------

  /**
   * The first digit at or after `j` that the lazy `.*?` of a Go regular
   * expression can reach: `.` does not match a newline.
   */
  function FirstDigitFrom(s: string, j: nat): (q: Option<nat>)
    ensures q.Some? ==> j <= q.value < |s| && IsDigit(s[q.value])
    ensures q.Some? ==> forall i :: j <= i < q.value ==> !IsDigit(s[i]) && s[i] != '\n'
    ensures q.None? ==> forall i :: j <= i < |s| && IsDigit(s[i]) ==> exists m :: j <= m < i && s[m] == '\n'
    decreases |s| - j
  {
    if j >= |s| then None
    else if IsDigit(s[j]) then Some(j)
    else if s[j] == '\n' then None
    else FirstDigitFrom(s, j + 1)
  }

  /** The end of the run of digits starting at `q`: where the greedy `\d+` stops. */
  function DigitRunEnd(s: string, q: nat): (e: nat)
    requires q <= |s|
    ensures q <= e <= |s| && AllDigits(s[q..e])
    ensures e == |s| || !IsDigit(s[e])
    decreases |s| - q
  {
    if q < |s| && IsDigit(s[q]) then
      var e := DigitRunEnd(s, q + 1);
      assert s[q..e] == [s[q]] + s[q + 1..e];
      e
    else q
  }

  /** Whether `word` occurs at `p` and a digit is reachable after it. */
  predicate Reaches(s: string, word: string, p: nat) {
    OccursAt(s, word, p) && FirstDigitFrom(s, p + |word|).Some?
  }

  /** The digits `(\d+)` captures for the occurrence of `word` at `p`. */
  function CaptureAt(s: string, word: string, p: nat): (ds: string)
    requires Reaches(s, word, p)
    ensures |ds| > 0 && AllDigits(ds)
  {
    var q := FirstDigitFrom(s, p + |word|).value;
    s[q..DigitRunEnd(s, q)]
  }

  /**
   * The submatch of `word.*?(\d+)` in `s`, searching from `from`: the
   * leftmost occurrence of `word` from which a digit is reachable, the
   * first such digit, and the longest run of digits starting there.
   */
  function CaptureAfter(s: string, word: string, from: nat): (r: Option<string>)
    requires |word| > 0
    ensures r.Some? ==>
              exists p :: from <= p && Reaches(s, word, p) && r.value == CaptureAt(s, word, p)
                          && forall p' :: from <= p' < p ==> !Reaches(s, word, p')
    ensures r.None? ==> forall p :: from <= p ==> !Reaches(s, word, p)
    decreases |s| - from
  {
    match IndexFrom(s, word, from)
    case None => None
    case Some(p) =>
      if FirstDigitFrom(s, p + |word|).Some? then
        assert Reaches(s, word, p);
        Some(CaptureAt(s, word, p))
      else
        CaptureAfter(s, word, p + 1)
  }

  /** The new angle for the servo named by `word`, when the echo carries one that `strconv.Atoi` accepts. */
  function ServoAngle(line: string, word: string): (n: Option<int>)
    requires |word| > 0
    ensures n.Some? ==> 0 <= n.value <= MaxInt64
    ensures n.Some? ==> CaptureAfter(line, word, 0).Some?
  {
    match CaptureAfter(line, word, 0)
    case None => None
    case Some(ds) => Atoi(ds)
  }

  /** The on/off part of an echo: the chain's change, if any, and nothing else. */
  function ApplyEcho(a: ActuatorStates, low: string): (r: ActuatorStates)
    ensures r.doorAngle == a.doorAngle && r.windowAngle == a.windowAngle && r.fanSpeed == a.fanSpeed
    ensures EchoSwitch(low).None? ==> r == a
    ensures EchoSwitch(low).Some? ==> r == ApplySwitch(a, EchoSwitch(low).value)
  {
    match EchoSwitch(low)
    case Some(s) => ApplySwitch(a, s)
    case None => a
  }

  /** The servo part of an echo: each angle takes the number the regular expression captures, if it parses. */
  function ApplyServos(a: ActuatorStates, low: string): (r: ActuatorStates)
    ensures r.doorAngle == ServoAngle(low, "door").GetOr(a.doorAngle)
    ensures r.windowAngle == ServoAngle(low, "window").GetOr(a.windowAngle)
    ensures r.(doorAngle := a.doorAngle, windowAngle := a.windowAngle) == a
  {
    var a1 := match ServoAngle(low, "door") case Some(n) => a.(doorAngle := n) case None => a;
    match ServoAngle(low, "window") case Some(n) => a1.(windowAngle := n) case None => a1
  }

  /**
   * `parseActuatorResponse` (arduino_serial.go:365-409): the line is
   * lower-cased, the on/off chain applies at most one change, then the
   * door and window angles take the first number after `door` and
   * `window`, when there is one that fits an `int`. The fan speed is never
   * touched by an echo.
   */
  function ParseActuatorResponse(a: ActuatorStates, line: string): (r: ActuatorStates)
    ensures var low := ToLower(line);
            && r.doorAngle == ServoAngle(low, "door").GetOr(a.doorAngle)
            && r.windowAngle == ServoAngle(low, "window").GetOr(a.windowAngle)
            && r.fanSpeed == a.fanSpeed
    ensures var low := ToLower(line);
            r.(doorAngle := a.doorAngle, windowAngle := a.windowAngle)
            == (match EchoSwitch(low) case Some(s) => ApplySwitch(a, s) case None => a)
  {
    var low := ToLower(line);
    ApplyServos(ApplyEcho(a, low), low)
  }

  /** A line without the letters `l`, `f` and `z` names no on/off phrase. */
  lemma NoSwitchWithout(low: string)
    requires 'l' !in low && 'f' !in low && 'z' !in low
    ensures EchoSwitch(low).None?
  {
    MissingCharNotContained(low, "light on", 'l');
    MissingCharNotContained(low, "light off", 'l');
    MissingCharNotContained(low, "fan on", 'f');
    MissingCharNotContained(low, "fan off", 'f');
    MissingCharNotContained(low, "relay on", 'l');
    MissingCharNotContained(low, "relay off", 'l');
    MissingCharNotContained(low, "buzzer on", 'z');
    MissingCharNotContained(low, "buzzer off", 'z');
  }

  lemma DoorEchoCapture()
    ensures CaptureAfter("door: 90", "door", 0) == Some("90")
    ensures CaptureAfter("door: 90", "window", 0).None?
  {
    var low := "door: 90";
    assert IndexFrom(low, "door", 0) == Some(0) by {
      assert low[0..4] == "door";
    }
    assert FirstDigitFrom(low, 4) == Some(6);
    assert DigitRunEnd(low, 6) == 8;
    assert low[6..8] == "90";
    MissingCharNotContained(low, "window", 'w');
    assert IndexFrom(low, "window", 0).None?;
  }

  lemma LowerDoorEcho()
    ensures ToLower("Door: 90") == "door: 90"
  {
    var t := ToLower("Door: 90");
    assert t[0] == 'd';
    forall i | 1 <= i < 8
      ensures t[i] == "door: 90"[i]
    {
    }
  }

  lemma DoorEchoAngles()
    ensures ServoAngle("door: 90", "door") == Some(90)
    ensures ServoAngle("door: 90", "window").None?
  {
    DoorEchoCapture();
    var ds := "90";
    assert AllDigits(ds);
    assert DigitsValue(ds) == 90 by {
      assert ds[..1] == "9";
    }
    AtoiDigits(ds);
  }

  /** An echo with no on/off phrase and only a door angle sets that angle and nothing else. */
  lemma DoorOnlyEcho(a: ActuatorStates, line: string, low: string, n: int)
    requires ToLower(line) == low
    requires EchoSwitch(low).None?
    requires ServoAngle(low, "door") == Some(n)
    requires ServoAngle(low, "window").None?
    ensures ParseActuatorResponse(a, line) == a.(doorAngle := n)
  {
    var r := ParseActuatorResponse(a, line);
    assert r.(doorAngle := a.doorAngle, windowAngle := a.windowAngle) == a;
  }

  /** The echo `Door: 90` sets the door angle to 90 and changes nothing else. */
  lemma DoorEchoExample(a: ActuatorStates)
    ensures ParseActuatorResponse(a, "Door: 90") == a.(doorAngle := 90)
  {
    NoSwitchWithout("door: 90");
    DoorEchoAngles();
    LowerDoorEcho();
    DoorOnlyEcho(a, "Door: 90", "door: 90", 90);
  }

  // ---------------------------------------------------------------------
  // Manual synchronisation from the HTTP layer
  // ---------------------------------------------------------------------

  /** A decoded JSON value as `interface{}` holds it: booleans, numbers as float64, anything else. */
  datatype JsonValue = JBool(b: bool) | JNumber(x: real) | JString(s: string) | JNull

  /** The actuators `SetActuatorState` knows by name. */
  datatype Actuator = WhiteLight | YellowLight | Relay | Fan | Buzzer | DoorAngle | WindowAngle | FanSpeed

  function ActuatorNamed(name: string): (k: Option<Actuator>) {
    if name == "white_light" then Some(WhiteLight)
    else if name == "yellow_light" then Some(YellowLight)
    else if name == "relay" then Some(Relay)
    else if name == "fan" then Some(Fan)
    else if name == "buzzer" then Some(Buzzer)
    else if name == "door_angle" then Some(DoorAngle)
    else if name == "window_angle" then Some(WindowAngle)
    else if name == "fan_speed" then Some(FanSpeed)
    else None
  }

  /** Go's conversion `int(f)` of a float64: truncation toward zero. */
  function TruncateToInt(x: real): (n: int)
    ensures x >= 0.0 ==> n as real <= x < n as real + 1.0
    ensures x < 0.0 ==> n as real - 1.0 < x <= n as real
  {
    if x >= 0.0 then x.Floor else -((-x).Floor)
  }

  /** An actuator's state as the value `SetActuatorState` would store to produce it. */
  function Reading(a: ActuatorStates, k: Actuator): JsonValue {
    match k
    case WhiteLight => JBool(a.whiteLight)
    case YellowLight => JBool(a.yellowLight)
    case Relay => JBool(a.relay)
    case Fan => JBool(a.fan)
    case Buzzer => JBool(a.buzzer)
    case DoorAngle => JNumber(a.doorAngle as real)
    case WindowAngle => JNumber(a.windowAngle as real)
    case FanSpeed => JNumber(a.fanSpeed as real)
  }

  /** Whether the value has the dynamic type the actuator's case asserts (`bool` or `float64`). */
  predicate Fits(k: Actuator, v: JsonValue) {
    if k.DoorAngle? || k.WindowAngle? || k.FanSpeed? then v.JNumber? else v.JBool?
  }

  /** What the actuator holds after a fitting value is stored. */
  function Stored(v: JsonValue): JsonValue {
    match v
    case JNumber(x) => JNumber(TruncateToInt(x) as real)
    case _ => v
  }

  /** One case of the `switch actuator`: a value of the right dynamic type is stored, any other is ignored. */
  function SetActuator(a: ActuatorStates, k: Actuator, v: JsonValue): (r: ActuatorStates)
    ensures !Fits(k, v) ==> r == a
    ensures Fits(k, v) ==> Reading(r, k) == Stored(v)
  {
    if !Fits(k, v) then a
    else match k
      case WhiteLight => a.(whiteLight := v.b)
      case YellowLight => a.(yellowLight := v.b)
      case Relay => a.(relay := v.b)
      case Fan => a.(fan := v.b)
      case Buzzer => a.(buzzer := v.b)
      case DoorAngle => a.(doorAngle := TruncateToInt(v.x))
      case WindowAngle => a.(windowAngle := TruncateToInt(v.x))
      case FanSpeed => a.(fanSpeed := TruncateToInt(v.x))
  }

  /** Setting one actuator leaves every other actuator as it was. */
  lemma SetActuatorFrame(a: ActuatorStates, k: Actuator, v: JsonValue, j: Actuator)
    requires j != k
    ensures Reading(SetActuator(a, k, v), j) == Reading(a, j)
  {
    if Fits(k, v) {
      match k
      case WhiteLight => assert SetActuator(a, k, v) == a.(whiteLight := v.b);
      case YellowLight => assert SetActuator(a, k, v) == a.(yellowLight := v.b);
      case Relay => assert SetActuator(a, k, v) == a.(relay := v.b);
      case Fan => assert SetActuator(a, k, v) == a.(fan := v.b);
      case Buzzer => assert SetActuator(a, k, v) == a.(buzzer := v.b);
      case DoorAngle => assert SetActuator(a, k, v) == a.(doorAngle := TruncateToInt(v.x));
      case WindowAngle => assert SetActuator(a, k, v) == a.(windowAngle := TruncateToInt(v.x));
      case FanSpeed => assert SetActuator(a, k, v) == a.(fanSpeed := TruncateToInt(v.x));
    }
  }

  /**
   * `SetActuatorState` (arduino_serial.go:179-217): a known name with a
   * value of the right dynamic type sets that actuator, numbers truncated
   * toward zero; an unknown name or a value of the wrong type changes
   * nothing.
   */
  function SetActuatorState(a: ActuatorStates, name: string, v: JsonValue): (r: ActuatorStates)
    ensures ActuatorNamed(name).None? ==> r == a
    ensures ActuatorNamed(name).Some? ==> r == SetActuator(a, ActuatorNamed(name).value, v)
  {
    match ActuatorNamed(name)
    case None => a
    case Some(k) => SetActuator(a, k, v)
  }

  /** Two actuator states that report the same value for every actuator are equal. */
  lemma ActuatorsExt(a: ActuatorStates, b: ActuatorStates)
    requires forall k :: Reading(a, k) == Reading(b, k)
    ensures a == b
  {
    assert Reading(a, WhiteLight) == Reading(b, WhiteLight) && Reading(a, YellowLight) == Reading(b, YellowLight);
    assert Reading(a, Relay) == Reading(b, Relay) && Reading(a, Fan) == Reading(b, Fan);
    assert Reading(a, Buzzer) == Reading(b, Buzzer) && Reading(a, DoorAngle) == Reading(b, DoorAngle);
    assert Reading(a, WindowAngle) == Reading(b, WindowAngle) && Reading(a, FanSpeed) == Reading(b, FanSpeed);
  }

  /** Storing the value an actuator already reports changes nothing. */
  lemma SetToCurrentIsNoOp(a: ActuatorStates, k: Actuator)
    ensures SetActuator(a, k, Reading(a, k)) == a
  {
    var r := SetActuator(a, k, Reading(a, k));
    forall j
      ensures Reading(r, j) == Reading(a, j)
    {
      if j == k {
        if k.DoorAngle? || k.WindowAngle? || k.FanSpeed? {
          assert TruncateToInt(Reading(a, k).x) as real == Reading(a, k).x;
        }
      } else {
        SetActuatorFrame(a, k, Reading(a, k), j);
      }
    }
    ActuatorsExt(r, a);
  }

  /** Setting the same actuator twice keeps only the second value, when it has the right type. */
  lemma SetTwiceKeepsSecond(a: ActuatorStates, k: Actuator, v: JsonValue, w: JsonValue)
    requires Fits(k, w)
    ensures SetActuator(SetActuator(a, k, v), k, w) == SetActuator(a, k, w)
  {
    var r1 := SetActuator(SetActuator(a, k, v), k, w);
    var r2 := SetActuator(a, k, w);
    forall j
      ensures Reading(r1, j) == Reading(r2, j)
    {
      if j != k {
        SetActuatorFrame(SetActuator(a, k, v), k, w, j);
        SetActuatorFrame(a, k, v, j);
        SetActuatorFrame(a, k, w, j);
      }
    }
    ActuatorsExt(r1, r2);
  }
}

=== FILE: golink.dfy ===
/**
 * The device link of server/serial/arduino_serial.go as an immutable state
 * record and pure transitions. Each incoming line, each save tick, each
 * returning insert, each delayed re-send and each request from the HTTP
 * layer is one step; the outcome of every port write, port open, rule
 * fetch and bulk save, and the clock reading, are parameters. Lines written
 * to the port are appended to `wire`.
 */
module GoLink {
  import opened Wrappers
  import opened Text
  import opened Models
  import opened RuleEngine

  /** When the buffer grows past `HighWater` entries it keeps only the newest `LowWater`. */
  const HighWater: nat := 100
  const LowWater: nat := 50

  datatype LinkError = AlreadyConnected | OpenFailed | NotConnected | WriteFailed

  /** The fields of `ArduinoSerial` that the transitions read and write. */
  datatype Link = Link(
    connected: bool,
    portOpen: bool,            // the port handle is not nil
    ready: bool,               // no command is awaiting its ACK
    queue: seq<string>,        // commands waiting for the device to become ready
    current: Option<SensorReading>,
    actuators: ActuatorStates,
    buffer: seq<SensorData>,   // samples not yet stored
    timers: seq<string>,       // re-sends scheduled by an ACK, not yet fired
    wire: seq<string>,         // everything written to the port, oldest first
    saving: Option<seq<SensorData>>)  // the batch the saver has taken out and is inserting

  /** The state `NewArduinoSerial` builds (arduino_serial.go:36-47). */
  const InitialLink: Link := Link(false, false, true, [], None, InitialActuators, [], [], [], None)

  /** The port handle is held exactly while connected. */
  predicate Valid(l: Link) {
    l.connected == l.portOpen
  }

  /** What the environment decides during one step. */
  datatype Env = Env(
    rules: seq<Rule>,    // the rule collection, in insertion order
    rulesOk: bool,       // whether fetching the rules succeeds
    now: Timestamp,      // the clock
    writeOk: bool,       // whether port writes succeed
    saveOk: bool,        // whether the bulk insert succeeds
    openOk: bool)        // whether opening the port succeeds

  // ---------------------------------------------------------------------
  // Connection lifecycle
  // ---------------------------------------------------------------------

  /**
   * The flag logic of `Connect` (arduino_serial.go:73-104): a connected
   * link refuses, a failed open changes nothing, a successful open marks
   * the link connected and keeps the ready flag and the queue of the
   * previous session.
   */
  function Connect(l: Link, openOk: bool): (o: (Option<LinkError>, Link))
    ensures l.connected ==> o == (Some(AlreadyConnected), l)
    ensures !l.connected && !openOk ==> o == (Some(OpenFailed), l)
    ensures !l.connected && openOk ==> o.0.None? && o.1.connected && o.1.portOpen
    ensures o.1.(connected := l.connected, portOpen := l.portOpen) == l
  {
    if l.connected then (Some(AlreadyConnected), l)
    else if !openOk then (Some(OpenFailed), l)
    else (None, l.(connected := true, portOpen := true))
  }

  /**
   * `Disconnect` (arduino_serial.go:107-129) with the final drain performed
   * without re-taking the lock: a disconnected link is left alone and nil
   * is returned; otherwise the buffer is flushed once, the port released
   * and the link marked disconnected.
   */
  function Disconnect(l: Link, saveOk: bool): (o: (Option<LinkError>, Link))
    ensures o.0.None?
    ensures !l.connected ==> o.1 == l
    ensures l.connected ==> !o.1.connected && !o.1.portOpen
    ensures l.connected ==> o.1.buffer == (if saveOk then [] else l.buffer)
    ensures l.connected ==> o.1.(connected := true, portOpen := l.portOpen, buffer := l.buffer) == l
  {
    if !l.connected then (None, l)
    else
      var drained := SaveBufferedData(l, saveOk);
      (None, drained.(portOpen := false, connected := false))
  }

  /** The result of a transition that may block forever on a lock its own goroutine holds. */
  datatype Outcome = Completed(link: Link) | Blocked(link: Link)

  /**
   * `Disconnect` as written: it holds the mutex (line 108) and calls
   * `saveBufferedData`, whose first action is to lock the same mutex
   * (line 428). Go mutexes are not re-entrant, so on a connected link the
   * call never returns.
   */
  function DisconnectAsWritten(l: Link): (o: Outcome)
    ensures o.Blocked? <==> l.connected
    ensures o.link == l
  {
    if !l.connected then Completed(l) else Blocked(l)
  }

  /** Every disconnect of a connected link hangs: connect, then disconnect. */
  lemma DisconnectAfterConnectBlocks()
    ensures var c := Connect(InitialLink, true);
            c.0.None? && DisconnectAsWritten(c.1).Blocked?
  {
  }

  // ---------------------------------------------------------------------
  // Command channel
  // ---------------------------------------------------------------------

  /** The bytes that carry one command: the command and a newline. */
  function EncodeCommand(cmd: string): string {
    cmd + "\n"
  }

  /** A newline-free command is recovered by splitting the written text at newlines. */
  lemma EncodeCommandRoundTrip(cmd: string)
    requires '\n' !in cmd
    ensures Split(EncodeCommand(cmd), '\n') == [cmd, ""]
  {
    assert Join([cmd, ""], '\n') == EncodeCommand(cmd);
    SplitJoin([cmd, ""], '\n');
  }

  /**
   * `SendCommand` (arduino_serial.go:139-162): fails without a connection;
   * queues at the tail while a command is in flight; otherwise writes the
   * command and becomes busy only if the write succeeded.
   */
  function SendCommand(l: Link, cmd: string, writeOk: bool): (o: (Option<LinkError>, Link))
    ensures !l.connected || !l.portOpen ==> o == (Some(NotConnected), l)
    ensures l.connected && l.portOpen && !l.ready ==>
      o == (None, l.(queue := l.queue + [cmd]))
    ensures l.connected && l.portOpen && l.ready && !writeOk ==> o == (Some(WriteFailed), l)
    ensures l.connected && l.portOpen && l.ready && writeOk ==>
      o.0.None? && !o.1.ready && o.1.wire == l.wire + [EncodeCommand(cmd)] && o.1.queue == l.queue
    ensures o.1.(ready := l.ready, queue := l.queue, wire := l.wire) == l
  {
    if !l.connected || !l.portOpen then (Some(NotConnected), l)
    else if !l.ready then (None, l.(queue := l.queue + [cmd]))
    else if !writeOk then (Some(WriteFailed), l)
    else (None, l.(ready := false, wire := l.wire + [EncodeCommand(cmd)]))
  }

  /**
   * The ACK branch of `handleIncomingData` (arduino_serial.go:259-276): the
   * link becomes ready and the head of the queue, if any, is taken off and
   * scheduled for a delayed re-send; the rest of the queue keeps its order.
   */
  function HandleAck(l: Link): (r: Link)
    ensures r.ready
    ensures |l.queue| > 0 ==> r.queue == l.queue[1..] && r.timers == l.timers + [l.queue[0]]
    ensures |l.queue| > 0 ==> [r.timers[|r.timers| - 1]] + r.queue == l.queue
    ensures |l.queue| == 0 ==> r == l.(ready := true)
    ensures r.(ready := l.ready, queue := l.queue, timers := l.timers) == l
  {
    if |l.queue| > 0 then l.(ready := true, queue := l.queue[1..], timers := l.timers + [l.queue[0]])
    else l.(ready := true)
  }

  /**
   * The delayed re-send scheduled by an ACK (arduino_serial.go:270-272):
   * timer `i` fires and hands its command to `SendCommand`, whose error is
   * dropped. Timers may fire in any order; an index with no timer is a no-op.
   */
  function FireTimer(l: Link, i: nat, writeOk: bool): (r: Link)
    ensures i >= |l.timers| ==> r == l
    ensures i < |l.timers| ==> |r.timers| == |l.timers| - 1
    ensures i < |l.timers| ==> r == SendCommand(l.(timers := l.timers[..i] + l.timers[i + 1..]), l.timers[i], writeOk).1
  {
    if i >= |l.timers| then l
    else SendCommand(l.(timers := l.timers[..i] + l.timers[i + 1..]), l.timers[i], writeOk).1
  }

  /**
   * The command channel's busy/ready cycle: with `cmd` queued behind a
   * command in flight, an ACK followed by its re-send writes exactly `cmd`,
   * leaves the rest of the queue in order, and the link is busy again.
   */
  lemma AckThenResendTransmitsHead(l: Link, cmd: string, rest: seq<string>)
    requires l.connected && l.portOpen && !l.ready && l.queue == [cmd] + rest && l.timers == []
    ensures var r := FireTimer(HandleAck(l), 0, true);
            r.wire == l.wire + [EncodeCommand(cmd)] && r.queue == rest && !r.ready && r.timers == []
  {
  }

  /** Between the ACK and the re-send the link is ready, so a fresh command overtakes the scheduled one. */
  lemma FreshCommandOvertakesResend(l: Link, queued: string, newCmd: string)
    requires l.connected && l.portOpen && !l.ready && l.queue == [queued] && l.timers == []
    ensures var a := HandleAck(l);
            var s := SendCommand(a, newCmd, true).1;
            var r := FireTimer(s, 0, true);
            r.wire == l.wire + [EncodeCommand(newCmd)] && r.queue == [queued]
  {
  }

  // ---------------------------------------------------------------------
  // Telemetry decoding
  // ---------------------------------------------------------------------

  /** The channels a telemetry line may set. */
  datatype Key = Gas | Light | Soil | Water | Infrar | Btn1 | Btn2

  /** A channel's name after lower-casing, as the `switch key` cases spell it. */
  function KeyName(k: Key): string {
    match k
    case Gas => "gas"
    case Light => "light"
    case Soil => "soil"
    case Water => "water"
    case Infrar => "infrar"
    case Btn1 => "btn1"
    case Btn2 => "btn2"
  }

  /** The case of the `switch key` (arduino_serial.go:309-324) a lower-cased key selects, if any. */
  function KeyNamed(name: string): (k: Option<Key>)
    ensures k.Some? ==> KeyName(k.value) == name
    ensures k.None? ==> forall j :: KeyName(j) != name
  {
    if name == "gas" then Some(Gas)
    else if name == "light" then Some(Light)
    else if name == "soil" then Some(Soil)
    else if name == "water" then Some(Water)
    else if name == "infrar" then Some(Infrar)
    else if name == "btn1" then Some(Btn1)
    else if name == "btn2" then Some(Btn2)
    else None
  }

  function Field(d: SensorReading, k: Key): int {
    match k
    case Gas => d.gas
    case Light => d.light
    case Soil => d.soil
    case Water => d.water
    case Infrar => d.infrar
    case Btn1 => d.btn1
    case Btn2 => d.btn2
  }

  /** One case of the `switch key`: the named channel takes `v`, the others keep their values. */
  function SetField(d: SensorReading, k: Key, v: int): (r: SensorReading)
    ensures Field(r, k) == v
    ensures forall j :: j != k ==> Field(r, j) == Field(d, j)
    ensures r.timestamp == d.timestamp
    ensures AllInInt64(d) && InInt64(v) ==> AllInInt64(r)
  {
    match k
    case Gas => d.(gas := v)
    case Light => d.(light := v)
    case Soil => d.(soil := v)
    case Water => d.(water := v)
    case Infrar => d.(infrar := v)
    case Btn1 => d.(btn1 := v)
    case Btn2 => d.(btn2 := v)
  }

  /**
   * One comma-separated part: usable only when it splits at `:` into
   * exactly two pieces, the trimmed value parses as an integer and the
   * trimmed, lower-cased key names a channel (arduino_serial.go:296-324).
   */
  function PartEntry(part: string): (e: Option<(Key, int)>)
    ensures e.Some? ==> InInt64(e.value.1)
  {
    var kv := Split(part, ':');
    if |kv| != 2 then None
    else match Atoi(TrimSpace(kv[1]))
      case None => None
      case Some(v) =>
        match KeyNamed(ToLower(TrimSpace(kv[0])))
        case None => None
        case Some(k) => Some((k, v))
  }

  function ApplyPart(d: SensorReading, part: string): (r: SensorReading)
    ensures r.timestamp == d.timestamp
    ensures AllInInt64(d) ==> AllInInt64(r)
  {
    match PartEntry(part)
    case None => d
    case Some(e) => SetField(d, e.0, e.1)
  }

  predicate AllInInt64(d: SensorReading) {
    InInt64(d.gas) && InInt64(d.light) && InInt64(d.soil) && InInt64(d.water)
    && InInt64(d.infrar) && InInt64(d.btn1) && InInt64(d.btn2)
  }

  /** The parts applied left to right, each later part overriding earlier ones. */
  function ApplyParts(d: SensorReading, parts: seq<string>): (r: SensorReading)
    ensures r.timestamp == d.timestamp
    ensures AllInInt64(d) ==> AllInInt64(r)
    decreases |parts|
  {
    if |parts| == 0 then d else ApplyParts(ApplyPart(d, parts[0]), parts[1..])
  }

  /** Reference reading of a channel: the value of the last usable part naming it. */
  function LastValue(parts: seq<string>, k: Key): Option<int> {
    if |parts| == 0 then None
    else match LastValue(parts[1..], k)
      case Some(v) => Some(v)
      case None =>
        match PartEntry(parts[0])
        case Some(e) => if e.0 == k then Some(e.1) else None
        case None => None
  }

  /** The zero reading stamped with the capture time. */
  function EmptyReading(now: Timestamp): SensorReading {
    SensorReading(0, 0, 0, 0, 0, 0, 0, now)
  }

  /** The decoding half of `parseSensorData` (arduino_serial.go:291-325). */
  function DecodeTelemetry(line: string, now: Timestamp): (d: SensorReading)
    ensures d.timestamp == now && AllInInt64(d)
  {
    ApplyParts(EmptyReading(now), Split(line, ','))
  }

  lemma {:induction false} ApplyPartsField(d: SensorReading, parts: seq<string>, k: Key)
    ensures Field(ApplyParts(d, parts), k) == LastValue(parts, k).GetOr(Field(d, k))
    decreases |parts|
  {
    if |parts| > 0 {
      ApplyPartsField(ApplyPart(d, parts[0]), parts[1..], k);
    }
  }

  /**
   * Every channel of a decoded line holds the value of the last usable
   * part whose key names it, and 0 when there is none: unknown keys and
   * malformed parts are skipped, a later duplicate overrides an earlier one.
   */
  lemma DecodeTakesLastValue(line: string, now: Timestamp, k: Key)
    ensures Field(DecodeTelemetry(line, now), k) == LastValue(Split(line, ','), k).GetOr(0)
  {
    ApplyPartsField(EmptyReading(now), Split(line, ','), k);
  }

  /** The order in which the device sends its channels. */
  const DeviceOrder: seq<Key> := [Gas, Light, Soil, Water, Infrar, Btn1, Btn2]

  /** The upper-case label the device puts before each value. */
  function DeviceLabel(k: Key): string {
    match k
    case Gas => "GAS"
    case Light => "LIGHT"
    case Soil => "SOIL"
    case Water => "WATER"
    case Infrar => "INFRAR"
    case Btn1 => "BTN1"
    case Btn2 => "BTN2"
  }

  /** One `LABEL:value` part of a device line. */
  function FieldPart(k: Key, v: int): string {
    DeviceLabel(k) + ":" + IntToString(v)
  }

  function PartsFor(keys: seq<Key>, d: SensorReading): (parts: seq<string>)
    ensures |parts| == |keys|
    ensures forall i :: 0 <= i < |keys| ==> parts[i] == FieldPart(keys[i], Field(d, keys[i]))
  {
    if |keys| == 0 then [] else [FieldPart(keys[0], Field(d, keys[0]))] + PartsFor(keys[1..], d)
  }

  /** The device's own line format: `GAS:…,LIGHT:…,SOIL:…,WATER:…,INFRAR:…,BTN1:…,BTN2:…`. */
  function EncodeTelemetry(d: SensorReading): string {
    Join(PartsFor(DeviceOrder, d), ',')
  }

  /** A label is a non-empty run of upper-case letters and digits. */
  predicate LabelChars(n: string) {
    |n| > 0 && forall i :: 0 <= i < |n| ==> 'A' <= n[i] <= 'Z' || '0' <= n[i] <= '9'
  }

  lemma DeviceLabelChars(k: Key)
    ensures LabelChars(DeviceLabel(k))
  {
  }

  lemma DeviceLabelLower(k: Key)
    ensures ToLower(DeviceLabel(k)) == KeyName(k)
  {
    var n := DeviceLabel(k);
    match k
    case Gas => assert ToLower(n) == "gas";
    case Light => assert ToLower(n) == "light";
    case Soil => assert ToLower(n) == "soil";
    case Water => assert ToLower(n) == "water";
    case Infrar => assert ToLower(n) == "infrar";
    case Btn1 => assert ToLower(n) == "btn1";
    case Btn2 => assert ToLower(n) == "btn2";
  }

  lemma DeviceLabelShape(k: Key)
    ensures var n := DeviceLabel(k);
            && |n| > 0 && ':' !in n && ',' !in n
            && !IsSpace(GoSpace, n[0]) && !IsSpace(GoSpace, n[|n| - 1])
            && ToLower(n) == KeyName(k)
  {
    DeviceLabelChars(k);
    DeviceLabelLower(k);
  }

  lemma KeyNamedName(k: Key)
    ensures KeyNamed(KeyName(k)) == Some(k)
  {
  }

  /** A device part decodes to its own channel and value. */
  lemma FieldPartEntry(k: Key, v: int)
    requires InInt64(v)
    ensures PartEntry(FieldPart(k, v)) == Some((k, v))
  {
    DeviceLabelShape(k);
    KeyNamedName(k);
    assert FieldPart(k, v) == DeviceLabel(k) + [':'] + IntToString(v);
    LabelledPartEntry(DeviceLabel(k), k, v);
  }

  /** A part made of a label that names channel `k`, a colon and a number decodes to `k` and the number. */
  lemma LabelledPartEntry(name: string, k: Key, v: int)
    requires InInt64(v)
    requires |name| > 0 && ':' !in name
    requires !IsSpace(GoSpace, name[0]) && !IsSpace(GoSpace, name[|name| - 1])
    requires KeyNamed(ToLower(name)) == Some(k)
    ensures PartEntry(name + [':'] + IntToString(v)) == Some((k, v))
  {
    var s := IntToString(v);
    NumberHasNoSeparators(v);
    SplitPair(name, s, ':');
    TrimNoOp(GoSpace, name);
    TrimNoOp(GoSpace, s);
    AtoiIntToString(v);
  }

  lemma FieldPartNoComma(k: Key, v: int)
    ensures ',' !in FieldPart(k, v)
  {
    DeviceLabelShape(k);
    NumberHasNoSeparators(v);
  }

  /** The device's parts contain no comma, so splitting a line gives them back. */
  lemma SplitEncoded(keys: seq<Key>, d: SensorReading)
    requires |keys| > 0
    ensures Split(Join(PartsFor(keys, d), ','), ',') == PartsFor(keys, d)
  {
    var parts := PartsFor(keys, d);
    forall i | 0 <= i < |parts|
      ensures ',' !in parts[i]
    {
      FieldPartNoComma(keys[i], Field(d, keys[i]));
    }
    SplitJoin(parts, ',');
  }

  /** Applying a device line's parts sets exactly the channels it names, to the encoded values. */
  lemma {:induction false} ApplyPartsFor(r: SensorReading, keys: seq<Key>, d: SensorReading)
    requires AllInInt64(d)
    ensures forall k :: Field(ApplyParts(r, PartsFor(keys, d)), k) == (if k in keys then Field(d, k) else Field(r, k))
    decreases |keys|
  {
    if |keys| > 0 {
      var parts := PartsFor(keys, d);
      var v := Field(d, keys[0]);
      assert InInt64(v) by { assert keys[0].Gas? || keys[0].Light? || keys[0].Soil? || keys[0].Water?
                                 || keys[0].Infrar? || keys[0].Btn1? || keys[0].Btn2?; }
      FieldPartEntry(keys[0], v);
      var r1 := ApplyPart(r, parts[0]);
      assert r1 == SetField(r, keys[0], v);
      assert parts[1..] == PartsFor(keys[1..], d);
      ApplyPartsFor(r1, keys[1..], d);
      forall k
        ensures Field(ApplyParts(r, parts), k) == (if k in keys then Field(d, k) else Field(r, k))
      {
        assert k in keys <==> k == keys[0] || k in keys[1..];
      }
    }
  }

  /** Two readings with the same channels and capture time are the same reading. */
  lemma ReadingExt(a: SensorReading, b: SensorReading)
    requires forall k :: Field(a, k) == Field(b, k)
    requires a.timestamp == b.timestamp
    ensures a == b
  {
    assert Field(a, Gas) == Field(b, Gas) && Field(a, Light) == Field(b, Light);
    assert Field(a, Soil) == Field(b, Soil) && Field(a, Water) == Field(b, Water);
    assert Field(a, Infrar) == Field(b, Infrar) && Field(a, Btn1) == Field(b, Btn1);
    assert Field(a, Btn2) == Field(b, Btn2);
  }

  lemma DeviceSendsEveryKey(k: Key)
    ensures k in DeviceOrder
  {
    match k
    case Gas => assert DeviceOrder[0] == k;
    case Light => assert DeviceOrder[1] == k;
    case Soil => assert DeviceOrder[2] == k;
    case Water => assert DeviceOrder[3] == k;
    case Infrar => assert DeviceOrder[4] == k;
    case Btn1 => assert DeviceOrder[5] == k;
    case Btn2 => assert DeviceOrder[6] == k;
  }

  /** Decoding a line written in the device's format gives back the reading. */
  lemma DecodeEncode(d: SensorReading)
    requires AllInInt64(d)
    ensures DecodeTelemetry(EncodeTelemetry(d), d.timestamp) == d
  {
    SplitEncoded(DeviceOrder, d);
    var r := DecodeTelemetry(EncodeTelemetry(d), d.timestamp);
    ApplyPartsFor(EmptyReading(d.timestamp), DeviceOrder, d);
    forall k
      ensures Field(r, k) == Field(d, k)
    {
      DeviceSendsEveryKey(k);
    }
    ReadingExt(r, d);
  }

  /** Decoding is idempotent: re-encoding a decoded reading and decoding again changes nothing. */
  lemma DecodeIdempotent(line: string, now: Timestamp)
    ensures var d := DecodeTelemetry(line, now);
            DecodeTelemetry(EncodeTelemetry(d), now) == d
  {
    DecodeEncode(DecodeTelemetry(line, now));
  }

  // ---------------------------------------------------------------------
  // Telemetry buffer and flusher
  // ---------------------------------------------------------------------

  /** The cap applied after each append (arduino_serial.go:357-359). */
  function Cap<T>(b: seq<T>): (r: seq<T>)
    ensures |b| <= HighWater ==> r == b
    ensures |b| > HighWater ==> |r| == LowWater
    ensures |r| <= |b| && r == b[|b| - |r|..]
  {
    if |b| > HighWater then b[|b| - LowWater..] else b
  }

  /**
   * The first half of `saveBufferedData` (arduino_serial.go:428-438): an
   * empty buffer is left alone; otherwise the whole buffer is taken out as
   * the batch to save and the link's buffer is emptied.
   */
  function FlushStart(l: Link): (o: (Link, seq<SensorData>))
    ensures |l.buffer| == 0 ==> o == (l, [])
    ensures |l.buffer| > 0 ==> o.1 == l.buffer && o.0 == l.(buffer := [])
  {
    if |l.buffer| == 0 then (l, []) else (l.(buffer := []), l.buffer)
  }

  /**
   * The second half (arduino_serial.go:441-448): after a failed bulk save
   * the batch is put back ahead of whatever arrived in the meantime.
   */
  function FlushFinish(l: Link, batch: seq<SensorData>, saveOk: bool): (r: Link)
    ensures saveOk ==> r == l
    ensures !saveOk ==> |r.buffer| == |batch| + |l.buffer|
                        && r.buffer[..|batch|] == batch && r.buffer[|batch|..] == l.buffer
    ensures r.(buffer := l.buffer) == l
  {
    if saveOk then l else l.(buffer := batch + l.buffer)
  }

  /** A failed flush with nothing arriving in between restores the link exactly. */
  lemma FailedFlushRestores(l: Link)
    ensures var (l1, batch) := FlushStart(l);
            FlushFinish(l1, batch, false) == l
  {
    var (l1, batch) := FlushStart(l);
    assert batch + l1.buffer == l.buffer;
  }

  /**
   * Samples that arrive while a save is in flight survive a failure, behind
   * the failed batch: nothing is lost and the order stays oldest first.
   */
  lemma FailedFlushKeepsArrivals(l: Link, arrived: seq<SensorData>)
    requires |l.buffer| > 0
    ensures var (l1, batch) := FlushStart(l);
            FlushFinish(l1.(buffer := arrived), batch, false).buffer == l.buffer + arrived
  {
  }

  /**
   * The saver's ticker fires (arduino_serial.go:250-251) and `saveBufferedData`
   * runs up to the unlock before the insert (lines 428-438): a non-empty
   * buffer becomes the batch in flight and the buffer is emptied. The saver
   * is one goroutine, so a tick while its insert is still running waits.
   */
  function BeginSave(l: Link): (r: Link)
    ensures l.saving.Some? || |l.buffer| == 0 ==> r == l
    ensures l.saving.None? && |l.buffer| > 0 ==> r.saving == Some(l.buffer) && r.buffer == []
    ensures r.(buffer := l.buffer, saving := l.saving) == l
  {
    if l.saving.Some? then l
    else
      var (l1, batch) := FlushStart(l);
      if |batch| == 0 then l1 else l1.(saving := Some(batch))
  }

  /**
   * The insert in flight returns (arduino_serial.go:441-448): on failure
   * the batch goes back ahead of the samples that arrived meanwhile, and
   * no cap is applied to the result.
   */
  function EndSave(l: Link, saveOk: bool): (r: Link)
    ensures l.saving.None? ==> r == l
    ensures l.saving.Some? ==> r.saving.None?
    ensures l.saving.Some? && saveOk ==> r.buffer == l.buffer
    ensures l.saving.Some? && !saveOk ==> r.buffer == l.saving.value + l.buffer
    ensures r.(buffer := l.buffer, saving := l.saving) == l
  {
    match l.saving
    case None => l
    case Some(batch) => FlushFinish(l.(saving := None), batch, saveOk)
  }

  /**
   * The put-back with the cap of `parseSensorData` (lines 357-359)
   * applied to it as well, so the buffer stays within `HighWater` however
   * long the store keeps failing.
   */
  function EndSaveCapped(l: Link, saveOk: bool): (r: Link)
    ensures l.saving.Some? && !saveOk ==> |r.buffer| <= HighWater
    ensures l.saving.None? || |l.saving.value| + |l.buffer| <= HighWater ==> r == EndSave(l, saveOk)
    ensures l.saving.Some? && !saveOk ==> r.buffer == Cap(l.saving.value + l.buffer)
    ensures r.(buffer := l.buffer, saving := l.saving) == l
  {
    var r := EndSave(l, saveOk);
    if l.saving.Some? && !saveOk then r.(buffer := Cap(r.buffer)) else r
  }

  /** A save that fails with nothing arriving in between leaves the link as it was. */
  lemma FailedSaveWindowRestores(l: Link)
    requires l.saving.None?
    ensures EndSave(BeginSave(l), false) == l
  {
    if |l.buffer| > 0 {
      FailedFlushRestores(l);
    }
  }

  /** `saveBufferedData` run to completion with no interleaved step, as `Disconnect` calls it. */
  function SaveBufferedData(l: Link, saveOk: bool): (r: Link)
    ensures r.buffer == (if saveOk then [] else l.buffer)
    ensures r.(buffer := l.buffer) == l
  {
    var (l1, batch) := FlushStart(l);
    FlushFinish(l1, batch, saveOk)
  }

  // ---------------------------------------------------------------------
  // Rule-triggered commands
  // ---------------------------------------------------------------------

  /**
   * The command an alert asks for (arduino_serial.go:416-422): the first of
   * `buzzer_on`, `white_light_on`, `window_close` found in the alert text.
   */
  function AlertCommand(alert: string): (c: Option<string>)
    ensures c.Some? <==> Contains(alert, "buzzer_on") || Contains(alert, "white_light_on") || Contains(alert, "window_close")
    ensures Contains(alert, "buzzer_on") ==> c == Some("BUZZER_ON")
    ensures !Contains(alert, "buzzer_on") && Contains(alert, "white_light_on") ==> c == Some("WHITE_LIGHT_ON")
    ensures !Contains(alert, "buzzer_on") && !Contains(alert, "white_light_on") && Contains(alert, "window_close")
            ==> c == Some("WINDOW_CLOSE")
  {
    if Contains(alert, "buzzer_on") then Some("BUZZER_ON")
    else if Contains(alert, "white_light_on") then Some("WHITE_LIGHT_ON")
    else if Contains(alert, "window_close") then Some("WINDOW_CLOSE")
    else None
  }

  /** Every command word holds an underscore, so an alert without one asks for nothing. */
  lemma AlertCommandNeedsUnderscore(alert: string)
    requires '_' !in alert
    ensures AlertCommand(alert).None?
  {
    MissingCharNotContained(alert, "buzzer_on", '_');
    MissingCharNotContained(alert, "white_light_on", '_');
    MissingCharNotContained(alert, "window_close", '_');
  }

  /** The commands a list of alerts asks for, in alert order. */
  function AlertCommands(alerts: seq<string>): (cmds: seq<string>)
    ensures |cmds| <= |alerts|
  {
    if |alerts| == 0 then []
    else (match AlertCommand(alerts[0]) case Some(c) => [c] case None => []) + AlertCommands(alerts[1..])
  }

  lemma {:induction false} AlertCommandsNeedUnderscore(alerts: seq<string>)
    requires forall i :: 0 <= i < |alerts| ==> '_' !in alerts[i]
    ensures AlertCommands(alerts) == []
    decreases |alerts|
  {
    if |alerts| > 0 {
      AlertCommandNeedsUnderscore(alerts[0]);
      AlertCommandsNeedUnderscore(alerts[1..]);
    }
  }

  /** Each command handed to `SendCommand` in turn; errors are dropped. */
  function SendAll(l: Link, cmds: seq<string>, writeOk: bool): (r: Link)
    ensures r.(ready := l.ready, queue := l.queue, wire := l.wire) == l
    decreases |cmds|
  {
    if |cmds| == 0 then l else SendAll(SendCommand(l, cmds[0], writeOk).1, cmds[1..], writeOk)
  }

  /**
   * `executeTriggeredActions` (arduino_serial.go:412-424) with each send
   * completing; the as-written lock behaviour is `ParseSensorDataAsWritten`.
   */
  function ExecuteTriggeredActions(l: Link, alerts: seq<string>, writeOk: bool): (r: Link)
    ensures AlertCommands(alerts) == [] ==> r == l
    ensures r.(ready := l.ready, queue := l.queue, wire := l.wire) == l
  {
    SendAll(l, AlertCommands(alerts), writeOk)
  }

  /**
   * On a connected link with working writes, the first of several commands
   * goes out at once if the device is ready and everything after it waits
   * in the queue, in order.
   */
  lemma {:induction false} SendAllOrder(l: Link, cmds: seq<string>)
    requires l.connected && l.portOpen && |cmds| > 0
    ensures var r := SendAll(l, cmds, true);
            !r.ready
            && (l.ready ==> r.wire == l.wire + [EncodeCommand(cmds[0])] && r.queue == l.queue + cmds[1..])
            && (!l.ready ==> r.wire == l.wire && r.queue == l.queue + cmds)
    decreases |cmds|
  {
    var l1 := SendCommand(l, cmds[0], true).1;
    if |cmds| == 1 {
      assert cmds[1..] == [];
    } else {
      SendAllOrder(l1, cmds[1..]);
      if !l.ready {
        assert l1.queue + cmds[1..] == l.queue + cmds by {
          assert l1.queue == l.queue + [cmds[0]];
          assert cmds == [cmds[0]] + cmds[1..];
        }
      }
    }
  }

  /** When every write fails the device stays ready, so every command is dropped and nothing is queued. */
  lemma {:induction false} SendAllFailingWrites(l: Link, cmds: seq<string>)
    requires l.ready
    ensures SendAll(l, cmds, false) == l
    decreases |cmds|
  {
    if |cmds| > 0 {
      SendAllFailingWrites(SendCommand(l, cmds[0], false).1, cmds[1..]);
    }
  }

  /** A rule fires only on a primary channel with a known operator, none of which holds an underscore. */
  lemma {:induction false} AlertsUnderscoreFree(rules: seq<Rule>, d: SensorReading)
    requires forall r :: r in rules ==> '_' !in r.name
    ensures forall i :: 0 <= i < |Alerts(rules, d)| ==> '_' !in Alerts(rules, d)[i]
    decreases |rules|
  {
    if |rules| > 0 {
      var init := rules[..|rules| - 1];
      var last := rules[|rules| - 1];
      assert forall r :: r in init ==> r in rules;
      AlertsUnderscoreFree(init, d);
      if Triggered(last, d) {
        assert '_' !in last.sensor && '_' !in last.operator;
        AlertUnderscoreFree(last, Channel(last.sensor, d).value);
      }
    }
  }

  /**
   * Alerts never contain a rule's action, so a rule causes a command only
   * when its name happens to spell one. With rule names free of
   * underscores, the default rules among them, no reading sends anything.
   */
  lemma NoCommandWithoutUnderscoredName(store: seq<Rule>, rulesOk: bool, d: SensorReading)
    requires forall r :: r in store ==> '_' !in r.name
    ensures AlertCommands(StoreAlerts(store, rulesOk, d)) == []
  {
    if rulesOk {
      var listed := GetAllRules(store, true).value;
      forall r | r in listed
        ensures '_' !in r.name
      {
        assert r in multiset(listed);
      }
      AlertsUnderscoreFree(listed, d);
      AlertCommandsNeedUnderscore(StoreAlerts(store, rulesOk, d));
    } else {
      AlertCommandsNeedUnderscore(StoreAlerts(store, rulesOk, d));
    }
  }

  /** A store holding rules named like the defaults never makes a reading send a command. */
  lemma DefaultNamedNeverCommand(store: seq<Rule>, rulesOk: bool, d: SensorReading)
    requires |store| <= 4 && forall i :: 0 <= i < |store| ==> store[i].name == DefaultRules[i].name
    ensures AlertCommands(StoreAlerts(store, rulesOk, d)) == []
  {
    forall r | r in store
      ensures '_' !in r.name
    {
      var i :| 0 <= i < |store| && store[i] == r;
      DefaultNamesUnderscoreFree(i);
    }
    NoCommandWithoutUnderscoredName(store, rulesOk, d);
  }

  /** The rules seeded on first start never make a reading send a command. */
  lemma DefaultRulesNeverCommand(d: SensorReading, clock: nat -> Timestamp, freshIds: nat -> ObjectId, fails: set<nat>)
    ensures var store := InitializeDefaultRules([], true, clock, freshIds, fails).1;
            AlertCommands(StoreAlerts(store, true, d)) == []
  {
    SeededNames(clock, freshIds, fails);
    DefaultNamedNeverCommand(InitializeDefaultRules([], true, clock, freshIds, fails).1, true, d);
  }

  // ---------------------------------------------------------------------
  // Telemetry lines
  // ---------------------------------------------------------------------

  /** The reading that is discarded as noise (arduino_serial.go:328-330). */
  predicate AllZero(d: SensorReading) {
    d.gas == 0 && d.light == 0 && d.soil == 0 && d.water == 0
  }

  /**
   * `parseSensorData` (arduino_serial.go:289-362) with the triggered sends
   * completing: an all-zero reading changes nothing; otherwise it becomes
   * the current reading, its alerts may send commands, and its sample is
   * appended to the buffer, which is then capped.
   */
  function ParseSensorData(l: Link, line: string, env: Env): (r: Link)
    ensures var d := DecodeTelemetry(line, env.now);
            AllZero(d) ==> r == l
    ensures var d := DecodeTelemetry(line, env.now);
            var alerts := StoreAlerts(env.rules, env.rulesOk, d);
            !AllZero(d) ==>
              && r.current == Some(d)
              && 0 < |r.buffer| <= |l.buffer| + 1 && r.buffer[|r.buffer| - 1] == ToSensorData(d, alerts)
              && r.buffer == (l.buffer + [ToSensorData(d, alerts)])[|l.buffer| + 1 - |r.buffer|..]
              && (|l.buffer| < HighWater ==> r.buffer == l.buffer + [ToSensorData(d, alerts)])
              && (|l.buffer| >= HighWater ==>
                    r.buffer == (l.buffer + [ToSensorData(d, alerts)])[|l.buffer| + 1 - LowWater..])
              && r.buffer == Cap(l.buffer + [ToSensorData(d, alerts)])
              && |r.buffer| <= HighWater
              && r.actuators == l.actuators && r.connected == l.connected && r.timers == l.timers
              && r.portOpen == l.portOpen
              && r.saving == l.saving
    ensures AlertCommands(StoreAlerts(env.rules, env.rulesOk, DecodeTelemetry(line, env.now))) == [] ==>
      r.ready == l.ready && r.queue == l.queue && r.wire == l.wire
  {
    var d := DecodeTelemetry(line, env.now);
    if AllZero(d) then l
    else
      var alerts := StoreAlerts(env.rules, env.rulesOk, d);
      var l1 := l.(current := Some(d));
      var l2 := if |alerts| > 0 then ExecuteTriggeredActions(l1, alerts, env.writeOk) else l1;
      assert l2.(ready := l1.ready, queue := l1.queue, wire := l1.wire) == l1;
      var b := l2.buffer + [ToSensorData(d, alerts)];
      assert l2.buffer == l.buffer;
      l2.(buffer := Cap(b))
  }

  /**
   * `parseSensorData` as written: it holds the mutex from line 332 to line
   * 361 and `SendCommand` locks it again (line 140), so as soon as one alert
   * asks for a command the goroutine blocks for good, after the current
   * reading was replaced and before the sample reaches the buffer.
   */
  function ParseSensorDataAsWritten(l: Link, line: string, env: Env): (o: Outcome)
    ensures var d := DecodeTelemetry(line, env.now);
            o.Blocked? <==> !AllZero(d) && AlertCommands(StoreAlerts(env.rules, env.rulesOk, d)) != []
    ensures o.Blocked? ==> o.link == l.(current := Some(DecodeTelemetry(line, env.now)))
    ensures o.Completed? ==> o.link == ParseSensorData(l, line, env)
  {
    var d := DecodeTelemetry(line, env.now);
    if AllZero(d) then Completed(l)
    else
      var alerts := StoreAlerts(env.rules, env.rulesOk, d);
      if AlertCommands(alerts) != [] then Blocked(l.(current := Some(d)))
      else Completed(ParseSensorData(l, line, env))
  }

  /** The rule named `buzzer_on` on a gas reading of 750 asks for exactly the buzzer command. */
  lemma BuzzerNamedRuleCommands(rule: Rule, d: SensorReading)
    requires rule == Rule(NilObjectId, "buzzer_on", "gas", ">", 700, "buzzer_on", true, "",
                          Timestamp(1), Timestamp(1))
    requires d.gas == 750
    ensures AlertCommands(StoreAlerts([rule], true, d)) == ["BUZZER_ON"]
  {
    var alert := FormatAlert(rule, 750);
    assert SortNewestFirst([rule]) == [rule];
    assert Alerts([rule], d) == [alert] by {
      assert [rule][..0] == [];
    }
    assert alert[..9] == "buzzer_on";
    assert OccursAt(alert, "buzzer_on", 0);
    assert AlertCommand(alert) == Some("BUZZER_ON");
  }

  /**
   * A rule named after the action it wants, `buzzer_on`, hangs the
   * telemetry goroutine on the first device line it fires on, here the
   * line `GAS:750,LIGHT:1,SOIL:1,WATER:1,INFRAR:0,BTN1:0,BTN2:0`.
   */
  lemma SelfDeadlockExample(l: Link, now: Timestamp)
    ensures var rule := Rule(NilObjectId, "buzzer_on", "gas", ">", 700, "buzzer_on", true, "",
                             Timestamp(1), Timestamp(1));
            var env := Env([rule], true, now, true, true, true);
            var line := EncodeTelemetry(SensorReading(750, 1, 1, 1, 0, 0, 0, now));
            ParseSensorDataAsWritten(l, line, env).Blocked?
  {
    var rule := Rule(NilObjectId, "buzzer_on", "gas", ">", 700, "buzzer_on", true, "",
                     Timestamp(1), Timestamp(1));
    var expected := SensorReading(750, 1, 1, 1, 0, 0, 0, now);
    DecodeEncode(expected);
    BuzzerNamedRuleCommands(rule, DecodeTelemetry(EncodeTelemetry(expected), now));
  }
}

=== FILE: goserver.dfy ===
/**
 * The Go link as a whole: the line handler that dispatches each trimmed
 * device line, and one step of the system for every event the link reacts
 * to (a line read, a save tick, an insert returning, a delayed re-send
 * firing, a request from the HTTP layer). A save is two events: the saver taking the buffer out,
 * and the insert returning; lines may be read in between. The port handle
 * is held exactly while connected; the buffer stays within its cap only
 * when a failed save's put-back is capped too.
 */
module GoServer {
  import opened Wrappers
  import opened Text
  import opened Models
  import opened RuleEngine
  import opened GoLink
  import opened GoActuators

  /** What `handleIncomingData` does with a line (arduino_serial.go:257-286). */
  datatype LineKind = Ack | Telemetry | Echo

  function Classify(line: string): (k: LineKind)
    ensures k == Ack <==> line == "ACK"
    ensures k == Telemetry <==> line != "ACK" && Contains(line, "GAS:")
  {
    if line == "ACK" then Ack
    else if Contains(line, "GAS:") then Telemetry
    else Echo
  }

  /** `handleIncomingData`, with the triggered sends completing (see `ParseSensorDataAsWritten`). */
  function HandleIncomingData(l: Link, line: string, env: Env): (r: Link)
    ensures Classify(line) == Ack ==> r == HandleAck(l)
    ensures Classify(line) == Telemetry ==> r == ParseSensorData(l, line, env)
    ensures Classify(line) == Echo ==> r == l.(actuators := ParseActuatorResponse(l.actuators, line))
  {
    match Classify(line)
    case Ack => HandleAck(l)
    case Telemetry => ParseSensorData(l, line, env)
    case Echo => l.(actuators := ParseActuatorResponse(l.actuators, line))
  }

  /**
   * One line read by `startDataListener` (arduino_serial.go:220-239): it
   * is trimmed, and an empty line is skipped.
   */
  function Receive(l: Link, raw: string, env: Env): (r: Link)
    ensures AllSpace(GoSpace, raw) ==> r == l
    ensures !AllSpace(GoSpace, raw) ==> r == HandleIncomingData(l, TrimSpace(raw), env)
  {
    var line := TrimSpace(raw);
    if |line| == 0 then l
    else
      assert !AllSpace(GoSpace, raw) by {
        assert line[0] in raw by {
          var lo := LeadingSpace(GoSpace, raw);
          assert raw[lo..][..|line|] == line;
        }
      }
      HandleIncomingData(l, line, env)
  }

  /** The events the link reacts to. */
  datatype Event =
    | LineRead(raw: string)                  // the listener scanned a line
    | SaveTick                               // the saver's ticker fired
    | SaveReturns                            // the saver's bulk insert returned
    | ResendFires(i: nat)                    // the i-th pending re-send timer fired
    | ConnectRequest
    | DisconnectRequest
    | SendRequest(cmd: string)
    | SyncRequest(actuator: string, value: JsonValue)

  /** How a failed save puts its batch back: as the source does, or with the buffer cap applied. */
  datatype PutBack = PutBackAsWritten | PutBackCapped

  /**
   * One step. The listener and the saver's ticker act only while
   * connected; an insert already in flight returns, and a re-send timer
   * fires, whether or not the link is connected; requests from the HTTP
   * layer may come at any time.
   */
  function Step(l: Link, e: Event, env: Env, p: PutBack): Link {
    match e
    case LineRead(raw) => if l.connected then Receive(l, raw, env) else l
    case SaveTick => if l.connected then BeginSave(l) else l
    case SaveReturns =>
      (match p
       case PutBackAsWritten => EndSave(l, env.saveOk)
       case PutBackCapped => EndSaveCapped(l, env.saveOk))
    case ResendFires(i) => FireTimer(l, i, env.writeOk)
    case ConnectRequest => Connect(l, env.openOk).1
    case DisconnectRequest => Disconnect(l, env.saveOk).1
    case SendRequest(cmd) => SendCommand(l, cmd, env.writeOk).1
    case SyncRequest(name, v) => l.(actuators := SetActuatorState(l.actuators, name, v))
  }

  /** The invariant every step keeps: the port is held exactly while connected, and a batch in flight is never empty. */
  predicate Inv(l: Link) {
    Valid(l) && (l.saving.Some? ==> |l.saving.value| > 0)
  }

  /** `Inv`, with the buffer and the batch in flight both within the cap. */
  predicate Bounded(l: Link) {
    Inv(l) && |l.buffer| <= HighWater && (l.saving.Some? ==> |l.saving.value| <= HighWater)
  }

  lemma StepKeepsInv(l: Link, e: Event, env: Env, p: PutBack)
    requires Inv(l)
    ensures Inv(Step(l, e, env, p))
  {
    match e
    case LineRead(raw) =>
      if l.connected && !AllSpace(GoSpace, raw) {
        var line := TrimSpace(raw);
        if Classify(line) == Telemetry {
          assert ParseSensorData(l, line, env).saving == l.saving;
        }
      }
    case _ =>
  }

  lemma CappedStepKeepsBounded(l: Link, e: Event, env: Env)
    requires Bounded(l)
    ensures Bounded(Step(l, e, env, PutBackCapped))
  {
    StepKeepsInv(l, e, env, PutBackCapped);
    match e
    case LineRead(raw) =>
      if l.connected && !AllSpace(GoSpace, raw) {
        var line := TrimSpace(raw);
        if Classify(line) == Telemetry {
          var d := DecodeTelemetry(line, env.now);
          assert AllZero(d) || |ParseSensorData(l, line, env).buffer| <= HighWater;
        }
      }
    case SaveReturns =>
      if l.saving.Some? && env.saveOk {
        assert EndSaveCapped(l, true).buffer == l.buffer;
      }
    case _ =>
  }

  /** A run of events, each with the environment of its own step. */
  function Run(l: Link, events: seq<Event>, envs: seq<Env>, p: PutBack): Link
    requires |envs| == |events|
    decreases |events|
  {
    if |events| == 0 then l else Run(Step(l, events[0], envs[0], p), events[1..], envs[1..], p)
  }

  lemma {:induction false} RunKeepsInv(l: Link, events: seq<Event>, envs: seq<Env>, p: PutBack)
    requires Inv(l) && |envs| == |events|
    ensures Inv(Run(l, events, envs, p))
    decreases |events|
  {
    if |events| > 0 {
      StepKeepsInv(l, events[0], envs[0], p);
      RunKeepsInv(Step(l, events[0], envs[0], p), events[1..], envs[1..], p);
    }
  }

  /** Every state reachable from the initial link satisfies the invariant, whichever put-back is used. */
  lemma ReachableKeepsInv(events: seq<Event>, envs: seq<Env>, p: PutBack)
    requires |envs| == |events|
    ensures Inv(Run(InitialLink, events, envs, p))
  {
    RunKeepsInv(InitialLink, events, envs, p);
  }

  lemma {:induction false} CappedRunKeepsBounded(l: Link, events: seq<Event>, envs: seq<Env>)
    requires Bounded(l) && |envs| == |events|
    ensures Bounded(Run(l, events, envs, PutBackCapped))
    decreases |events|
  {
    if |events| > 0 {
      CappedStepKeepsBounded(l, events[0], envs[0]);
      CappedRunKeepsBounded(Step(l, events[0], envs[0], PutBackCapped), events[1..], envs[1..]);
    }
  }

  /** With the put-back capped, no reachable state holds more than `HighWater` unsaved samples. */
  lemma ReachableBounded(events: seq<Event>, envs: seq<Env>)
    requires |envs| == |events|
    ensures Bounded(Run(InitialLink, events, envs, PutBackCapped))
    ensures |Run(InitialLink, events, envs, PutBackCapped).buffer| <= HighWater
  {
    CappedRunKeepsBounded(InitialLink, events, envs);
  }

  lemma {:induction false} RunAppend(l: Link, a: seq<Event>, ea: seq<Env>, b: seq<Event>, eb: seq<Env>, p: PutBack)
    requires |ea| == |a| && |eb| == |b|
    ensures Run(l, a + b, ea + eb, p) == Run(Run(l, a, ea, p), b, eb, p)
    decreases |a|
  {
    if |a| > 0 {
      assert (a + b)[1..] == a[1..] + b && (ea + eb)[1..] == ea[1..] + eb;
      RunAppend(Step(l, a[0], ea[0], p), a[1..], ea[1..], b, eb, p);
    } else {
      assert a + b == b && ea + eb == eb;
    }
  }

  /** A failed save with no line read in between leaves the link as it was, under either put-back. */
  lemma FailedSaveWithNoArrivalRestores(l: Link, env: Env, p: PutBack)
    requires !env.saveOk && l.saving.None? && |l.buffer| <= HighWater
    ensures Run(l, [SaveTick, SaveReturns], [env, env], p) == l
  {
    var l1 := Step(l, SaveTick, env, p);
    assert Run(l, [SaveTick, SaveReturns], [env, env], p) == Step(l1, SaveReturns, env, p);
    if l.connected {
      FailedSaveWindowRestores(l);
    }
  }

  /** A telemetry line the link stores: not blank, tagged `GAS:` and not all zero. */
  predicate StoredLine(raw: string, env: Env) {
    && !AllSpace(GoSpace, raw)
    && Classify(TrimSpace(raw)) == Telemetry
    && !AllZero(DecodeTelemetry(TrimSpace(raw), env.now))
  }

  /** A save window: the ticker fires, one line is read while the insert runs, the insert returns. */
  function Window(raw: string): seq<Event> {
    [SaveTick, LineRead(raw), SaveReturns]
  }

  /** A run of three events under one environment is three steps. */
  lemma RunThree(l: Link, a: Event, b: Event, c: Event, env: Env, p: PutBack)
    ensures Run(l, [a, b, c], [env, env, env], p) == Step(Step(Step(l, a, env, p), b, env, p), c, env, p)
  {
    var l1 := Step(l, a, env, p);
    assert Run(l, [a, b, c], [env, env, env], p) == Run(l1, [b, c], [env, env], p);
    var l2 := Step(l1, b, env, p);
    assert Run(l1, [b, c], [env, env], p) == Run(l2, [c], [env], p);
    assert [c][1..] == [] && [env][1..] == [];
    assert Run(l2, [c], [env], p) == Run(Step(l2, c, env, p), [], [], p);
  }

  /** A stored line read while the buffer is empty leaves exactly its sample there. */
  lemma StoredLineIntoEmpty(l: Link, raw: string, env: Env, p: PutBack)
    requires l.connected && l.buffer == [] && StoredLine(raw, env)
    ensures var r := Step(l, LineRead(raw), env, p);
            |r.buffer| == 1 && r.saving == l.saving && r.connected
  {
    var line := TrimSpace(raw);
    assert Step(l, LineRead(raw), env, p) == ParseSensorData(l, line, env);
  }

  /**
   * One failing save window as written: the sample read during the insert
   * is kept behind the whole batch, so the buffer grows by one and no cap
   * applies to the put-back.
   */
  lemma FailedWindowGrowsBuffer(l: Link, raw: string, env: Env)
    requires l.connected && l.saving.None? && |l.buffer| > 0 && !env.saveOk && StoredLine(raw, env)
    ensures var r := Run(l, Window(raw), [env, env, env], PutBackAsWritten);
            |r.buffer| == |l.buffer| + 1 && r.connected && r.saving.None?
  {
    var p := PutBackAsWritten;
    RunThree(l, SaveTick, LineRead(raw), SaveReturns, env, p);
    var l1 := Step(l, SaveTick, env, p);
    assert l1.buffer == [] && l1.saving == Some(l.buffer) && l1.connected;
    StoredLineIntoEmpty(l1, raw, env, p);
    var l2 := Step(l1, LineRead(raw), env, p);
    var l3 := Step(l2, SaveReturns, env, p);
    assert l3 == EndSave(l2, false);
    assert l3.buffer == l.buffer + l2.buffer;
  }

  /** `k` save windows in a row, each with the same environment. */
  function Windows(raw: string, k: nat): (events: seq<Event>)
    ensures |events| == 3 * k
  {
    if k == 0 then [] else Window(raw) + Windows(raw, k - 1)
  }

  /** The environments of `k` windows: the same one throughout. */
  function WindowEnvs(env: Env, k: nat): (envs: seq<Env>)
    ensures |envs| == 3 * k
  {
    if k == 0 then [] else [env, env, env] + WindowEnvs(env, k - 1)
  }

  /** The link after `k` windows, one window at a time. */
  function AfterWindows(l: Link, raw: string, env: Env, k: nat, p: PutBack): Link
    decreases k
  {
    if k == 0 then l else AfterWindows(Run(l, Window(raw), [env, env, env], p), raw, env, k - 1, p)
  }

  lemma {:induction false} AfterWindowsIsRun(l: Link, raw: string, env: Env, k: nat, p: PutBack)
    ensures AfterWindows(l, raw, env, k, p) == Run(l, Windows(raw, k), WindowEnvs(env, k), p)
    decreases k
  {
    if k > 0 {
      RunAppend(l, Window(raw), [env, env, env], Windows(raw, k - 1), WindowEnvs(env, k - 1), p);
      AfterWindowsIsRun(Run(l, Window(raw), [env, env, env], p), raw, env, k - 1, p);
    }
  }

  /** One failing window as written, from a link that can take another. */
  function FailingWindow(l: Link, raw: string, env: Env): (r: Link)
    requires l.connected && l.saving.None? && |l.buffer| > 0 && !env.saveOk && StoredLine(raw, env)
    ensures r == AfterWindows(l, raw, env, 1, PutBackAsWritten)
    ensures |r.buffer| == |l.buffer| + 1 && r.connected && r.saving.None?
  {
    FailedWindowGrowsBuffer(l, raw, env);
    Run(l, Window(raw), [env, env, env], PutBackAsWritten)
  }

  lemma {:induction false} AfterFailingWindows(l: Link, raw: string, env: Env, k: nat)
    requires l.connected && l.saving.None? && |l.buffer| > 0 && !env.saveOk && StoredLine(raw, env)
    ensures var r := AfterWindows(l, raw, env, k, PutBackAsWritten);
            |r.buffer| == |l.buffer| + k && r.connected && r.saving.None?
    decreases k
  {
    if k > 0 {
      var l1 := FailingWindow(l, raw, env);
      AfterFailingWindows(l1, raw, env, k - 1);
    }
  }

  /**
   * As written, the buffer grows without bound while the store keeps
   * failing and each line arrives during an insert: `k` windows add `k`
   * samples, so a full buffer of `HighWater` passes its cap after one.
   */
  lemma FailingWindowsGrowBuffer(l: Link, raw: string, env: Env, k: nat)
    requires l.connected && l.saving.None? && |l.buffer| > 0 && !env.saveOk && StoredLine(raw, env)
    ensures |Run(l, Windows(raw, k), WindowEnvs(env, k), PutBackAsWritten).buffer| == |l.buffer| + k
  {
    AfterWindowsIsRun(l, raw, env, k, PutBackAsWritten);
    AfterFailingWindows(l, raw, env, k);
  }

  /** An echo line never touches the command channel, the buffer or the connection. */
  lemma EchoTouchesOnlyActuators(l: Link, raw: string, env: Env, p: PutBack)
    requires l.connected && Classify(TrimSpace(raw)) == Echo
    ensures Step(l, LineRead(raw), env, p).(actuators := l.actuators) == l
  {
  }
}

=== FILE: models.dfy ===
/**
 * The records exchanged by the link, the rule engine and the store
 * (server/models/models.go): a live sensor reading, the stored sample, the
 * actuator shadow and an automation rule, plus the 12-byte object
 * identifiers the store assigns.
 */
module Models {
  import opened Wrappers
  import opened Text

  /** An instant read from the server clock, in milliseconds since the epoch. */
  datatype Timestamp = Timestamp(ticks: int)

  // ---------------------------------------------------------------------
  // Object identifiers
  // ---------------------------------------------------------------------

  type Byte = b: int | 0 <= b < 256

  /** A store object identifier: twelve bytes, written as 24 hex digits. */
  datatype ObjectId = ObjectId(bytes: seq<Byte>)

  /** The zero identifier a rule carries before the store has assigned one. */
  const NilObjectId: ObjectId := ObjectId([0, 0, 0, 0, 0, 0, 0, 0, 0, 0, 0, 0])

  predicate IsHexDigit(c: char) {
    ('0' <= c <= '9') || ('a' <= c <= 'f') || ('A' <= c <= 'F')
  }

  function HexValue(c: char): (v: nat)
    requires IsHexDigit(c)
    ensures v < 16
  {
    if '0' <= c <= '9' then c as int - '0' as int
    else if 'a' <= c <= 'f' then c as int - 'a' as int + 10
    else c as int - 'A' as int + 10
  }

  /** The lower-case hex digit of a value below 16. */
  function HexChar(v: nat): (c: char)
    requires v < 16
    ensures IsHexDigit(c) && HexValue(c) == v && !('A' <= c <= 'Z')
  {
    if v < 10 then ('0' as int + v) as char else ('a' as int + v - 10) as char
  }

  /**
   * `primitive.ObjectIDFromHex`: exactly 24 hex digits of either case,
   * decoded two by two into twelve bytes; anything else is rejected.
   */
  function ObjectIdFromHex(s: string): (r: Option<ObjectId>)
    ensures r.Some? <==> |s| == 24 && forall i :: 0 <= i < |s| ==> IsHexDigit(s[i])
    ensures r.Some? ==> |r.value.bytes| == 12
  {
    if |s| == 24 && forall i :: 0 <= i < |s| ==> IsHexDigit(s[i]) then
      Some(ObjectId(seq(12, i requires 0 <= i < 12 => HexValue(s[2 * i]) * 16 + HexValue(s[2 * i + 1]))))
    else None
  }

  /** `ObjectID.Hex`: two lower-case hex digits per byte. */
  function Hex(id: ObjectId): (s: string)
    ensures |s| == 2 * |id.bytes|
  {
    seq(2 * |id.bytes|, i requires 0 <= i < 2 * |id.bytes| =>
      HexChar(if i % 2 == 0 then id.bytes[i / 2] / 16 else id.bytes[i / 2] % 16))
  }

  /** Writing an identifier as hex and parsing it back gives the identifier. */
  lemma HexRoundTrip(id: ObjectId)
    requires |id.bytes| == 12
    ensures ObjectIdFromHex(Hex(id)) == Some(id)
  {
    var s := Hex(id);
    assert forall i :: 0 <= i < |s| ==> IsHexDigit(s[i]);
    var back := ObjectIdFromHex(s).value;
    forall i | 0 <= i < 12
      ensures back.bytes[i] == id.bytes[i]
    {
      var b := id.bytes[i];
      assert (2 * i) / 2 == i && (2 * i + 1) / 2 == i;
      assert s[2 * i] == HexChar(b / 16);
      assert s[2 * i + 1] == HexChar(b % 16);
      SplitByte(b);
    }
    assert back.bytes == id.bytes;
  }

  lemma SplitByte(b: Byte)
    ensures b / 16 < 16 && (b / 16) * 16 + b % 16 == b
  {
  }

  /**
   * Parsing ignores the case of the hex digits: an accepted string is the
   * canonical spelling of its identifier up to case.
   */
  lemma FromHexCanonical(s: string)
    requires ObjectIdFromHex(s).Some?
    ensures Hex(ObjectIdFromHex(s).value) == ToLower(s)
  {
    var id := ObjectIdFromHex(s).value;
    var h := Hex(id);
    forall i | 0 <= i < 24
      ensures h[i] == LowerChar(s[i])
    {
      var b := id.bytes[i / 2];
      assert b == HexValue(s[2 * (i / 2)]) * 16 + HexValue(s[2 * (i / 2) + 1]);
      if i % 2 == 0 {
        assert b / 16 == HexValue(s[i]);
      } else {
        assert b % 16 == HexValue(s[i]);
      }
    }
  }

  // ---------------------------------------------------------------------
  // Records
  // ---------------------------------------------------------------------

  /** `SensorReading`: one decoded telemetry line. */
  datatype SensorReading = SensorReading(
    gas: int, light: int, soil: int, water: int,
    infrar: int, btn1: int, btn2: int,
    timestamp: Timestamp)

  /** `SensorData`: the sample that is buffered and stored in bulk. */
  datatype SensorData = SensorData(
    light: int, gas: int, soil: int, water: int, infrared: int,
    timestamp: Timestamp,
    alerts: seq<string>)

  /** `ActuatorStates`: the last known state of every actuator. */
  datatype ActuatorStates = ActuatorStates(
    whiteLight: bool, yellowLight: bool, relay: bool,
    doorAngle: int, windowAngle: int,
    fan: bool, fanSpeed: int, buzzer: bool)

  /** The zero value the link starts from. */
  const InitialActuators: ActuatorStates := ActuatorStates(false, false, false, 0, 0, false, 0, false)

  /** `Rule`: an automation rule as stored. */
  datatype Rule = Rule(
    id: ObjectId,
    name: string, sensor: string, operator: string, threshold: int,
    action: string, enabled: bool, description: string,
    createdAt: Timestamp, updatedAt: Timestamp)

  /**
   * The stored sample built from a reading (arduino_serial.go:336-343,348):
   * the four primary channels and the infrared channel are copied, the
   * buttons are dropped, and the alerts are attached.
   */
  function ToSensorData(d: SensorReading, alerts: seq<string>): (s: SensorData)
    ensures s.gas == d.gas && s.light == d.light && s.soil == d.soil && s.water == d.water
    ensures s.infrared == d.infrar && s.timestamp == d.timestamp && s.alerts == alerts
  {
    SensorData(d.light, d.gas, d.soil, d.water, d.infrar, d.timestamp, alerts)
  }
}

=== FILE: rules.dfy ===
/**
 * The rule engine of server/services/rule_service.go: evaluation of the
 * stored rules against one reading, the newest-first listing, the create /
 * update / delete paths with their identifier checks and time stamps, and
 * the first-run seeding of four default rules. The rule collection is an
 * abstract sequence in insertion order; every store call takes an explicit
 * success flag, and the clock and the store's fresh identifiers are
 * parameters.
 */
module RuleEngine {
  import opened Wrappers
  import opened Text
  import opened Models

  // ---------------------------------------------------------------------
  // Evaluation
  // ---------------------------------------------------------------------

  /** The four channels a rule may watch. */
  const PrimaryChannels: set<string> := {"gas", "light", "soil", "water"}

  /** The five comparison operators a rule may use. */
  const Operators: set<string> := {">", "<", ">=", "<=", "=="}

  /** The value of the channel a rule names; unknown names select nothing. */
  function Channel(sensor: string, d: SensorReading): (v: Option<int>)
    ensures v.Some? <==> sensor in PrimaryChannels
  {
    if sensor == "gas" then Some(d.gas)
    else if sensor == "light" then Some(d.light)
    else if sensor == "soil" then Some(d.soil)
    else if sensor == "water" then Some(d.water)
    else None
  }

  /** Whether `value op threshold` holds; an unknown operator never holds. */
  predicate Compare(op: string, value: int, threshold: int)
    ensures Compare(op, value, threshold) ==> op in Operators
  {
    match op
    case ">" => value > threshold
    case "<" => value < threshold
    case ">=" => value >= threshold
    case "<=" => value <= threshold
    case "==" => value == threshold
    case _ => false
  }

  /**
   * How the five operators relate: `<` and `>` are converses, `>=` and
   * `<=` are the negations of `<` and `>`, and `==` holds exactly when both
   * `>=` and `<=` do.
   */
  lemma OperatorAlgebra(v: int, t: int)
    ensures Compare("<", v, t) <==> Compare(">", t, v)
    ensures Compare(">=", v, t) <==> !Compare("<", v, t)
    ensures Compare("<=", v, t) <==> !Compare(">", v, t)
    ensures Compare("==", v, t) <==> Compare(">=", v, t) && Compare("<=", v, t)
    ensures Compare(">", v, t) || Compare("<", v, t) || Compare("==", v, t)
  {
  }

  /** Whether a rule fires on a reading (rule_service.go:118-148). */
  predicate Triggered(r: Rule, d: SensorReading) {
    && r.enabled
    && Channel(r.sensor, d).Some?
    && Compare(r.operator, Channel(r.sensor, d).value, r.threshold)
  }

  /** `"<name>: <sensor> <op> <threshold> (current: <value>)"` (rule_service.go:152-153). */
  function FormatAlert(r: Rule, value: int): string {
    r.name + ": " + r.sensor + " " + r.operator + " " + IntToString(r.threshold)
      + " (current: " + IntToString(value) + ")"
  }

  /** The alerts one rule contributes: one when it fires, none otherwise. */
  function AlertFor(r: Rule, d: SensorReading): (a: seq<string>)
    ensures |a| <= 1
    ensures |a| == 1 <==> Triggered(r, d)
  {
    if Triggered(r, d) then [FormatAlert(r, Channel(r.sensor, d).value)] else []
  }

  /** The alerts of a rule sequence, in rule order, without deduplication. */
  function Alerts(rules: seq<Rule>, d: SensorReading): (alerts: seq<string>)
    ensures |alerts| <= |rules|
  {
    if |rules| == 0 then []
    else Alerts(rules[..|rules| - 1], d) + AlertFor(rules[|rules| - 1], d)
  }

  /** The action identifiers of the fired rules (built at rule_service.go:151, never returned). */
  function TriggeredActions(rules: seq<Rule>, d: SensorReading): (actions: seq<string>)
    ensures |actions| == |Alerts(rules, d)|
  {
    if |rules| == 0 then []
    else
      var last := rules[|rules| - 1];
      TriggeredActions(rules[..|rules| - 1], d) + (if Triggered(last, d) then [last.action] else [])
  }

  /** Evaluation distributes over concatenation of rule sequences. */
  lemma {:induction false} AlertsAppend(a: seq<Rule>, b: seq<Rule>, d: SensorReading)
    ensures Alerts(a + b, d) == Alerts(a, d) + Alerts(b, d)
    decreases |b|
  {
    if |b| == 0 {
      assert a + b == a;
    } else {
      var last := b[|b| - 1];
      assert (a + b)[..|a + b| - 1] == a + b[..|b| - 1];
      AlertsAppend(a, b[..|b| - 1], d);
    }
  }

  /** Evaluating one more rule appends that rule's alert, if any. */
  lemma AlertsSnoc(a: seq<Rule>, r: Rule, d: SensorReading)
    ensures Alerts(a + [r], d) == Alerts(a, d) + AlertFor(r, d)
  {
    assert (a + [r])[..|a|] == a;
  }

  /** A disabled rule never contributes an alert, wherever it sits. */
  lemma DisabledRuleIgnored(a: seq<Rule>, r: Rule, b: seq<Rule>, d: SensorReading)
    requires !r.enabled
    ensures Alerts(a + [r] + b, d) == Alerts(a + b, d)
  {
    AlertsAppend(a + [r], b, d);
    AlertsSnoc(a, r, d);
    AlertsAppend(a, b, d);
    assert AlertFor(r, d) == [];
  }

  /** The positions of the rules that fire on a reading. */
  function FiredPositions(rules: seq<Rule>, d: SensorReading): set<int> {
    set i | 0 <= i < |rules| && Triggered(rules[i], d)
  }

  /** The alert count is the number of rules that fire. */
  lemma {:induction false} AlertCount(rules: seq<Rule>, d: SensorReading)
    ensures |Alerts(rules, d)| == |FiredPositions(rules, d)|
    decreases |rules|
  {
    if |rules| > 0 {
      var n := |rules| - 1;
      var init := rules[..n];
      AlertCount(init, d);
      FiredPositionsSnoc(rules, d);
      assert |Alerts(rules, d)| == |Alerts(init, d)| + |AlertFor(rules[n], d)|;
    } else {
      assert FiredPositions(rules, d) == {};
    }
  }

  /** The last rule of a non-empty sequence adds one fired position exactly when it adds an alert. */
  lemma FiredPositionsSnoc(rules: seq<Rule>, d: SensorReading)
    requires |rules| > 0
    ensures var n := |rules| - 1;
            |FiredPositions(rules, d)| == |FiredPositions(rules[..n], d)| + |AlertFor(rules[n], d)|
  {
    var n := |rules| - 1;
    var front := FiredPositions(rules[..n], d);
    var fired := Triggered(rules[n], d);
    var back: set<int> := if fired then {n} else {};
    forall i
      ensures i in FiredPositions(rules, d) <==> i in front + back
    {
      if 0 <= i < n {
        assert rules[..n][i] == rules[i];
      }
    }
    assert FiredPositions(rules, d) == front + back;
    assert n !in front;
    assert |AlertFor(rules[n], d)| == |back|;
  }

  /**
   * `EvaluateRules` (rule_service.go:107-161): when the fetch fails there are
   * no alerts; otherwise the fetched rules are visited in the order the
   * store returns them and every firing rule appends one alert.
   */
  method EvaluateRules(fetched: Option<seq<Rule>>, d: SensorReading) returns (alerts: seq<string>)
    ensures fetched.None? ==> alerts == []
    ensures fetched.Some? ==> alerts == Alerts(fetched.value, d)
  {
    if fetched.None? {
      return [];
    }
    var rules := fetched.value;
    alerts := [];
    var i := 0;
    while i < |rules|
      invariant 0 <= i <= |rules|
      invariant alerts == Alerts(rules[..i], d)
    {
      var rule := rules[i];
      assert rules[..i + 1] == rules[..i] + [rule];
      AlertsSnoc(rules[..i], rule, d);
      if rule.enabled {
        var value := Channel(rule.sensor, d);
        if value.Some? && Compare(rule.operator, value.value, rule.threshold) {
          assert AlertFor(rule, d) == [FormatAlert(rule, value.value)];
          alerts := alerts + [FormatAlert(rule, value.value)];
        } else {
          assert AlertFor(rule, d) == [];
        }
      } else {
        assert AlertFor(rule, d) == [];
      }
      i := i + 1;
    }
    assert rules[..i] == rules;
  }

  /** The seeded gas rule on a reading of 750: exactly one alert naming the rule, channel, operator, threshold and value. */
  lemma GasDangerExample(d: SensorReading)
    requires d.gas == 750
    ensures Alerts([DefaultRules[0]], d) == ["Gas Danger Alert: gas > 700 (current: 750)"]
  {
    var r := DefaultRules[0];
    assert NatToString(7) == "7";
    assert NatToString(75) == "75";
    assert NatToString(70) == "70";
    assert IntToString(750) == "750";
    assert IntToString(700) == "700";
    assert Triggered(r, d) && Channel(r.sensor, d) == Some(750);
    assert FormatAlert(r, 750) == "Gas Danger Alert: gas > 700 (current: 750)";
    assert [r][..0] == [];
  }

  // ---------------------------------------------------------------------
  // Listing order
  // ---------------------------------------------------------------------

  predicate NewestFirst(rs: seq<Rule>) {
    forall i, j :: 0 <= i < j < |rs| ==> rs[i].createdAt.ticks >= rs[j].createdAt.ticks
  }

  /** A rule no older than the head of a newest-first list can go in front of it. */
  lemma ConsNewest(h: Rule, t: seq<Rule>)
    requires NewestFirst(t)
    requires |t| > 0 ==> t[0].createdAt.ticks <= h.createdAt.ticks
    ensures NewestFirst([h] + t)
  {
    var s := [h] + t;
    forall i, j | 0 <= i < j < |s|
      ensures s[i].createdAt.ticks >= s[j].createdAt.ticks
    {
      if i == 0 {
        assert s[j] == t[j - 1];
      } else {
        assert s[i] == t[i - 1] && s[j] == t[j - 1];
      }
    }
  }

  function InsertByAge(r: Rule, sorted: seq<Rule>): (res: seq<Rule>)
    requires NewestFirst(sorted)
    ensures NewestFirst(res)
    ensures multiset(res) == multiset(sorted) + multiset{r}
    ensures |res| > 0 && (res[0] == r || (|sorted| > 0 && res[0] == sorted[0]))
  {
    if |sorted| == 0 || r.createdAt.ticks >= sorted[0].createdAt.ticks then
      ConsNewest(r, sorted);
      [r] + sorted
    else
      assert NewestFirst(sorted[1..]) by {
        forall i, j | 0 <= i < j < |sorted[1..]|
          ensures sorted[1..][i].createdAt.ticks >= sorted[1..][j].createdAt.ticks
        {
          assert sorted[1..][i] == sorted[i + 1] && sorted[1..][j] == sorted[j + 1];
        }
      }
      var tail := InsertByAge(r, sorted[1..]);
      assert sorted == [sorted[0]] + sorted[1..];
      ConsNewest(sorted[0], tail);
      [sorted[0]] + tail
  }

  /**
   * The order of `Find(...).Sort("-createdAt")` (rule_service.go:36):
   * descending creation time. Ties, which the store leaves unspecified, keep
   * insertion order here.
   */
  function SortNewestFirst(s: seq<Rule>): (res: seq<Rule>)
    ensures NewestFirst(res)
    ensures multiset(res) == multiset(s)
  {
    if |s| == 0 then []
    else
      assert s == [s[0]] + s[1..];
      InsertByAge(s[0], SortNewestFirst(s[1..]))
  }

  /** `GetAllRules` (rule_service.go:31-42): every stored rule, newest first, or nothing on a failed fetch. */
  function GetAllRules(store: seq<Rule>, fetchOk: bool): (r: Option<seq<Rule>>)
    ensures r.Some? <==> fetchOk
    ensures r.Some? ==> NewestFirst(r.value) && multiset(r.value) == multiset(store)
  {
    if fetchOk then Some(SortNewestFirst(store)) else None
  }

  /** What one telemetry reading raises against the store (rule_service.go:108-112 with 117-158). */
  function StoreAlerts(store: seq<Rule>, fetchOk: bool, d: SensorReading): (alerts: seq<string>)
    ensures !fetchOk ==> alerts == []
    ensures fetchOk ==> alerts == Alerts(SortNewestFirst(store), d)
    ensures |alerts| <= |store|
  {
    match GetAllRules(store, fetchOk)
    case None => []
    case Some(rules) =>
      assert |rules| == |multiset(rules)| == |multiset(store)| == |store|;
      Alerts(rules, d)
  }

  predicate OldestFirstStrict(rs: seq<Rule>) {
    forall i, j :: 0 <= i < j < |rs| ==> rs[i].createdAt.ticks < rs[j].createdAt.ticks
  }

  function Reverse<T>(s: seq<T>): (r: seq<T>)
    ensures |r| == |s|
    ensures forall i :: 0 <= i < |s| ==> r[i] == s[|s| - 1 - i]
  {
    if |s| == 0 then [] else Reverse(s[1..]) + [s[0]]
  }

  lemma {:induction false} InsertOldest(r: Rule, sorted: seq<Rule>)
    requires NewestFirst(sorted)
    requires forall i :: 0 <= i < |sorted| ==> sorted[i].createdAt.ticks > r.createdAt.ticks
    ensures InsertByAge(r, sorted) == sorted + [r]
    decreases |sorted|
  {
    if |sorted| > 0 {
      assert forall i :: 0 <= i < |sorted[1..]| ==> sorted[1..][i] == sorted[i + 1];
      InsertOldest(r, sorted[1..]);
      assert sorted == [sorted[0]] + sorted[1..];
    }
  }

  /**
   * A store filled in strictly increasing creation time (the usual case, as
   * `CreateRule` stamps with the clock) is listed in exactly the reverse of
   * insertion order.
   */
  lemma {:induction false} StrictStoreListedReversed(s: seq<Rule>)
    requires OldestFirstStrict(s)
    ensures SortNewestFirst(s) == Reverse(s)
    decreases |s|
  {
    if |s| > 0 {
      StrictTail(s);
      StrictStoreListedReversed(s[1..]);
      InsertOldest(s[0], Reverse(s[1..]));
    }
  }

  /** The tail of a strictly ordered store is strictly ordered, and all of it is newer than the head. */
  lemma StrictTail(s: seq<Rule>)
    requires |s| > 0 && OldestFirstStrict(s)
    ensures OldestFirstStrict(s[1..])
    ensures forall i :: 0 <= i < |Reverse(s[1..])| ==> Reverse(s[1..])[i].createdAt.ticks > s[0].createdAt.ticks
  {
    forall i, j | 0 <= i < j < |s[1..]|
      ensures s[1..][i].createdAt.ticks < s[1..][j].createdAt.ticks
    {
      assert s[1..][i] == s[i + 1] && s[1..][j] == s[j + 1];
    }
    var rest := Reverse(s[1..]);
    forall i | 0 <= i < |rest|
      ensures rest[i].createdAt.ticks > s[0].createdAt.ticks
    {
      assert rest[i] == s[|s| - 1 - i];
    }
  }

  // ---------------------------------------------------------------------
  // Create, update, delete
  // ---------------------------------------------------------------------

  datatype RuleError =
    | InvalidId     // the identifier is not 24 hex digits; the store was not called
    | NotFound      // no stored rule has the identifier
    | StoreFailure  // the store call itself failed

  /** The values a client patch may carry for a field. */
  datatype FieldValue = FStr(s: string) | FInt(i: int) | FBool(b: bool) | FTime(t: Timestamp)

  /** The outcome of `CreateRule`: the caller's rule after stamping, the error, the new store. */
  datatype CreateOutcome = CreateOutcome(rule: Rule, err: Option<RuleError>, store: seq<Rule>)

  /**
   * `CreateRule` (rule_service.go:45-58): the caller's rule gets `CreatedAt`
   * and `UpdatedAt` from two clock reads before the insert, whether or not
   * the insert succeeds. The stored document takes the store's fresh
   * identifier when the rule carries none; the caller's copy keeps its own.
   */
  function CreateRule(store: seq<Rule>, rule: Rule, created: Timestamp, updated: Timestamp,
                      freshId: ObjectId, insertOk: bool): (o: CreateOutcome)
    ensures o.rule.createdAt == created && o.rule.updatedAt == updated
    ensures o.rule.(createdAt := rule.createdAt, updatedAt := rule.updatedAt) == rule
    ensures insertOk ==> o.err.None? && |o.store| == |store| + 1 && o.store[..|store|] == store
    ensures insertOk ==> o.store[|store|] == o.rule.(id := o.store[|store|].id)
    ensures insertOk && rule.id == NilObjectId ==> o.store[|store|].id == freshId
    ensures !insertOk ==> o.err == Some(StoreFailure) && o.store == store
  {
    var stamped := rule.(createdAt := created, updatedAt := updated);
    var docId := if rule.id == NilObjectId then freshId else rule.id;
    if insertOk then CreateOutcome(stamped, None, store + [stamped.(id := docId)])
    else CreateOutcome(stamped, Some(StoreFailure), store)
  }

  /** A rule created later than every stored rule heads the next listing. */
  lemma CreatedRuleListedFirst(store: seq<Rule>, rule: Rule, created: Timestamp, updated: Timestamp,
                               freshId: ObjectId)
    requires forall x :: x in store ==> x.createdAt.ticks < created.ticks
    ensures var o := CreateRule(store, rule, created, updated, freshId, true);
            GetAllRules(o.store, true).value[0] == o.store[|store|]
  {
    var o := CreateRule(store, rule, created, updated, freshId, true);
    var listed := GetAllRules(o.store, true).value;
    var doc := o.store[|store|];
    assert doc in multiset(o.store);
    assert |listed| > 0 by {
      assert |listed| == |multiset(listed)| == |multiset(o.store)|;
    }
    var first := listed[0];
    assert first in multiset(o.store);
    assert o.store == store + [doc];
    assert doc in multiset(listed);
    var j :| 0 <= j < |listed| && listed[j] == doc;
    assert first.createdAt.ticks >= doc.createdAt.ticks;
  }

  /** The stored fields a patch can set, by their document names. */
  function FieldOf(r: Rule, key: string): Option<FieldValue> {
    match key
    case "name" => Some(FStr(r.name))
    case "sensor" => Some(FStr(r.sensor))
    case "operator" => Some(FStr(r.operator))
    case "threshold" => Some(FInt(r.threshold))
    case "action" => Some(FStr(r.action))
    case "enabled" => Some(FBool(r.enabled))
    case "description" => Some(FStr(r.description))
    case "createdAt" => Some(FTime(r.createdAt))
    case "updatedAt" => Some(FTime(r.updatedAt))
    case _ => None
  }

  /** Whether `v` has the type of the field named `key`. */
  predicate FitsField(key: string, v: FieldValue) {
    match key
    case "name" => v.FStr?
    case "sensor" => v.FStr?
    case "operator" => v.FStr?
    case "threshold" => v.FInt?
    case "action" => v.FStr?
    case "enabled" => v.FBool?
    case "description" => v.FStr?
    case "createdAt" => v.FTime?
    case "updatedAt" => v.FTime?
    case _ => false
  }

  function StrOr(patch: map<string, FieldValue>, key: string, current: string): string {
    if key in patch && patch[key].FStr? then patch[key].s else current
  }

  /**
   * A `$set` of the patch on a stored rule: each well-typed entry for a
   * known field replaces that field, everything else stays. An entry of
   * the wrong type also keeps the old field, where the store would write
   * it and then fail to decode the document.
   */
  function ApplyPatch(r: Rule, patch: map<string, FieldValue>): (r': Rule)
    ensures r'.id == r.id
  {
    Rule(
      r.id,
      StrOr(patch, "name", r.name),
      StrOr(patch, "sensor", r.sensor),
      StrOr(patch, "operator", r.operator),
      if "threshold" in patch && patch["threshold"].FInt? then patch["threshold"].i else r.threshold,
      StrOr(patch, "action", r.action),
      if "enabled" in patch && patch["enabled"].FBool? then patch["enabled"].b else r.enabled,
      StrOr(patch, "description", r.description),
      if "createdAt" in patch && patch["createdAt"].FTime? then patch["createdAt"].t else r.createdAt,
      if "updatedAt" in patch && patch["updatedAt"].FTime? then patch["updatedAt"].t else r.updatedAt)
  }

  /** The field named `key` after the patch: the patch's value when it has the field's type, the old one otherwise. */
  lemma ApplyPatchField(r: Rule, patch: map<string, FieldValue>, key: string)
    ensures FieldOf(ApplyPatch(r, patch), key)
            == if key in patch && FitsField(key, patch[key]) then Some(patch[key]) else FieldOf(r, key)
  {
  }

  function IndexOfId(store: seq<Rule>, id: ObjectId): (k: Option<nat>)
    ensures k.Some? ==> k.value < |store| && store[k.value].id == id
    ensures k.None? ==> forall i :: 0 <= i < |store| ==> store[i].id != id
  {
    if |store| == 0 then None
    else if store[0].id == id then Some(0)
    else match IndexOfId(store[1..], id)
      case None => None
      case Some(k) => Some(k + 1)
  }

  /** The outcome of `UpdateRule`: the updated rule or the error, the caller's patch map afterwards, the new store. */
  datatype UpdateOutcome = UpdateOutcome(result: Result<Rule, RuleError>, patch: map<string, FieldValue>, store: seq<Rule>)

  /**
   * `UpdateRule` (rule_service.go:61-86): a malformed identifier fails
   * before anything else; otherwise the caller's patch map gains
   * `updatedAt`, and the rule with that identifier is patched and returned.
   */
  function UpdateRule(store: seq<Rule>, id: string, updates: map<string, FieldValue>,
                      now: Timestamp, storeOk: bool): (o: UpdateOutcome)
    ensures ObjectIdFromHex(id).None? ==> o == UpdateOutcome(Failure(InvalidId), updates, store)
    ensures ObjectIdFromHex(id).Some? ==> o.patch == updates["updatedAt" := FTime(now)]
    ensures !storeOk ==> o.result.Failure? && o.store == store
    ensures o.result.Success? ==>
      && o.result.value.updatedAt == now
      && Some(o.result.value.id) == ObjectIdFromHex(id)
      && o.result.value in o.store
      && |o.store| == |store|
    ensures o.result.Success? ==>
      && storeOk
      && var k := IndexOfId(store, ObjectIdFromHex(id).value);
      && k.Some?
      && o.result.value == ApplyPatch(store[k.value], o.patch)
      && o.store == store[k.value := o.result.value]
    ensures o.result.Failure? ==> o.store == store
    ensures o.result == Failure(NotFound) ==> forall r :: r in store ==> Some(r.id) != ObjectIdFromHex(id)
  {
    match ObjectIdFromHex(id)
    case None => UpdateOutcome(Failure(InvalidId), updates, store)
    case Some(oid) =>
      var patch := updates["updatedAt" := FTime(now)];
      if !storeOk then UpdateOutcome(Failure(StoreFailure), patch, store)
      else match IndexOfId(store, oid)
        case None => UpdateOutcome(Failure(NotFound), patch, store)
        case Some(k) =>
          var updated := ApplyPatch(store[k], patch);
          ApplyPatchField(store[k], patch, "updatedAt");
          var store' := store[k := updated];
          assert store'[k] == updated;
          UpdateOutcome(Success(updated), patch, store')
  }

  /**
   * `DeleteRule` (rule_service.go:89-104): a malformed identifier fails
   * before the store is touched; otherwise the rule with that identifier
   * is removed and every other rule stays, in order.
   */
  function DeleteRule(store: seq<Rule>, id: string, storeOk: bool): (o: (Option<RuleError>, seq<Rule>))
    ensures ObjectIdFromHex(id).None? ==> o == (Some(InvalidId), store)
    ensures o.0.Some? ==> o.1 == store
    ensures o.0 == Some(NotFound) ==> forall r :: r in store ==> Some(r.id) != ObjectIdFromHex(id)
    ensures o.0.None? ==> storeOk && |o.1| == |store| - 1
    ensures o.0.None? ==> exists r :: r in store && Some(r.id) == ObjectIdFromHex(id)
    ensures o.0.None? ==> forall r :: r in store && Some(r.id) != ObjectIdFromHex(id) ==> r in o.1
    ensures o.0.None? ==>
      && ObjectIdFromHex(id).Some?
      && var k := IndexOfId(store, ObjectIdFromHex(id).value);
      && k.Some?
      && o.1 == store[..k.value] + store[k.value + 1..]
  {
    match ObjectIdFromHex(id)
    case None => (Some(InvalidId), store)
    case Some(oid) =>
      if !storeOk then (Some(StoreFailure), store)
      else match IndexOfId(store, oid)
        case None => (Some(NotFound), store)
        case Some(k) =>
          var rest := store[..k] + store[k + 1..];
          assert store == store[..k] + [store[k]] + store[k + 1..];
          assert store[k] in store;
          (None, rest)
  }

  /** The first rule in `store + [doc]` with `doc`'s identifier is `doc` when no stored rule has it. */
  lemma IndexOfAppended(store: seq<Rule>, doc: Rule)
    requires forall x :: x in store ==> x.id != doc.id
    ensures IndexOfId(store + [doc], doc.id) == Some(|store|)
  {
    var all := store + [doc];
    var k := IndexOfId(all, doc.id);
    assert all[|store|].id == doc.id;
    assert forall i :: 0 <= i < |store| ==> all[i] in store;
  }

  /**
   * Deleting, by its hex form, the identifier the store just gave a new
   * rule gives back the store as it was before the insert.
   */
  lemma DeleteUndoesCreate(store: seq<Rule>, rule: Rule, created: Timestamp, updated: Timestamp,
                           freshId: ObjectId)
    requires rule.id == NilObjectId && |freshId.bytes| == 12
    requires forall x :: x in store ==> x.id != freshId
    ensures var o := CreateRule(store, rule, created, updated, freshId, true);
            DeleteRule(o.store, Hex(freshId), true) == (None, store)
  {
    var o := CreateRule(store, rule, created, updated, freshId, true);
    HexRoundTrip(freshId);
    var doc := o.store[|store|];
    assert o.store == store + [doc];
    IndexOfAppended(store, doc);
    assert o.store[..|store|] + o.store[|store| + 1..] == store;
  }

  /**
   * An update that carries no fields still stamps the rule: with unique
   * identifiers, only that rule's `updatedAt` changes, and nothing else in
   * the store.
   */
  lemma EmptyPatchOnlyStamps(store: seq<Rule>, k: nat, now: Timestamp)
    requires k < |store| && |store[k].id.bytes| == 12
    requires forall i, j :: 0 <= i < j < |store| ==> store[i].id != store[j].id
    ensures var o := UpdateRule(store, Hex(store[k].id), map[], now, true);
            && o.result == Success(store[k].(updatedAt := now))
            && o.store == store[k := store[k].(updatedAt := now)]
  {
    var oid := store[k].id;
    HexRoundTrip(oid);
    var found := IndexOfId(store, oid);
    assert found == Some(k);
  }

  // ---------------------------------------------------------------------
  // First-run seeding
  // ---------------------------------------------------------------------

  function DefaultRule(name: string, sensor: string, op: string, threshold: int, action: string,
                       description: string): Rule {
    Rule(NilObjectId, name, sensor, op, threshold, action, true, description, Timestamp(0), Timestamp(0))
  }

  /** The four rules seeded into an empty store (rule_service.go:189-226), in creation order. */
  const DefaultRules: seq<Rule> := [GasDefault, RainDefault, SoilDefault, LightDefault]

  const GasDefault: Rule :=
    DefaultRule("Gas Danger Alert", "gas", ">", 700, "buzzer_on",
      "Trigger buzzer when gas level exceeds danger threshold")

  const RainDefault: Rule :=
    DefaultRule("Rain Detection - Close Window", "water", ">", 800, "window_close",
      "Automatically close window when rain is detected")

  const SoilDefault: Rule :=
    DefaultRule("Low Soil Moisture Alert", "soil", ">", 50, "buzzer_on",
      "Alert when soil moisture is too low")

  const LightDefault: Rule :=
    DefaultRule("Auto Light - Low Light Detection", "light", "<", 300, "white_light_on",
      "Automatically turn on LED when light level is low")

  /** No default rule's name holds an underscore. */
  lemma DefaultNamesUnderscoreFree(i: nat)
    requires i < 4
    ensures '_' !in DefaultRules[i].name
  {
    if i == 0 {
      NameUnderscoreFree(GasDefault.name);
    } else if i == 1 {
      NameUnderscoreFree(RainDefault.name);
    } else if i == 2 {
      NameUnderscoreFree(SoilDefault.name);
    } else {
      NameUnderscoreFree(LightDefault.name);
    }
  }

  /** The four default names, one at a time. */
  lemma NameUnderscoreFree(n: string)
    requires || n == "Gas Danger Alert" || n == "Rain Detection - Close Window"
             || n == "Low Soil Moisture Alert" || n == "Auto Light - Low Light Detection"
    ensures '_' !in n
  {
    if n == "Gas Danger Alert" {
      assert forall i :: 0 <= i < |n| ==> n[i] != '_';
    } else if n == "Rain Detection - Close Window" {
      assert forall i :: 0 <= i < |n| ==> n[i] != '_';
    } else if n == "Low Soil Moisture Alert" {
      assert forall i :: 0 <= i < |n| ==> n[i] != '_';
    } else {
      assert forall i :: 0 <= i < |n| ==> n[i] != '_';
    }
  }

  /** Default rule `k` as stored by the `k`-th create of the seeding. */
  function SeededRule(k: nat, clock: nat -> Timestamp, freshIds: nat -> ObjectId): Rule
    requires k < 4
  {
    DefaultRules[k].(id := freshIds(k), createdAt := clock(2 * k), updatedAt := clock(2 * k + 1))
  }

  /**
   * Creates `DefaultRules[k..]` one by one, stopping at the first failed
   * insert. Insert number `k` reads the clock at `2k` and `2k + 1` and gets
   * the fresh identifier `freshIds(k)`; it fails when `k` is in `fails`.
   */
  function SeedFrom(store: seq<Rule>, k: nat, clock: nat -> Timestamp, freshIds: nat -> ObjectId,
                    fails: set<nat>): (o: (Option<RuleError>, seq<Rule>))
    requires k <= 4
    ensures |store| <= |o.1| <= |store| + 4 - k && o.1[..|store|] == store
    ensures o.0.None? <==> forall j :: k <= j < 4 ==> j !in fails
    ensures o.0.None? ==> |o.1| == |store| + 4 - k
    ensures forall i :: |store| <= i < |o.1| ==> o.1[i] == SeededRule(k + i - |store|, clock, freshIds)
    decreases 4 - k
  {
    if k == 4 then (None, store)
    else
      var c := CreateRule(store, DefaultRules[k], clock(2 * k), clock(2 * k + 1), freshIds(k), k !in fails);
      if c.err.Some? then (c.err, store)
      else
        assert c.store == store + [SeededRule(k, clock, freshIds)];
        var rest := SeedFrom(c.store, k + 1, clock, freshIds, fails);
        assert rest.1[..|store|] == c.store[..|store|];
        assert forall i :: |store| <= i < |rest.1| ==> rest.1[i] == SeededRule(k + i - |store|, clock, freshIds) by {
          forall i | |store| <= i < |rest.1|
            ensures rest.1[i] == SeededRule(k + i - |store|, clock, freshIds)
          {
            if i == |store| {
              assert rest.1[i] == rest.1[..|c.store|][i] == c.store[i];
            } else {
              assert rest.1[i] == SeededRule(k + 1 + i - |c.store|, clock, freshIds);
            }
          }
        }
        rest
  }

  /**
   * `InitializeDefaultRules` (rule_service.go:177-236): a failed count is an
   * error; a non-empty store is left alone; an empty store receives the
   * four default rules in order, each stamped by `CreateRule`.
   */
  function InitializeDefaultRules(store: seq<Rule>, countOk: bool, clock: nat -> Timestamp,
                                  freshIds: nat -> ObjectId, fails: set<nat>): (o: (Option<RuleError>, seq<Rule>))
    ensures !countOk ==> o == (Some(StoreFailure), store)
    ensures countOk && |store| > 0 ==> o == (None, store)
    ensures o.0.Some? ==> |o.1| < 4 + |store|
  {
    if !countOk then (Some(StoreFailure), store)
    else if |store| > 0 then (None, store)
    else SeedFrom(store, 0, clock, freshIds, fails)
  }

  /**
   * Seeding an empty store with no failed insert yields exactly the four
   * default rules, all enabled, with the documented channels, operators,
   * thresholds and actions.
   */
  lemma SeedsFourDefaults(clock: nat -> Timestamp, freshIds: nat -> ObjectId, fails: set<nat>)
    requires forall j :: 0 <= j < 4 ==> j !in fails
    ensures var o := InitializeDefaultRules([], true, clock, freshIds, fails);
      && o.0.None? && |o.1| == 4
      && (forall i :: 0 <= i < 4 ==> o.1[i].enabled && o.1[i].createdAt == clock(2 * i))
      && (o.1[0].sensor, o.1[0].operator, o.1[0].threshold, o.1[0].action) == ("gas", ">", 700, "buzzer_on")
      && (o.1[1].sensor, o.1[1].operator, o.1[1].threshold, o.1[1].action) == ("water", ">", 800, "window_close")
      && (o.1[2].sensor, o.1[2].operator, o.1[2].threshold, o.1[2].action) == ("soil", ">", 50, "buzzer_on")
      && (o.1[3].sensor, o.1[3].operator, o.1[3].threshold, o.1[3].action) == ("light", "<", 300, "white_light_on")
  {
  }

  /** Whatever inserts fail, every seeded rule carries the name of the default it was made from. */
  lemma SeededNames(clock: nat -> Timestamp, freshIds: nat -> ObjectId, fails: set<nat>)
    ensures var store := InitializeDefaultRules([], true, clock, freshIds, fails).1;
            |store| <= 4 && forall i :: 0 <= i < |store| ==> store[i].name == DefaultRules[i].name
  {
    var store := InitializeDefaultRules([], true, clock, freshIds, fails).1;
    assert store == SeedFrom([], 0, clock, freshIds, fails).1;
  }

  /**
   * With a clock that moves forward, the seeded rules are listed newest
   * first: the light rule, then soil, water and gas, so evaluation visits
   * them in that order.
   */
  lemma SeededRulesListedNewestFirst(clock: nat -> Timestamp, freshIds: nat -> ObjectId)
    requires forall i, j :: 0 <= i < j < 8 ==> clock(i).ticks < clock(j).ticks
    ensures var o := InitializeDefaultRules([], true, clock, freshIds, {});
      && GetAllRules(o.1, true).value == Reverse(o.1)
      && [GetAllRules(o.1, true).value[0].sensor, GetAllRules(o.1, true).value[1].sensor,
          GetAllRules(o.1, true).value[2].sensor, GetAllRules(o.1, true).value[3].sensor]
         == ["light", "soil", "water", "gas"]
  {
    var o := InitializeDefaultRules([], true, clock, freshIds, {});
    SeededStrictlyOrdered(clock, freshIds);
    StrictStoreListedReversed(o.1);
    SeedsFourDefaults(clock, freshIds, {});
  }

  /** With a clock that moves forward, the seeded store is in strictly increasing creation time. */
  lemma SeededStrictlyOrdered(clock: nat -> Timestamp, freshIds: nat -> ObjectId)
    requires forall i, j :: 0 <= i < j < 8 ==> clock(i).ticks < clock(j).ticks
    ensures OldestFirstStrict(InitializeDefaultRules([], true, clock, freshIds, {}).1)
  {
    var o := InitializeDefaultRules([], true, clock, freshIds, {});
    SeedsFourDefaults(clock, freshIds, {});
    forall i, j | 0 <= i < j < |o.1|
      ensures o.1[i].createdAt.ticks < o.1[j].createdAt.ticks
    {
      assert o.1[i].createdAt == clock(2 * i) && o.1[j].createdAt == clock(2 * j);
      assert 0 <= 2 * i < 2 * j < 8;
    }
  }

  /** An alert holds an underscore only when the rule's name, channel or operator does. */
  lemma AlertUnderscoreFree(r: Rule, value: int)
    requires '_' !in r.name && '_' !in r.sensor && '_' !in r.operator
    ensures '_' !in FormatAlert(r, value)
  {
    IntToStringShape(r.threshold);
    IntToStringShape(value);
  }
}

=== FILE: text.dfy ===
/**
 * String and integer primitives that the serial links rely on, with the
 * semantics of the Go standard library (`strings`, `strconv`) and of the
 * JavaScript built-ins (`String.prototype.trim/split/includes`, `parseInt`)
 * that the two implementations call.
 */
module Text {
  import opened Wrappers

  // ---------------------------------------------------------------------
  // Characters
  // ---------------------------------------------------------------------

  predicate IsDigit(c: char) {
    '0' <= c <= '9'
  }

  function DigitValue(c: char): (d: nat)
    requires IsDigit(c)
    ensures d < 10
  {
    c as int - '0' as int
  }

  function DigitChar(d: nat): (c: char)
    requires d < 10
    ensures IsDigit(c) && DigitValue(c) == d
  {
    ('0' as int + d) as char
  }

  predicate AllDigits(s: string) {
    forall i :: 0 <= i < |s| ==> IsDigit(s[i])
  }

  /** Which language's notion of white space a trim uses. */
  datatype Whitespace = GoSpace | JsSpace

  /**
   * Go's `unicode.IsSpace` (used by `strings.TrimSpace`), and the JavaScript
   * WhiteSpace/LineTerminator set (used by `String.prototype.trim` and
   * `parseInt`). They differ in U+0085 (Go only) and U+FEFF (JavaScript only).
   */
  predicate IsSpace(k: Whitespace, c: char) {
    var n := c as int;
    || n == 0x20 || (0x09 <= n <= 0x0D) || n == 0xA0 || n == 0x1680
    || (0x2000 <= n <= 0x200A) || n == 0x2028 || n == 0x2029
    || n == 0x202F || n == 0x205F || n == 0x3000
    || (k == GoSpace && n == 0x85)
    || (k == JsSpace && n == 0xFEFF)
  }

  predicate AllSpace(k: Whitespace, s: string) {
    forall i :: 0 <= i < |s| ==> IsSpace(k, s[i])
  }

  /** ASCII lower-casing of one character. */
  function LowerChar(c: char): char {
    if 'A' <= c <= 'Z' then (c as int + 32) as char else c
  }

  /** `strings.ToLower` / `toLowerCase`, restricted to the ASCII letters. */
  function ToLower(s: string): (r: string)
    ensures |r| == |s|
    ensures forall i :: 0 <= i < |s| ==> r[i] == LowerChar(s[i])
    ensures forall i :: 0 <= i < |r| ==> !('A' <= r[i] <= 'Z')
  {
    if |s| == 0 then "" else [LowerChar(s[0])] + ToLower(s[1..])
  }

  lemma ToLowerIdempotent(s: string)
    ensures ToLower(ToLower(s)) == ToLower(s)
  {
  }

  // ---------------------------------------------------------------------
  // Trimming
  // ---------------------------------------------------------------------

  /** Number of white-space characters at the start of `s`. */
  function LeadingSpace(k: Whitespace, s: string): (n: nat)
    ensures n <= |s|
    ensures AllSpace(k, s[..n])
    ensures n < |s| ==> !IsSpace(k, s[n])
  {
    if |s| == 0 || !IsSpace(k, s[0]) then 0 else 1 + LeadingSpace(k, s[1..])
  }

  /** Number of white-space characters at the end of `s`. */
  function TrailingSpace(k: Whitespace, s: string): (n: nat)
    ensures n <= |s|
    ensures AllSpace(k, s[|s| - n..])
    ensures n < |s| ==> !IsSpace(k, s[|s| - n - 1])
  {
    if |s| == 0 || !IsSpace(k, s[|s| - 1]) then 0
    else
      var init := s[..|s| - 1];
      var m := TrailingSpace(k, init);
      assert s[|s| - 1 - m..] == init[|init| - m..] + [s[|s| - 1]];
      AllSpaceSnoc(k, init[|init| - m..], s[|s| - 1]);
      assert m + 1 < |s| ==> s[|s| - m - 2] == init[|init| - m - 1];
      1 + m
  }

  lemma AllSpaceSnoc(k: Whitespace, a: string, c: char)
    requires AllSpace(k, a) && IsSpace(k, c)
    ensures AllSpace(k, a + [c])
  {
    forall i | 0 <= i < |a + [c]|
      ensures IsSpace(k, (a + [c])[i])
    {
      if i < |a| {
        assert (a + [c])[i] == a[i];
      }
    }
  }

  /**
   * `strings.TrimSpace` (Go) or `trim()` (JavaScript): the result is the
   * largest infix of `s` that neither starts nor ends with white space.
   */
  function Trim(k: Whitespace, s: string): (r: string)
    ensures |r| <= |s|
    ensures |r| > 0 ==> !IsSpace(k, r[0]) && !IsSpace(k, r[|r| - 1])
    ensures |r| == 0 ==> AllSpace(k, s)
  {
    var lo := LeadingSpace(k, s);
    var rest := s[lo..];
    var hi := |rest| - TrailingSpace(k, rest);
    var r := rest[..hi];
    assert |r| > 0 ==> r[0] == s[lo] && r[|r| - 1] == rest[hi - 1];
    assert |r| == 0 ==> |rest| == 0 && s[..lo] == s;
    r
  }

  function TrimSpace(s: string): string {
    Trim(GoSpace, s)
  }

  /**
   * Trimming removes exactly the padding: surrounding a string that has no
   * white space at its ends with white space of any length and trimming
   * gives back the string.
   */
  lemma {:induction false} TrimPadded(k: Whitespace, left: string, core: string, right: string)
    requires AllSpace(k, left) && AllSpace(k, right)
    requires |core| > 0 ==> !IsSpace(k, core[0]) && !IsSpace(k, core[|core| - 1])
    requires |core| == 0 ==> |right| == 0
    ensures Trim(k, left + core + right) == core
  {
    var s := left + core + right;
    LeadingExact(k, left, core + right);
    assert s == left + (core + right);
    assert s[LeadingSpace(k, s)..] == core + right;
    TrailingExact(k, core, right);
  }

  lemma {:induction false} LeadingExact(k: Whitespace, pad: string, t: string)
    requires AllSpace(k, pad)
    requires |t| > 0 ==> !IsSpace(k, t[0])
    ensures LeadingSpace(k, pad + t) == |pad|
    decreases |pad|
  {
    if |pad| > 0 {
      assert (pad + t)[1..] == pad[1..] + t;
      LeadingExact(k, pad[1..], t);
    } else {
      assert pad + t == t;
    }
  }

  lemma {:induction false} TrailingExact(k: Whitespace, t: string, pad: string)
    requires AllSpace(k, pad)
    requires |t| > 0 ==> !IsSpace(k, t[|t| - 1])
    ensures TrailingSpace(k, t + pad) == |pad|
    decreases |pad|
  {
    if |pad| > 0 {
      assert (t + pad)[..|t + pad| - 1] == t + pad[..|pad| - 1];
      TrailingExact(k, t, pad[..|pad| - 1]);
    } else {
      assert t + pad == t;
    }
  }

  /** A string without white space at its ends is left alone by a trim. */
  lemma TrimNoOp(k: Whitespace, s: string)
    requires |s| > 0 ==> !IsSpace(k, s[0]) && !IsSpace(k, s[|s| - 1])
    ensures Trim(k, s) == s
  {
    TrimPadded(k, "", s, "");
    assert "" + s + "" == s;
  }

  // ---------------------------------------------------------------------
  // Substring search
  // ---------------------------------------------------------------------

  predicate OccursAt(hay: string, needle: string, i: int) {
    0 <= i && i + |needle| <= |hay| && hay[i..i + |needle|] == needle
  }

  /** The first position at or after `k` where `needle` occurs in `hay`. */
  function IndexFrom(hay: string, needle: string, k: nat): (r: Option<nat>)
    ensures r.Some? ==> k <= r.value && OccursAt(hay, needle, r.value)
    ensures r.Some? ==> forall j :: k <= j < r.value ==> !OccursAt(hay, needle, j)
    ensures r.None? ==> forall j :: k <= j ==> !OccursAt(hay, needle, j)
    decreases |hay| - k
  {
    if k + |needle| > |hay| then None
    else if hay[k..k + |needle|] == needle then Some(k)
    else IndexFrom(hay, needle, k + 1)
  }

  /** `strings.Contains` (Go) and `includes` (JavaScript). */
  predicate Contains(hay: string, needle: string) {
    IndexFrom(hay, needle, 0).Some?
  }

  /** `Contains` holds exactly when the needle occurs somewhere. */
  lemma ContainsIff(hay: string, needle: string)
    ensures Contains(hay, needle) <==> exists i :: OccursAt(hay, needle, i)
  {
    if !Contains(hay, needle) {
      assert forall j :: 0 <= j ==> !OccursAt(hay, needle, j);
    }
  }

  /** A needle holding a character the haystack lacks cannot occur in it. */
  lemma MissingCharNotContained(hay: string, needle: string, c: char)
    requires c in needle && c !in hay
    ensures !Contains(hay, needle)
  {
    ContainsIff(hay, needle);
  }

  // ---------------------------------------------------------------------
  // Splitting on a one-character separator
  // ---------------------------------------------------------------------

  function FirstIndexOf(s: string, c: char): (k: nat)
    requires c in s
    ensures k < |s| && s[k] == c && c !in s[..k]
  {
    if s[0] == c then 0 else 1 + FirstIndexOf(s[1..], c)
  }

  /** Concatenation of `parts` with `sep` between neighbours. */
  function Join(parts: seq<string>, sep: char): string {
    if |parts| == 0 then ""
    else if |parts| == 1 then parts[0]
    else parts[0] + [sep] + Join(parts[1..], sep)
  }

  /**
   * `strings.Split(s, sep)` (Go) and `s.split(sep)` (JavaScript) for a
   * one-character separator: the pieces between separators, at least one.
   */
  function Split(s: string, sep: char): (parts: seq<string>)
    ensures |parts| >= 1
    ensures forall i :: 0 <= i < |parts| ==> sep !in parts[i]
    ensures Join(parts, sep) == s
    decreases |s|
  {
    if sep !in s then [s]
    else
      var k := FirstIndexOf(s, sep);
      var rest := Split(s[k + 1..], sep);
      assert s == s[..k] + [sep] + s[k + 1..];
      [s[..k]] + rest
  }

  /** Splitting undoes joining pieces that do not contain the separator. */
  lemma {:induction false} SplitJoin(parts: seq<string>, sep: char)
    requires |parts| >= 1
    requires forall i :: 0 <= i < |parts| ==> sep !in parts[i]
    ensures Split(Join(parts, sep), sep) == parts
    decreases |parts|
  {
    if |parts| > 1 {
      assert sep !in parts[0];
      SplitStep(parts[0], Join(parts[1..], sep), sep);
      SplitJoin(parts[1..], sep);
      assert parts == [parts[0]] + parts[1..];
    }
  }

  /** A separator-free first piece splits off and the rest is split on its own. */
  lemma SplitStep(p: string, rest: string, sep: char)
    requires sep !in p
    ensures Split(p + [sep] + rest, sep) == [p] + Split(rest, sep)
  {
    var s := p + [sep] + rest;
    assert s[|p|] == sep;
    assert s[..|p|] == p;
    assert FirstIndexOf(s, sep) == |p|;
    assert s[|p| + 1..] == rest;
  }

  /** Two separator-free strings joined by the separator split back into the two. */
  lemma SplitPair(a: string, b: string, sep: char)
    requires sep !in a && sep !in b
    ensures Split(a + [sep] + b, sep) == [a, b]
  {
    assert Join([a, b], sep) == a + [sep] + b by {
      assert [a, b][1..] == [b];
    }
    SplitJoin([a, b], sep);
  }

  // ---------------------------------------------------------------------
  // Decimal integers
  // ---------------------------------------------------------------------

  const MinInt64: int := -0x8000_0000_0000_0000
  const MaxInt64: int := 0x7FFF_FFFF_FFFF_FFFF

  /** The range of Go's `int` on the 64-bit targets the server is built for. */
  predicate InInt64(n: int) {
    MinInt64 <= n <= MaxInt64
  }

  /** The value of a string of decimal digits. */
  function DigitsValue(ds: string): nat
    requires AllDigits(ds)
  {
    if |ds| == 0 then 0
    else DigitsValue(ds[..|ds| - 1]) * 10 + DigitValue(ds[|ds| - 1])
  }

  /** The shortest decimal digits of a natural number. */
  function NatToString(n: nat): (s: string)
    ensures |s| > 0
  {
    if n < 10 then [DigitChar(n)] else NatToString(n / 10) + [DigitChar(n % 10)]
  }

  /** The digits of a natural number read back as the number, with no leading zero. */
  lemma {:induction false} NatToStringDigits(n: nat)
    ensures AllDigits(NatToString(n)) && DigitsValue(NatToString(n)) == n
    ensures NatToString(n)[0] == '0' ==> n == 0 && NatToString(n) == "0"
    decreases n
  {
    if n >= 10 {
      var prefix := NatToString(n / 10);
      var s := NatToString(n);
      NatToStringDigits(n / 10);
      assert s == prefix + [DigitChar(n % 10)];
      assert s[..|s| - 1] == prefix;
      assert s[0] == prefix[0];
    }
  }

  /** Go's `%d` and `strconv.Itoa`, JavaScript's `String(n)` for integers. */
  function IntToString(n: int): (s: string)
    ensures |s| > 0
  {
    if n >= 0 then NatToString(n) else "-" + NatToString(-n)
  }

  /** A number's text is its digits, behind a minus sign when it is negative. */
  lemma IntToStringDigits(n: int)
    ensures n >= 0 ==> AllDigits(IntToString(n)) && DigitsValue(IntToString(n)) == n
    ensures n < 0 ==> IntToString(n)[0] == '-' && IntToString(n)[1..] == NatToString(-n)
                      && AllDigits(IntToString(n)[1..]) && DigitsValue(IntToString(n)[1..]) == -n
  {
    if n >= 0 {
      NatToStringDigits(n);
    } else {
      NatToStringDigits(-n);
      assert IntToString(n)[1..] == NatToString(-n);
    }
  }

  lemma IntToStringShape(n: int)
    ensures forall i :: 0 <= i < |IntToString(n)| ==> IsDigit(IntToString(n)[i]) || IntToString(n)[i] == '-'
  {
    IntToStringDigits(n);
  }

  /** A number's text holds no separator and no white space at its ends. */
  lemma NumberHasNoSeparators(v: int)
    ensures ',' !in IntToString(v) && ':' !in IntToString(v)
    ensures forall k :: !IsSpace(k, IntToString(v)[0]) && !IsSpace(k, IntToString(v)[|IntToString(v)| - 1])
  {
    var s := IntToString(v);
    IntToStringShape(v);
    assert forall i :: 0 <= i < |s| ==> s[i] != ',' && s[i] != ':';
    var first, last := s[0], s[|s| - 1];
    assert IsDigit(first) || first == '-';
    assert IsDigit(last) || last == '-';
    forall k
      ensures !IsSpace(k, first) && !IsSpace(k, last)
    {
    }
  }

  /**
   * `strconv.Atoi`: an optional sign followed by one or more ASCII digits,
   * whose value must fit Go's 64-bit `int`; anything else is an error.
   */
  function Atoi(s: string): (r: Option<int>)
    ensures r.Some? ==> InInt64(r.value)
    ensures r.Some? ==> |s| > 0 && (IsDigit(s[0]) || s[0] == '+' || s[0] == '-')
    ensures r.Some? ==> forall i :: 0 < i < |s| ==> IsDigit(s[i])
    ensures r.Some? && IsDigit(s[0]) ==> r.value == DigitsValue(s)
  {
    if |s| == 0 then None
    else
      var neg := s[0] == '-';
      var body := if s[0] == '-' || s[0] == '+' then s[1..] else s;
      if |body| == 0 || !AllDigits(body) then None
      else
        var v: int := if neg then -(DigitsValue(body) as int) else DigitsValue(body);
        if InInt64(v) then Some(v) else None
  }

  /** Every non-empty unsigned digit string whose value fits 64 bits is accepted with that value. */
  lemma AtoiDigits(ds: string)
    requires 0 < |ds| && AllDigits(ds) && DigitsValue(ds) <= MaxInt64
    ensures Atoi(ds) == Some(DigitsValue(ds))
  {
  }

  /** Formatting an in-range integer and parsing it back gives the integer. */
  lemma AtoiIntToString(n: int)
    requires InInt64(n)
    ensures Atoi(IntToString(n)) == Some(n)
  {
    IntToStringDigits(n);
  }

  /** A JavaScript number produced by `parseInt`: an integer or `NaN`. */
  datatype JsNum = Num(n: int) | NaN

  /** The longest prefix of `s` made of decimal digits. */
  function DigitPrefix(s: string): (d: string)
    ensures |d| <= |s| && d == s[..|d|] && AllDigits(d)
    ensures |d| < |s| ==> !IsDigit(s[|d|])
  {
    if |s| == 0 || !IsDigit(s[0]) then "" else [s[0]] + DigitPrefix(s[1..])
  }

  /**
   * `parseInt(s, 10)`: skips leading white space, reads an optional sign and
   * the longest run of digits after it, ignores whatever follows; `NaN` when
   * there is no digit.
   */
  function ParseIntJs(s: string): (r: JsNum)
    ensures r.Num? ==> exists i :: 0 <= i < |s| && IsDigit(s[i])
  {
    var lead := LeadingSpace(JsSpace, s);
    var r := SignedDigits(s[lead..]);
    if r.Num? then
      var i :| 0 <= i < |s[lead..]| && IsDigit(s[lead..][i]);
      assert IsDigit(s[lead + i]);
      r
    else r
  }

  /** What `parseInt` reads once the white space is skipped: a sign and the digits after it. */
  function SignedDigits(t: string): (r: JsNum)
    ensures r.Num? ==> exists i :: 0 <= i < |t| && IsDigit(t[i])
  {
    var neg := |t| > 0 && t[0] == '-';
    var body := if |t| > 0 && (t[0] == '-' || t[0] == '+') then t[1..] else t;
    var ds := DigitPrefix(body);
    if |ds| == 0 then NaN
    else
      assert IsDigit(body[0]);
      Num(if neg then -(DigitsValue(ds) as int) else DigitsValue(ds))
  }

  /** `parseInt` reads back what `String(n)` writes, followed by anything that is not a digit. */
  lemma ParseIntJsIntToString(n: int, tail: string)
    requires |tail| > 0 ==> !IsDigit(tail[0])
    ensures ParseIntJs(IntToString(n) + tail) == Num(n)
  {
    var s := IntToString(n) + tail;
    IntToStringDigits(n);
    NoLeadingSpace(s);
    if n >= 0 {
      UnsignedDigitsOf(IntToString(n), tail);
    } else {
      var ds := NatToString(-n);
      NatToStringDigits(-n);
      NegativeDigitsOf(ds, tail);
      assert s == ['-'] + ds + tail;
    }
  }

  /** With no white space in front, `parseInt` reads the signed digits from the start. */
  lemma NoLeadingSpace(s: string)
    requires |s| > 0 && (IsDigit(s[0]) || s[0] == '-')
    ensures ParseIntJs(s) == SignedDigits(s)
  {
    assert LeadingSpace(JsSpace, s) == 0;
    assert s[0..] == s;
  }

  /** Digits followed by a tail that does not start with a digit read as their value. */
  lemma UnsignedDigitsOf(ds: string, tail: string)
    requires |ds| > 0 && AllDigits(ds)
    requires |tail| > 0 ==> !IsDigit(tail[0])
    ensures SignedDigits(ds + tail) == Num(DigitsValue(ds))
  {
    assert (ds + tail)[0] == ds[0];
    DigitPrefixOf(ds, tail);
  }

  /** The same behind a minus sign: the negated value. */
  lemma NegativeDigitsOf(ds: string, tail: string)
    requires |ds| > 0 && AllDigits(ds)
    requires |tail| > 0 ==> !IsDigit(tail[0])
    ensures SignedDigits(['-'] + ds + tail) == Num(-(DigitsValue(ds) as int))
  {
    var t := ['-'] + ds + tail;
    assert t[1..] == ds + tail;
    DigitPrefixOf(ds, tail);
    MinusThenDigits(t, ds);
  }

  lemma MinusThenDigits(t: string, ds: string)
    requires |t| > 0 && t[0] == '-' && |ds| > 0 && DigitPrefix(t[1..]) == ds
    ensures SignedDigits(t) == Num(-(DigitsValue(ds) as int))
  {
  }

  lemma {:induction false} DigitPrefixOf(ds: string, tail: string)
    requires AllDigits(ds)
    requires |tail| > 0 ==> !IsDigit(tail[0])
    ensures DigitPrefix(ds + tail) == ds
    decreases |ds|
  {
    if |ds| > 0 {
      assert (ds + tail)[1..] == ds[1..] + tail;
      DigitPrefixOf(ds[1..], tail);
      assert ds == [ds[0]] + ds[1..];
    } else {
      assert ds + tail == tail;
    }
  }
}

=== FILE: tsecho.dfy ===
/**
 * The actuator side of server/arduinoSerial.ts: which echo lines reach
 * `updateActuatorStateFromResponse`, and how its case-sensitive chain of
 * phrases changes the actuator shadow.
 */
module TsEcho {
  import opened Wrappers
  import opened Text

  /** `ActuatorStates` (arduinoSerial.ts:18-27): an angle or a speed read from an echo may be `NaN`. */
  datatype TsActuators = TsActuators(
    whiteLight: bool, yellowLight: bool, relay: bool,
    doorAngle: JsNum, windowAngle: JsNum,
    fan: bool, fanSpeed: JsNum, buzzer: bool)

  const TsInitialActuators: TsActuators :=
    TsActuators(false, false, false, Num(0), Num(0), false, Num(0), false)

  // ---------------------------------------------------------------------
  // Echo lines
  // ---------------------------------------------------------------------

  /** The gate in front of the echo handler (arduinoSerial.ts:159-163), case-sensitive. */
  predicate Gate(line: string) {
    || Contains(line, "light ON") || Contains(line, "light OFF")
    || Contains(line, "opened") || Contains(line, "closed")
    || Contains(line, "Fan ON") || Contains(line, "Fan OFF")
    || Contains(line, "Relay ON") || Contains(line, "Relay OFF")
    || Contains(line, "Buzzer ON") || Contains(line, "Buzzer OFF")
  }

  /** The change one echo line makes. */
  datatype TsChange =
    | WhiteSet(on: bool) | YellowSet(on: bool) | RelaySet(on: bool)
    | DoorSet(angle: int) | WindowSet(angle: int)
    | FanSet(on: bool) | BuzzerSet(on: bool)
    | DoorFromText | WindowFromText | SpeedFromText   // the number after the first colon

  /**
   * The `if … else if` chain of `updateActuatorStateFromResponse`
   * (arduinoSerial.ts:205-242), written in three stretches: the lights and
   * the relay, then the door and window phrases, then the fan, the buzzer
   * and the numeric echoes.
   */
  function TsEchoChange(response: string): Option<TsChange> {
    if Contains(response, "White light ON") then Some(WhiteSet(true))
    else if Contains(response, "White light OFF") then Some(WhiteSet(false))
    else if Contains(response, "Yellow light ON") then Some(YellowSet(true))
    else if Contains(response, "Yellow light OFF") then Some(YellowSet(false))
    else if Contains(response, "Relay ON") then Some(RelaySet(true))
    else if Contains(response, "Relay OFF") then Some(RelaySet(false))
    else ServoEchoChange(response)
  }

  function ServoEchoChange(response: string): Option<TsChange> {
    if Contains(response, "Door opened") then Some(DoorSet(180))
    else if Contains(response, "Door closed") then Some(DoorSet(0))
    else if Contains(response, "Window opened") then Some(WindowSet(180))
    else if Contains(response, "Window closed") then Some(WindowSet(0))
    else LateEchoChange(response)
  }

  function LateEchoChange(response: string): Option<TsChange> {
    if Contains(response, "Fan ON") then Some(FanSet(true))
    else if Contains(response, "Fan OFF") then Some(FanSet(false))
    else if Contains(response, "Buzzer ON") then Some(BuzzerSet(true))
    else if Contains(response, "Buzzer OFF") then Some(BuzzerSet(false))
    else if Contains(response, "Door angle:") then Some(DoorFromText)
    else if Contains(response, "Window angle:") then Some(WindowFromText)
    else if Contains(response, "Fan speed:") then Some(SpeedFromText)
    else None
  }

  /** One clause of the chain: the phrase it looks for and the change it stands for. */
  datatype Clause = Clause(text: string, change: TsChange)

  /** The clauses of the chain, in the order it tries them. */
  const TsClauses: seq<Clause> := SwitchClauses + ServoClauses + LateClauses

  const SwitchClauses: seq<Clause> := [
    Clause("White light ON", WhiteSet(true)),
    Clause("White light OFF", WhiteSet(false)),
    Clause("Yellow light ON", YellowSet(true)),
    Clause("Yellow light OFF", YellowSet(false)),
    Clause("Relay ON", RelaySet(true)),
    Clause("Relay OFF", RelaySet(false))
  ]

  const ServoClauses: seq<Clause> := [
    Clause("Door opened", DoorSet(180)),
    Clause("Door closed", DoorSet(0)),
    Clause("Window opened", WindowSet(180)),
    Clause("Window closed", WindowSet(0))
  ]

  const LateClauses: seq<Clause> := [
    Clause("Fan ON", FanSet(true)),
    Clause("Fan OFF", FanSet(false)),
    Clause("Buzzer ON", BuzzerSet(true)),
    Clause("Buzzer OFF", BuzzerSet(false)),
    Clause("Door angle:", DoorFromText),
    Clause("Window angle:", WindowFromText),
    Clause("Fan speed:", SpeedFromText)
  ]

  /**
   * Reference reading of the chain as a table: the first clause whose
   * phrase the line contains decides, and only that clause.
   */
  function FirstClause(line: string, table: seq<Clause>): Option<TsChange> {
    if |table| == 0 then None
    else if Contains(line, table[0].text) then Some(table[0].change)
    else FirstClause(line, table[1..])
  }

  /**
   * The table's decision: no change when no phrase occurs; otherwise the
   * change of a clause whose phrase occurs and no earlier phrase does.
   */
  lemma {:induction false} FirstClauseDecides(line: string, table: seq<Clause>)
    ensures FirstClause(line, table).None? <==> forall i :: 0 <= i < |table| ==> !Contains(line, table[i].text)
    ensures FirstClause(line, table).Some? ==>
              exists i :: && 0 <= i < |table| && Contains(line, table[i].text)
                          && FirstClause(line, table).value == table[i].change
                          && forall j :: 0 <= j < i ==> !Contains(line, table[j].text)
  {
    if |table| > 0 && !Contains(line, table[0].text) {
      var c := FirstClause(line, table[1..]);
      FirstClauseDecides(line, table[1..]);
      assert forall i :: 1 <= i < |table| ==> table[i] == table[1..][i - 1];
      if c.Some? {
        var i :| && 0 <= i < |table[1..]| && Contains(line, table[1..][i].text) && c.value == table[1..][i].change
                 && forall j :: 0 <= j < i ==> !Contains(line, table[1..][j].text);
        assert Contains(line, table[i + 1].text) && c.value == table[i + 1].change;
      }
    } else if |table| > 0 {
      assert Contains(line, table[0].text);
    }
  }

  lemma FirstClauseStep(line: string, t: seq<Clause>, i: nat)
    requires i < |t|
    ensures FirstClause(line, t[i..])
         == if Contains(line, t[i].text) then Some(t[i].change) else FirstClause(line, t[i + 1..])
  {
    assert t[i..][1..] == t[i + 1..];
  }

  /** Looking through two tables one after the other is looking through their concatenation. */
  lemma {:induction false} FirstClauseAppend(line: string, a: seq<Clause>, b: seq<Clause>)
    ensures FirstClause(line, a + b)
         == if FirstClause(line, a).Some? then FirstClause(line, a) else FirstClause(line, b)
    decreases |a|
  {
    if |a| > 0 {
      assert (a + b)[0] == a[0] && (a + b)[1..] == a[1..] + b;
      FirstClauseAppend(line, a[1..], b);
    } else {
      assert a + b == b;
    }
  }

  lemma LateEchoIsTable(line: string)
    ensures LateEchoChange(line) == FirstClause(line, LateClauses)
  {
    var t := LateClauses;
    assert FirstClause(line, t[7..]) == None;
    FirstClauseStep(line, t, 6);
    FirstClauseStep(line, t, 5);
    FirstClauseStep(line, t, 4);
    FirstClauseStep(line, t, 3);
    FirstClauseStep(line, t, 2);
    FirstClauseStep(line, t, 1);
    FirstClauseStep(line, t, 0);
    assert t[0..] == t;
  }

  lemma ServoEchoIsTable(line: string)
    ensures ServoEchoChange(line) == FirstClause(line, ServoClauses + LateClauses)
  {
    var t := ServoClauses;
    LateEchoIsTable(line);
    FirstClauseAppend(line, t, LateClauses);
    assert FirstClause(line, t[4..]) == None;
    FirstClauseStep(line, t, 3);
    FirstClauseStep(line, t, 2);
    FirstClauseStep(line, t, 1);
    FirstClauseStep(line, t, 0);
    assert t[0..] == t;
  }

  /** The last three clauses of the light and relay stretch. */
  lemma RelayClauses(line: string)
    ensures FirstClause(line, SwitchClauses[3..])
         == if Contains(line, "Yellow light OFF") then Some(YellowSet(false))
            else if Contains(line, "Relay ON") then Some(RelaySet(true))
            else if Contains(line, "Relay OFF") then Some(RelaySet(false))
            else None
  {
    var t := SwitchClauses;
    assert FirstClause(line, t[6..]) == None;
    FirstClauseStep(line, t, 5);
    FirstClauseStep(line, t, 4);
    FirstClauseStep(line, t, 3);
  }

  /** The light and relay stretch of the chain, on its own. */
  lemma SwitchClausesDecide(line: string)
    ensures FirstClause(line, SwitchClauses)
         == if Contains(line, "White light ON") then Some(WhiteSet(true))
            else if Contains(line, "White light OFF") then Some(WhiteSet(false))
            else if Contains(line, "Yellow light ON") then Some(YellowSet(true))
            else FirstClause(line, SwitchClauses[3..])
  {
    var t := SwitchClauses;
    FirstClauseStep(line, t, 2);
    FirstClauseStep(line, t, 1);
    FirstClauseStep(line, t, 0);
    assert t[0..] == t;
  }

  /** The chain and the table agree on every line. */
  lemma TsEchoChangeIsFirstClause(line: string)
    ensures TsEchoChange(line) == FirstClause(line, TsClauses)
  {
    var t := SwitchClauses;
    ServoEchoIsTable(line);
    assert TsClauses == t + (ServoClauses + LateClauses);
    FirstClauseAppend(line, t, ServoClauses + LateClauses);
    RelayClauses(line);
    SwitchClausesDecide(line);
  }

  /**
   * `parseInt(response.split(':')[1]?.trim() || '0', 10)`
   * (arduinoSerial.ts:234, 237, 240): the piece after the FIRST colon of
   * the line, whichever tag it follows.
   */
  function ColonNumber(response: string): JsNum {
    var pieces := Split(response, ':');
    var text := if |pieces| >= 2 then Trim(JsSpace, pieces[1]) else "";
    ParseIntJs(if |text| == 0 then "0" else text)
  }

  /** A colon-free tag followed by `": "` and a number reads back as that number. */
  lemma ColonNumberAfterLabel(tag: string, n: int)
    requires ':' !in tag
    ensures ColonNumber(tag + ": " + IntToString(n)) == Num(n)
  {
    var s := IntToString(n);
    NumberHasNoSeparators(n);
    IntToStringShape(n);
    assert tag + ": " + s == tag + [':'] + (" " + s);
    SplitPair(tag, " " + s, ':');
    assert !IsSpace(JsSpace, s[0]) && !IsSpace(JsSpace, s[|s| - 1]);
    TrimPadded(JsSpace, " ", s, "");
    assert " " + s + "" == " " + s;
    ParseIntJsIntToString(n, "");
    assert s + "" == s;
  }

  function ApplyTsChange(a: TsActuators, c: TsChange, response: string): TsActuators {
    match c
    case WhiteSet(on) => a.(whiteLight := on)
    case YellowSet(on) => a.(yellowLight := on)
    case RelaySet(on) => a.(relay := on)
    case DoorSet(angle) => a.(doorAngle := Num(angle))
    case WindowSet(angle) => a.(windowAngle := Num(angle))
    case FanSet(on) => a.(fan := on)
    case BuzzerSet(on) => a.(buzzer := on)
    case DoorFromText => a.(doorAngle := ColonNumber(response))
    case WindowFromText => a.(windowAngle := ColonNumber(response))
    case SpeedFromText => a.(fanSpeed := ColonNumber(response))
  }

  /** `updateActuatorStateFromResponse` (arduinoSerial.ts:204-243). */
  function UpdateActuatorStateFromResponse(a: TsActuators, response: string): (r: TsActuators)
    ensures TsEchoChange(response).None? ==> r == a
    ensures TsEchoChange(response).Some? ==> r == ApplyTsChange(a, TsEchoChange(response).value, response)
  {
    match TsEchoChange(response)
    case None => a
    case Some(c) => ApplyTsChange(a, c, response)
  }

  /** How many of the eight actuator fields differ between two states. */
  function Changed(a: TsActuators, b: TsActuators): nat {
    (if a.whiteLight != b.whiteLight then 1 else 0) + (if a.yellowLight != b.yellowLight then 1 else 0)
    + (if a.relay != b.relay then 1 else 0) + (if a.doorAngle != b.doorAngle then 1 else 0)
    + (if a.windowAngle != b.windowAngle then 1 else 0) + (if a.fan != b.fan then 1 else 0)
    + (if a.fanSpeed != b.fanSpeed then 1 else 0) + (if a.buzzer != b.buzzer then 1 else 0)
  }

  lemma ChangeTouchesOneField(a: TsActuators, c: TsChange, response: string)
    ensures Changed(a, ApplyTsChange(a, c, response)) <= 1
  {
  }

  /** An echo changes at most one actuator: only the first matching clause applies. */
  lemma TsEchoTouchesOneField(a: TsActuators, response: string)
    ensures Changed(a, UpdateActuatorStateFromResponse(a, response)) <= 1
  {
    match TsEchoChange(response)
    case None =>
    case Some(c) => ChangeTouchesOneField(a, c, response);
  }

  /**
   * The speed clause comes after `Fan ON`/`Fan OFF`, `Relay …` and
   * `Buzzer …`, so a gated line reaches it only through a gate word that
   * is not a clause of its own: `light ON`, `light OFF`, `opened` or `closed`.
   */
  lemma SpeedEchoNeedsForeignGateWord(line: string)
    requires Gate(line) && TsEchoChange(line) == Some(SpeedFromText)
    ensures || Contains(line, "light ON") || Contains(line, "light OFF")
            || Contains(line, "opened") || Contains(line, "closed")
  {
  }


  /** Every gate word holds one of the letters `l`, `p`, `c`, `F`, `R`, `B`. */
  lemma GateNeedsLetters(line: string)
    requires 'l' !in line && 'p' !in line && 'c' !in line && 'F' !in line && 'R' !in line && 'B' !in line
    ensures !Gate(line)
  {
    MissingCharNotContained(line, "light ON", 'l');
    MissingCharNotContained(line, "light OFF", 'l');
    MissingCharNotContained(line, "opened", 'p');
    MissingCharNotContained(line, "closed", 'c');
    MissingCharNotContained(line, "Fan ON", 'F');
    MissingCharNotContained(line, "Fan OFF", 'F');
    MissingCharNotContained(line, "Relay ON", 'R');
    MissingCharNotContained(line, "Relay OFF", 'R');
    MissingCharNotContained(line, "Buzzer ON", 'B');
    MissingCharNotContained(line, "Buzzer OFF", 'B');
  }

  /** `Door: 90` holds none of the gate words, and no `GAS:` tag either. */
  lemma BareDoorEchoUngated()
    ensures !Gate("Door: 90") && !Contains("Door: 90", "GAS:")
  {
    var line := "Door: 90";
    assert 'l' !in line && 'p' !in line && 'c' !in line;
    assert 'F' !in line && 'R' !in line && 'B' !in line && 'G' !in line;
    GateNeedsLetters(line);
    MissingCharNotContained(line, "GAS:", 'G');
  }
}

=== FILE: tslink.dfy ===
/**
 * The legacy TypeScript link, server/arduinoSerial.ts: the same device
 * protocol as the Go link, handled by a second state machine with rules of
 * its own. Telemetry needs all four primary channels and has no all-zero
 * filter; echoes are matched case-sensitively and only behind a gate of
 * trigger words; rules act through the actuator shadow; a failed save
 * loses its batch.
 */
module TsLink {
  import opened Wrappers
  import opened Text
  import opened Models
  import opened RuleEngine
  import opened GoLink
  import opened TsEcho

  // ---------------------------------------------------------------------
  // Records and link state
  // ---------------------------------------------------------------------

  /** `SensorReading` (arduinoSerial.ts:7-16): a primary channel may hold `NaN`. */
  datatype TsReading = TsReading(
    gas: JsNum, light: JsNum, soil: JsNum, water: JsNum,
    infrar: int, btn1: int, btn2: int,
    timestamp: Timestamp)

  /** A document the store accepted: a buffered sample, or the record of an executed action. */
  datatype TsDoc = Sample(reading: TsReading) | ActionRecord(reading: TsReading, alert: string)

  /** The fields of `ArduinoSerial` that the transitions read and write. */
  datatype TsLink = TsLink(
    portOpen: bool,              // a port is held and open
    saving: bool,                // the two-second save interval is installed
    ready: bool,                 // no command is awaiting its ACK
    queue: seq<string>,          // commands waiting for the device to become ready
    current: Option<TsReading>,
    actuators: TsActuators,
    buffer: seq<TsReading>,      // samples not yet stored, oldest first
    timers: seq<string>,         // commands scheduled by `setTimeout`, not yet sent
    wire: seq<string>,           // everything written to the port, oldest first
    stored: seq<TsDoc>)          // documents the store accepted, oldest first

  /** The state the constructor builds (arduinoSerial.ts:29-51): no port, saver installed. */
  const TsInitialLink: TsLink :=
    TsLink(false, true, true, [], None, TsInitialActuators, [], [], [], [])

  // ---------------------------------------------------------------------
  // Connection lifecycle
  // ---------------------------------------------------------------------

  /**
   * The flag logic of `connect` (arduinoSerial.ts:59-83): an open port is
   * kept, a failed open changes nothing, a successful one holds the port.
   * The save interval is not installed again.
   */
  function TsConnect(l: TsLink, openOk: bool): (r: TsLink)
    ensures l.portOpen || !openOk ==> r == l
    ensures !l.portOpen && openOk ==> r == l.(portOpen := true)
  {
    if l.portOpen || !openOk then l else l.(portOpen := true)
  }

  /** `disconnect` (arduinoSerial.ts:85-102): the save interval is cleared and the port dropped. */
  function TsDisconnect(l: TsLink): (r: TsLink)
    ensures !r.portOpen && !r.saving
    ensures r.(portOpen := l.portOpen, saving := l.saving) == l
  {
    l.(portOpen := false, saving := false)
  }

  // ---------------------------------------------------------------------
  // Command channel
  // ---------------------------------------------------------------------

  /**
   * `sendCommand` (arduinoSerial.ts:375-394): without an open port nothing
   * happens and nothing is queued; while a command awaits its ACK the new
   * one joins the queue; otherwise the link turns busy BEFORE the write,
   * whose failure is only logged.
   */
  function TsSendCommand(l: TsLink, cmd: string, writeOk: bool): (r: TsLink)
    ensures !l.portOpen ==> r == l
    ensures l.portOpen && !l.ready ==> r == l.(queue := l.queue + [cmd])
    ensures l.portOpen && l.ready ==>
      && !r.ready && r.queue == l.queue
      && r.wire == l.wire + (if writeOk then [EncodeCommand(cmd)] else [])
    ensures r.(ready := l.ready, queue := l.queue, wire := l.wire) == l
  {
    if !l.portOpen then l
    else if !l.ready then l.(queue := l.queue + [cmd])
    else l.(ready := false, wire := if writeOk then l.wire + [EncodeCommand(cmd)] else l.wire)
  }

  /**
   * The ACK branch of the line listener (arduinoSerial.ts:113-121): the
   * link is ready again and the queue head moves to a pending timer.
   */
  function TsHandleAck(l: TsLink): (r: TsLink)
    ensures r.ready
    ensures |l.queue| > 0 ==> r.queue == l.queue[1..] && r.timers == l.timers + [l.queue[0]]
    ensures |l.queue| > 0 ==> [r.timers[|r.timers| - 1]] + r.queue == l.queue
    ensures |l.queue| == 0 ==> r == l.(ready := true)
    ensures r.(ready := l.ready, queue := l.queue, timers := l.timers) == l
  {
    if |l.queue| > 0 then l.(ready := true, queue := l.queue[1..], timers := l.timers + [l.queue[0]])
    else l.(ready := true)
  }

  /** A pending `setTimeout` fires (arduinoSerial.ts:119, 347-349) and hands its command to `sendCommand`. */
  function TsFireTimer(l: TsLink, i: nat, writeOk: bool): (r: TsLink)
    ensures i >= |l.timers| ==> r == l
    ensures i < |l.timers| ==> |r.timers| == |l.timers| - 1
    ensures i < |l.timers| ==> r == TsSendCommand(l.(timers := l.timers[..i] + l.timers[i + 1..]), l.timers[i], writeOk)
  {
    if i >= |l.timers| then l
    else TsSendCommand(l.(timers := l.timers[..i] + l.timers[i + 1..]), l.timers[i], writeOk)
  }

  /**
   * With `cmd` queued behind a command in flight, an ACK followed by its
   * timer writes exactly `cmd` and leaves the rest of the queue in order.
   */
  lemma TsAckThenResendTransmitsHead(l: TsLink, cmd: string, rest: seq<string>)
    requires l.portOpen && !l.ready && l.queue == [cmd] + rest
    ensures var r := TsFireTimer(TsHandleAck(l), |l.timers|, true);
            && r.wire == l.wire + [EncodeCommand(cmd)]
            && r.queue == rest && r.timers == l.timers && !r.ready
  {
    var l1 := TsHandleAck(l);
    assert l1.timers[..|l.timers|] == l.timers;
  }

  /**
   * A failed write still leaves the link busy, and no ACK is coming for a
   * command that never left: every later command is queued and nothing
   * more is written until some ACK arrives.
   */
  lemma FailedWriteStallsLink(l: TsLink, cmd: string, later: seq<string>, writeOk: bool)
    requires l.portOpen && l.ready
    ensures var r := SendEach(TsSendCommand(l, cmd, false), later, writeOk);
            && r.wire == l.wire && !r.ready && r.queue == l.queue + later
  {
    var l1 := TsSendCommand(l, cmd, false);
    QueuedWhileBusy(l1, later, writeOk);
  }

  /** `sendCommand` applied to several commands in turn. */
  function SendEach(l: TsLink, cmds: seq<string>, writeOk: bool): TsLink
    decreases |cmds|
  {
    if |cmds| == 0 then l else SendEach(TsSendCommand(l, cmds[0], writeOk), cmds[1..], writeOk)
  }

  lemma {:induction false} QueuedWhileBusy(l: TsLink, cmds: seq<string>, writeOk: bool)
    requires l.portOpen && !l.ready
    ensures var r := SendEach(l, cmds, writeOk);
            && r.wire == l.wire && !r.ready && r.queue == l.queue + cmds && r.portOpen
    decreases |cmds|
  {
    if |cmds| > 0 {
      var l1 := TsSendCommand(l, cmds[0], writeOk);
      QueuedWhileBusy(l1, cmds[1..], writeOk);
      assert l.queue + [cmds[0]] + cmds[1..] == l.queue + cmds;
    }
  }

  // ---------------------------------------------------------------------
  // Telemetry decoding
  // ---------------------------------------------------------------------

  /**
   * One comma part (arduinoSerial.ts:177-180): `[key, value] = part.split(':')`
   * keeps the first two pieces, so a part is used when it has a non-empty
   * key and at least one colon. The key is lower-cased but not trimmed;
   * only the seven channel names are ever read back.
   */
  function TsEntry(part: string): Option<(Key, JsNum)> {
    var pieces := Split(part, ':');
    if |pieces| < 2 || |pieces[0]| == 0 then None
    else match KeyNamed(ToLower(pieces[0]))
      case None => None
      case Some(k) => Some((k, ParseIntJs(pieces[1])))
  }

  /** One part applied to the `data` object: the key it names is overwritten. */
  function TsApplyPart(data: map<Key, JsNum>, part: string): map<Key, JsNum> {
    match TsEntry(part)
    case None => data
    case Some(e) => data[e.0 := e.1]
  }

  /** The `data` object built by the `forEach`: each later part overwrites the key it names. */
  function TsApplyParts(data: map<Key, JsNum>, parts: seq<string>): map<Key, JsNum>
    decreases |parts|
  {
    if |parts| == 0 then data else TsApplyParts(TsApplyPart(data, parts[0]), parts[1..])
  }

  /** What one part says about a key: its value when the part is usable and names the key. */
  function EntryFor(part: string, k: Key): Option<JsNum> {
    match TsEntry(part)
    case Some(e) => if e.0 == k then Some(e.1) else None
    case None => None
  }

  /** Reference reading of a key: the value of the last usable part naming it. */
  function TsLast(parts: seq<string>, k: Key): Option<JsNum>
    decreases |parts|
  {
    if |parts| == 0 then None
    else if TsLast(parts[1..], k).Some? then TsLast(parts[1..], k)
    else EntryFor(parts[0], k)
  }

  function Lookup(data: map<Key, JsNum>, k: Key): Option<JsNum> {
    if k in data then Some(data[k]) else None
  }

  /** `x || 0` on a number that may be missing: `undefined`, `NaN` and 0 all give 0. */
  function OrZero(v: Option<JsNum>): int {
    match v
    case Some(Num(n)) => n
    case _ => 0
  }

  /**
   * `parseSensorData` (arduinoSerial.ts:171-202): `null` unless gas,
   * light, soil and water were all given (a `NaN` counts as given); the
   * other channels default to 0.
   */
  function TsParseSensorData(line: string, now: Timestamp): Option<TsReading> {
    var data := TsApplyParts(map[], Split(line, ','));
    ReadingOf(Lookup(data, Gas), Lookup(data, Light), Lookup(data, Soil), Lookup(data, Water),
              Lookup(data, Infrar), Lookup(data, Btn1), Lookup(data, Btn2), now)
  }

  /** The object literal of `parseSensorData` (arduinoSerial.ts:183-197) built from the looked-up keys. */
  function ReadingOf(gas: Option<JsNum>, light: Option<JsNum>, soil: Option<JsNum>, water: Option<JsNum>,
                     infrar: Option<JsNum>, btn1: Option<JsNum>, btn2: Option<JsNum>, now: Timestamp): Option<TsReading> {
    if gas.Some? && light.Some? && soil.Some? && water.Some? then
      Some(TsReading(gas.value, light.value, soil.value, water.value,
                     OrZero(infrar), OrZero(btn1), OrZero(btn2), now))
    else None
  }

  lemma TsApplyPartLookup(data: map<Key, JsNum>, part: string, k: Key)
    ensures Lookup(TsApplyPart(data, part), k) == (if EntryFor(part, k).Some? then EntryFor(part, k) else Lookup(data, k))
  {
  }

  lemma {:induction false} TsApplyPartsLookup(data: map<Key, JsNum>, parts: seq<string>, k: Key)
    ensures Lookup(TsApplyParts(data, parts), k) == (if TsLast(parts, k).Some? then TsLast(parts, k) else Lookup(data, k))
    decreases |parts|
  {
    if |parts| > 0 {
      TsApplyPartLookup(data, parts[0], k);
      TsApplyPartsLookup(TsApplyPart(data, parts[0]), parts[1..], k);
    }
  }

  /**
   * A line decodes exactly when each primary channel is named by some
   * usable part; every channel then holds the value of the last part
   * naming it, and the optional channels fall back to 0.
   */
  lemma TsParseTakesLastValue(line: string, now: Timestamp)
    ensures var parts := Split(line, ',');
            var r := TsParseSensorData(line, now);
            && (r.Some? <==> TsLast(parts, Gas).Some? && TsLast(parts, Light).Some?
                             && TsLast(parts, Soil).Some? && TsLast(parts, Water).Some?)
            && (r.Some? ==>
                  && Some(r.value.gas) == TsLast(parts, Gas) && Some(r.value.light) == TsLast(parts, Light)
                  && Some(r.value.soil) == TsLast(parts, Soil) && Some(r.value.water) == TsLast(parts, Water)
                  && r.value.infrar == OrZero(TsLast(parts, Infrar))
                  && r.value.btn1 == OrZero(TsLast(parts, Btn1))
                  && r.value.btn2 == OrZero(TsLast(parts, Btn2))
                  && r.value.timestamp == now)
  {
    var parts := Split(line, ',');
    TsApplyPartsLookup(map[], parts, Gas);
    TsApplyPartsLookup(map[], parts, Light);
    TsApplyPartsLookup(map[], parts, Soil);
    TsApplyPartsLookup(map[], parts, Water);
    TsApplyPartsLookup(map[], parts, Infrar);
    TsApplyPartsLookup(map[], parts, Btn1);
    TsApplyPartsLookup(map[], parts, Btn2);
  }

  /** A device part decodes to its own channel and value. */
  lemma TsFieldPartEntry(k: Key, v: int)
    ensures TsEntry(FieldPart(k, v)) == Some((k, Num(v)))
  {
    DeviceLabelShape(k);
    KeyNamedName(k);
    assert FieldPart(k, v) == DeviceLabel(k) + [':'] + IntToString(v);
    TsLabelledEntry(DeviceLabel(k), k, v);
  }

  /** A part made of a label that names channel `k`, a colon and a number reads as `k` and the number. */
  lemma TsLabelledEntry(name: string, k: Key, v: int)
    requires |name| > 0 && ':' !in name
    requires KeyNamed(ToLower(name)) == Some(k)
    ensures TsEntry(name + [':'] + IntToString(v)) == Some((k, Num(v)))
  {
    var s := IntToString(v);
    NumberHasNoSeparators(v);
    SplitPair(name, s, ':');
    ParseIntJsIntToString(v, "");
    assert s + "" == s;
  }

  lemma {:induction false} TsApplyPartsFor(data: map<Key, JsNum>, keys: seq<Key>, d: SensorReading, k: Key)
    ensures Lookup(TsApplyParts(data, PartsFor(keys, d)), k)
            == (if k in keys then Some(Num(Field(d, k))) else Lookup(data, k))
    decreases |keys|
  {
    if |keys| > 0 {
      var parts := PartsFor(keys, d);
      TsFieldPartEntry(keys[0], Field(d, keys[0]));
      var data' := TsApplyPart(data, parts[0]);
      TsApplyPartLookup(data, parts[0], k);
      assert parts[1..] == PartsFor(keys[1..], d);
      TsApplyPartsFor(data', keys[1..], d, k);
      assert k in keys <==> k == keys[0] || k in keys[1..];
    }
  }

  /** The reading the TypeScript link decodes from a reading the device sends. */
  function FromDevice(d: SensorReading): TsReading {
    TsReading(Num(d.gas), Num(d.light), Num(d.soil), Num(d.water), d.infrar, d.btn1, d.btn2, d.timestamp)
  }

  /** Every channel of a device line is read back with its value. */
  lemma TsDeviceChannel(d: SensorReading, k: Key)
    ensures Lookup(TsApplyParts(map[], PartsFor(DeviceOrder, d)), k) == Some(Num(Field(d, k)))
  {
    DeviceSendsEveryKey(k);
    TsApplyPartsFor(map[], DeviceOrder, d, k);
  }

  /** Decoding a line written in the device's format gives back every channel, with no width limit. */
  lemma TsDecodeEncode(d: SensorReading)
    ensures TsParseSensorData(EncodeTelemetry(d), d.timestamp) == Some(FromDevice(d))
  {
    SplitEncoded(DeviceOrder, d);
    TsParseOfParts(EncodeTelemetry(d), PartsFor(DeviceOrder, d), d.timestamp);
    DeviceLineChannels(d);
  }

  /** `parseSensorData` depends on the line only through its comma-separated parts. */
  lemma TsParseOfParts(line: string, parts: seq<string>, now: Timestamp)
    requires Split(line, ',') == parts
    ensures var data := TsApplyParts(map[], parts);
            TsParseSensorData(line, now)
            == ReadingOf(Lookup(data, Gas), Lookup(data, Light), Lookup(data, Soil), Lookup(data, Water),
                         Lookup(data, Infrar), Lookup(data, Btn1), Lookup(data, Btn2), now)
  {
  }

  lemma DeviceLineChannels(d: SensorReading)
    ensures var data := TsApplyParts(map[], PartsFor(DeviceOrder, d));
            && Lookup(data, Gas) == Some(Num(d.gas)) && Lookup(data, Light) == Some(Num(d.light))
            && Lookup(data, Soil) == Some(Num(d.soil)) && Lookup(data, Water) == Some(Num(d.water))
            && Lookup(data, Infrar) == Some(Num(d.infrar)) && Lookup(data, Btn1) == Some(Num(d.btn1))
            && Lookup(data, Btn2) == Some(Num(d.btn2))
  {
    assert Field(d, Gas) == d.gas && Field(d, Light) == d.light && Field(d, Soil) == d.soil;
    assert Field(d, Water) == d.water && Field(d, Infrar) == d.infrar;
    assert Field(d, Btn1) == d.btn1 && Field(d, Btn2) == d.btn2;
    TsDeviceChannel(d, Gas);
    TsDeviceChannel(d, Light);
    TsDeviceChannel(d, Soil);
    TsDeviceChannel(d, Water);
    TsDeviceChannel(d, Infrar);
    TsDeviceChannel(d, Btn1);
    TsDeviceChannel(d, Btn2);
  }

  // ---------------------------------------------------------------------
  // Rules
  // ---------------------------------------------------------------------

  /** `Rule.find({ enabled: true })` (arduinoSerial.ts:247): the enabled rules, in store order. */
  function Enabled(rules: seq<Rule>): (r: seq<Rule>)
    ensures |r| <= |rules|
  {
    if |rules| == 0 then []
    else (if rules[0].enabled then [rules[0]] else []) + Enabled(rules[1..])
  }

  /** The fetch keeps exactly the enabled rules: each kept rule is enabled and stored, each enabled rule is kept. */
  lemma {:induction false} EnabledSelects(rules: seq<Rule>)
    ensures forall i :: 0 <= i < |Enabled(rules)| ==> Enabled(rules)[i].enabled && Enabled(rules)[i] in rules
    ensures forall x :: x in rules && x.enabled ==> x in Enabled(rules)
    decreases |rules|
  {
    if |rules| > 0 {
      EnabledSelects(rules[1..]);
      var head := if rules[0].enabled then [rules[0]] else [];
      assert Enabled(rules) == head + Enabled(rules[1..]);
      forall x | x in rules && x.enabled
        ensures x in Enabled(rules)
      {
        if x != rules[0] {
          assert x in rules[1..];
        }
      }
    }
  }

  lemma {:induction false} EnabledAppend(a: seq<Rule>, b: seq<Rule>)
    ensures Enabled(a + b) == Enabled(a) + Enabled(b)
    decreases |a|
  {
    if |a| > 0 {
      assert (a + b)[1..] == a[1..] + b;
      EnabledAppend(a[1..], b);
    } else {
      assert a + b == b;
    }
  }

  /**
   * What `sensorData[rule.sensor]` yields: a number (possibly `NaN`), the
   * reading's `Date`, or `undefined` for a key the reading does not have.
   */
  datatype TsValue = Number(n: JsNum) | Date(ms: int) | Undefined

  /**
   * `sensorData[rule.sensor]` (arduinoSerial.ts:250): rule updates are not
   * validated against the schema's sensor enum, so any key of the reading
   * can be named, `timestamp` included; anything else reads as `undefined`
   * (an inherited method, which compares like `undefined`, included).
   */
  function TsChannel(sensor: string, d: TsReading): TsValue {
    if sensor == "gas" then Number(d.gas)
    else if sensor == "light" then Number(d.light)
    else if sensor == "soil" then Number(d.soil)
    else if sensor == "water" then Number(d.water)
    else if sensor == "infrar" then Number(Num(d.infrar))
    else if sensor == "btn1" then Number(Num(d.btn1))
    else if sensor == "btn2" then Number(Num(d.btn2))
    else if sensor == "timestamp" then Date(d.timestamp.ticks)
    else Undefined
  }

  /** The number a relational operator sees: a `Date` compares by its milliseconds; `NaN` and `undefined` have none. */
  function Numeric(v: TsValue): Option<int> {
    match v
    case Number(Num(n)) => Some(n)
    case Date(ms) => Some(ms)
    case _ => None
  }

  /**
   * The operator switch (arduinoSerial.ts:253-269): the relational
   * operators compare numerically and are false on `NaN` and `undefined`,
   * `==` is the strict `===` (so a `Date` never equals a threshold), and an
   * unknown operator leaves the rule untriggered.
   */
  predicate TsCompare(op: string, v: TsValue, threshold: int)
    ensures TsCompare(op, v, threshold) ==> Numeric(v).Some? && op in Operators
    ensures op == "==" ==> (TsCompare(op, v, threshold) <==> v == Number(Num(threshold)))
    ensures op != "==" && Numeric(v).Some? ==>
      (TsCompare(op, v, threshold) <==> Compare(op, Numeric(v).value, threshold))
  {
    if op == "==" then v == Number(Num(threshold))
    else Numeric(v).Some? && Compare(op, Numeric(v).value, threshold)
  }

  predicate TsTriggered(r: Rule, d: TsReading) {
    TsCompare(r.operator, TsChannel(r.sensor, d), r.threshold)
  }

  /**
   * A rule on `timestamp` compares the clock reading in milliseconds with
   * its threshold under `<`, `>`, `<=`, `>=`, and never fires under `==`.
   */
  lemma TimestampRuleReadsClock(r: Rule, d: TsReading)
    requires r.sensor == "timestamp"
    ensures r.operator == "==" ==> !TsTriggered(r, d)
    ensures r.operator != "==" ==> (TsTriggered(r, d) <==> Compare(r.operator, d.timestamp.ticks, r.threshold))
  {
    assert TsChannel(r.sensor, d) == Date(d.timestamp.ticks);
  }

  /** The shadow-guarded action names of `executeAction` (arduinoSerial.ts:283-358). */
  datatype TsAction =
    | WhiteLightOn | WhiteLightOff | YellowLightOn | YellowLightOff
    | RelayOn | RelayOff | DoorOpen | DoorClose | WindowOpen | WindowClose
    | FanOn | FanOff | BuzzerOn | BuzzerOff

  function ActionName(a: TsAction): string {
    match a
    case WhiteLightOn => "white_light_on"
    case WhiteLightOff => "white_light_off"
    case YellowLightOn => "yellow_light_on"
    case YellowLightOff => "yellow_light_off"
    case RelayOn => "relay_on"
    case RelayOff => "relay_off"
    case DoorOpen => "door_open"
    case DoorClose => "door_close"
    case WindowOpen => "window_open"
    case WindowClose => "window_close"
    case FanOn => "fan_on"
    case FanOff => "fan_off"
    case BuzzerOn => "buzzer_on"
    case BuzzerOff => "buzzer_off"
  }

  function ActionNamed(name: string): (a: Option<TsAction>)
    ensures a.Some? ==> ActionName(a.value) == name
  {
    if name == "white_light_on" then Some(WhiteLightOn)
    else if name == "white_light_off" then Some(WhiteLightOff)
    else if name == "yellow_light_on" then Some(YellowLightOn)
    else if name == "yellow_light_off" then Some(YellowLightOff)
    else if name == "relay_on" then Some(RelayOn)
    else if name == "relay_off" then Some(RelayOff)
    else if name == "door_open" then Some(DoorOpen)
    else if name == "door_close" then Some(DoorClose)
    else if name == "window_open" then Some(WindowOpen)
    else if name == "window_close" then Some(WindowClose)
    else if name == "fan_on" then Some(FanOn)
    else if name == "fan_off" then Some(FanOff)
    else if name == "buzzer_on" then Some(BuzzerOn)
    else if name == "buzzer_off" then Some(BuzzerOff)
    else None
  }

  lemma BuzzerOnNamed()
    ensures ActionNamed("buzzer_on") == Some(BuzzerOn)
  {
  }

  /**
   * Whether the shadow says an action still has something to do: a
   * switch only when it is in the other position, a servo only when it is
   * not already at its end angle (a `NaN` angle never is), `buzzer_on`
   * always.
   */
  predicate Pending(a: TsAction, s: TsActuators) {
    match a
    case WhiteLightOn => !s.whiteLight
    case WhiteLightOff => s.whiteLight
    case YellowLightOn => !s.yellowLight
    case YellowLightOff => s.yellowLight
    case RelayOn => !s.relay
    case RelayOff => s.relay
    case DoorOpen => s.doorAngle != Num(180)
    case DoorClose => s.doorAngle != Num(0)
    case WindowOpen => s.windowAngle != Num(180)
    case WindowClose => s.windowAngle != Num(0)
    case FanOn => !s.fan
    case FanOff => s.fan
    case BuzzerOn => true
    case BuzzerOff => s.buzzer
  }

  /**
   * The command half of `executeAction` (arduinoSerial.ts:283-358): an
   * unknown action or one the shadow says is done sends nothing; otherwise
   * the action's own name goes to `sendCommand`, and `buzzer_on` also
   * schedules a `buzzer_off`. The shadow itself is not changed.
   */
  function ActOn(l: TsLink, action: string, writeOk: bool): (r: TsLink)
    ensures ActionNamed(action).None? ==> r == l
    ensures ActionNamed(action).Some? && !Pending(ActionNamed(action).value, l.actuators) ==> r == l
    ensures ActionNamed(action).Some? && Pending(ActionNamed(action).value, l.actuators) ==>
      r.(timers := l.timers) == TsSendCommand(l, action, writeOk)
      && r.timers == l.timers + (if action == "buzzer_on" then ["buzzer_off"] else [])
  {
    match ActionNamed(action)
    case None => l
    case Some(a) =>
      if !Pending(a, l.actuators) then l
      else
        var l1 := TsSendCommand(l, action, writeOk);
        if a == BuzzerOn then l1.(timers := l1.timers + [ActionName(BuzzerOff)]) else l1
  }

  /** `"Action executed: <action>"` (arduinoSerial.ts:364). */
  function ActionAlert(action: string): string {
    "Action executed: " + action
  }

  /**
   * `executeAction` (arduinoSerial.ts:281-373): the command half, then,
   * whenever a current reading exists, a record of the action is saved,
   * even for an action that was not recognised or sent nothing.
   */
  function TsExecuteAction(l: TsLink, action: string, writeOk: bool, saveOk: bool): (r: TsLink)
    ensures r.stored == ActOn(l, action, writeOk).stored
                        + (if l.current.Some? && saveOk then [ActionRecord(l.current.value, ActionAlert(action))] else [])
    ensures r.(stored := l.stored) == ActOn(l, action, writeOk)
  {
    var l1 := ActOn(l, action, writeOk);
    if l.current.Some? && saveOk then l1.(stored := l1.stored + [ActionRecord(l.current.value, ActionAlert(action))])
    else l1
  }

  /** Whether `sendCommand` was reached: the link turned busy or the queue grew. */
  predicate Issued(l: TsLink, r: TsLink) {
    r.ready != l.ready || r.queue != l.queue
  }

  /**
   * With the port open, an action reaches `sendCommand` exactly when it is
   * a known action the shadow says is pending: `white_light_on` only when
   * the white light is off, `door_open` only when the door is not at 180,
   * `buzzer_on` every time.
   */
  lemma ActionSentIffPending(l: TsLink, action: string, writeOk: bool, saveOk: bool)
    requires l.portOpen
    ensures Issued(l, TsExecuteAction(l, action, writeOk, saveOk))
            <==> ActionNamed(action).Some? && Pending(ActionNamed(action).value, l.actuators)
  {
    var r := TsExecuteAction(l, action, writeOk, saveOk);
    if ActionNamed(action).Some? && Pending(ActionNamed(action).value, l.actuators) {
      if !l.ready {
        assert |r.queue| == |l.queue| + 1;
      }
    }
  }

  /** The rules run one after the other, each triggered one executing its action. */
  function ExecuteAll(l: TsLink, rules: seq<Rule>, d: TsReading, writeOk: bool, saveOk: bool): (r: TsLink)
    ensures r.actuators == l.actuators && r.buffer == l.buffer && r.current == l.current
    ensures r.portOpen == l.portOpen && r.saving == l.saving
    ensures |l.stored| <= |r.stored| && r.stored[..|l.stored|] == l.stored
    ensures !l.ready ==> !r.ready && r.wire == l.wire
    decreases |rules|
  {
    if |rules| == 0 then l
    else
      var l1 := if TsTriggered(rules[0], d) then TsExecuteAction(l, rules[0].action, writeOk, saveOk) else l;
      ExecuteAll(l1, rules[1..], d, writeOk, saveOk)
  }

  /**
   * `evaluateRules` (arduinoSerial.ts:245-279), run to completion with no
   * interleaved step: a failed fetch does nothing; otherwise the enabled
   * rules run in store order.
   */
  function TsEvaluateRules(l: TsLink, d: TsReading, env: Env): (r: TsLink)
    ensures !env.rulesOk ==> r == l
    ensures r.actuators == l.actuators && r.buffer == l.buffer && r.current == l.current
    ensures r.portOpen == l.portOpen && r.saving == l.saving
  {
    if !env.rulesOk then l else ExecuteAll(l, Enabled(env.rules), d, env.writeOk, env.saveOk)
  }

  /** A disabled rule changes nothing: evaluation with it and without it agree. */
  lemma TsDisabledRuleIgnored(l: TsLink, a: seq<Rule>, x: Rule, b: seq<Rule>, d: TsReading, env: Env)
    requires !x.enabled
    ensures TsEvaluateRules(l, d, env.(rules := a + [x] + b)) == TsEvaluateRules(l, d, env.(rules := a + b))
  {
    EnabledAppend(a + [x], b);
    EnabledAppend(a, [x]);
    EnabledAppend(a, b);
    assert Enabled([x]) == [] by {
      assert [x][1..] == [];
    }
    assert Enabled(a + [x] + b) == Enabled(a) + Enabled(b);
    var e1 := env.(rules := a + [x] + b);
    var e2 := env.(rules := a + b);
    assert e1.writeOk == e2.writeOk && e1.saveOk == e2.saveOk && e1.rulesOk == e2.rulesOk;
  }

  /**
   * A triggered enabled rule at the head of the store, with the link ready,
   * puts exactly its action's command on the wire; every later command
   * waits in the queue.
   */
  lemma FirstTriggeredRuleWrites(l: TsLink, x: Rule, rest: seq<Rule>, d: TsReading, env: Env)
    requires l.portOpen && l.ready && env.writeOk && env.rulesOk
    requires x.enabled && TsTriggered(x, d)
    requires ActionNamed(x.action).Some? && Pending(ActionNamed(x.action).value, l.actuators)
    ensures TsEvaluateRules(l, d, env.(rules := [x] + rest)).wire == l.wire + [EncodeCommand(x.action)]
  {
    var e := env.(rules := [x] + rest);
    assert ([x] + rest)[1..] == rest;
    assert Enabled([x] + rest) == [x] + Enabled(rest);
    assert ([x] + Enabled(rest))[1..] == Enabled(rest);
    var l1 := TsExecuteAction(l, x.action, e.writeOk, e.saveOk);
    assert l1.wire == l.wire + [EncodeCommand(x.action)] && !l1.ready;
  }

  // ---------------------------------------------------------------------
  // Incoming lines
  // ---------------------------------------------------------------------

  /**
   * `handleIncomingData` (arduinoSerial.ts:140-169), rule evaluation run to
   * completion: a line with `GAS:` that decodes becomes the current
   * reading and is buffered (cut to the last 50 past 100), whatever its
   * values; other lines reach the echo handler only through the gate.
   */
  function TsHandleIncomingData(l: TsLink, line: string, env: Env): (r: TsLink)
    ensures Contains(line, "GAS:") && TsParseSensorData(line, env.now).None? ==> r == l
    ensures Contains(line, "GAS:") && TsParseSensorData(line, env.now).Some? ==>
      var d := TsParseSensorData(line, env.now).value;
      && r.current == Some(d) && r.buffer == Cap(l.buffer + [d])
      && r.actuators == l.actuators && r.portOpen == l.portOpen && r.saving == l.saving
    ensures !Contains(line, "GAS:") && !Gate(line) ==> r == l
    ensures !Contains(line, "GAS:") && Gate(line) ==>
      r == l.(actuators := UpdateActuatorStateFromResponse(l.actuators, line))
  {
    if Contains(line, "GAS:") then
      match TsParseSensorData(line, env.now)
      case None => l
      case Some(d) =>
        TsEvaluateRules(l.(current := Some(d), buffer := Cap(l.buffer + [d])), d, env)
    else if Gate(line) then l.(actuators := UpdateActuatorStateFromResponse(l.actuators, line))
    else l
  }

  /**
   * The line listener (arduinoSerial.ts:108-126): the line is trimmed; an
   * `ACK` is handled in place and anything else, even an empty line, goes
   * to `handleIncomingData`.
   */
  function TsReceive(l: TsLink, raw: string, env: Env): (r: TsLink)
    ensures Trim(JsSpace, raw) == "ACK" ==> r == TsHandleAck(l)
    ensures Trim(JsSpace, raw) != "ACK" ==> r == TsHandleIncomingData(l, Trim(JsSpace, raw), env)
  {
    var line := Trim(JsSpace, raw);
    if line == "ACK" then TsHandleAck(l) else TsHandleIncomingData(l, line, env)
  }

  /** An echo without a gate word is dropped, however well-formed: `Door angle: 90` alone changes nothing. */
  lemma UngatedEchoIgnored(l: TsLink, line: string, env: Env)
    requires !Contains(line, "GAS:") && !Gate(line)
    ensures TsHandleIncomingData(l, line, env) == l
  {
  }

  // ---------------------------------------------------------------------
  // Saving the buffer
  // ---------------------------------------------------------------------

  function Samples(b: seq<TsReading>): (docs: seq<TsDoc>)
    ensures |docs| == |b| && forall i :: 0 <= i < |b| ==> docs[i] == Sample(b[i])
  {
    if |b| == 0 then [] else [Sample(b[0])] + Samples(b[1..])
  }

  /**
   * `saveBufferedData` (arduinoSerial.ts:411-424): an empty buffer is left
   * alone; otherwise the whole buffer is spliced out, and only a
   * successful insert keeps it.
   */
  function TsSaveBufferedData(l: TsLink, saveOk: bool): (r: TsLink)
    ensures |l.buffer| == 0 ==> r == l
    ensures |l.buffer| > 0 ==> r.buffer == [] && r.stored == l.stored + (if saveOk then Samples(l.buffer) else [])
    ensures r.(buffer := l.buffer, stored := l.stored) == l
  {
    if |l.buffer| == 0 then l
    else l.(buffer := [], stored := l.stored + (if saveOk then Samples(l.buffer) else []))
  }

  /** A failed save loses its batch: the samples are neither buffered nor stored. */
  lemma FailedSaveLosesBatch(l: TsLink, d: TsReading)
    requires d in l.buffer
    ensures var r := TsSaveBufferedData(l, false);
            d !in r.buffer && r.stored == l.stored
  {
  }

  // ---------------------------------------------------------------------
  // The link as a whole
  // ---------------------------------------------------------------------

  datatype TsEvent =
    | TsLineRead(raw: string)      // the parser emitted a line
    | TsSaveTick                   // the save interval fired
    | TsTimerFires(i: nat)         // the i-th pending `setTimeout` fired
    | TsConnectRequest
    | TsDisconnectRequest
    | TsSendRequest(cmd: string)

  /** One step. Lines arrive only while the port is open; the saver runs only while installed. */
  function TsStep(l: TsLink, e: TsEvent, env: Env): TsLink {
    match e
    case TsLineRead(raw) => if l.portOpen then TsReceive(l, raw, env) else l
    case TsSaveTick => if l.saving then TsSaveBufferedData(l, env.saveOk) else l
    case TsTimerFires(i) => TsFireTimer(l, i, env.writeOk)
    case TsConnectRequest => TsConnect(l, env.openOk)
    case TsDisconnectRequest => TsDisconnect(l)
    case TsSendRequest(cmd) => TsSendCommand(l, cmd, env.writeOk)
  }

  function TsRun(l: TsLink, events: seq<TsEvent>, envs: seq<Env>): TsLink
    requires |envs| == |events|
    decreases |events|
  {
    if |events| == 0 then l else TsRun(TsStep(l, events[0], envs[0]), events[1..], envs[1..])
  }

  /** Every step keeps the buffer within its cap. */
  lemma TsStepKeepsBounds(l: TsLink, e: TsEvent, env: Env)
    requires |l.buffer| <= HighWater
    ensures |TsStep(l, e, env).buffer| <= HighWater
  {
  }

  lemma {:induction false} TsRunKeepsBounds(l: TsLink, events: seq<TsEvent>, envs: seq<Env>)
    requires |l.buffer| <= HighWater && |envs| == |events|
    ensures |TsRun(l, events, envs).buffer| <= HighWater
    decreases |events|
  {
    if |events| > 0 {
      TsStepKeepsBounds(l, events[0], envs[0]);
      TsRunKeepsBounds(TsStep(l, events[0], envs[0]), events[1..], envs[1..]);
    }
  }

  /** No step reinstalls a cleared save interval. */
  lemma TsStepKeepsSaverOff(l: TsLink, e: TsEvent, env: Env)
    requires !l.saving
    ensures !TsStep(l, e, env).saving
  {
  }

  lemma {:induction false} TsRunKeepsSaverOff(l: TsLink, events: seq<TsEvent>, envs: seq<Env>)
    requires !l.saving && |envs| == |events|
    ensures !TsRun(l, events, envs).saving
    decreases |events|
  {
    if |events| > 0 {
      TsStepKeepsSaverOff(l, events[0], envs[0]);
      TsRunKeepsSaverOff(TsStep(l, events[0], envs[0]), events[1..], envs[1..]);
    }
  }

  /**
   * Once disconnected, the link never saves again: a later reconnect
   * does not reinstall the save interval, so buffered samples are only
   * ever cut, never stored.
   */
  lemma NoSavingAfterDisconnect(l: TsLink, events: seq<TsEvent>, envs: seq<Env>, env: Env)
    requires |envs| == |events|
    ensures var r := TsRun(TsDisconnect(l), events, envs);
            !r.saving && TsStep(r, TsSaveTick, env) == r
  {
    TsRunKeepsSaverOff(TsDisconnect(l), events, envs);
  }
}

=== FILE: wrappers.dfy ===
/** Optional values and results shared by the link and rule models. */
module Wrappers {

  /** A value that may be absent: a Go `nil` pointer, a JavaScript `null`/`undefined`. */
  datatype Option<+T> = None | Some(value: T) {

    /** The carried value, or `default` when there is none. */
    function GetOr(default: T): T {
      match this
      case Some(v) => v
      case None => default
    }
  }

  /** The outcome of an operation that returns either a value or an error. */
  datatype Result<+R, +E> = Success(value: R) | Failure(error: E)
}
